=== FILE: README.md ===
# audio-demo in Dafny

A model of the audio-demo pipeline, which compares speech-enhancement methods on the same recordings. The model covers each stage:

- **Preparation.** Each input recording is resampled into `<name>_16k.wav` and `<name>_44k.wav`.
- **Enhancement.** Four method scripts (DTLN, RNNoise, VoiceFixer mode 1, Supervoice Enhance) each read one of the prepared rates and write an enhanced file, whose name carries a method tag.
- **Spectrograms.** A helper draws a spectrogram for every `.wav` file of a tree.
- **Summary.** `summary.py` files the prepared originals under their base names and matches every method's outputs back to them. It then builds a comparison page, and the page's script filters the methods and seeks playback.

The pretrained networks are uninterpreted function parameters:

- the DTLN network is a block-to-block function;
- the RNNoise denoiser is a function of the frames seen so far and the new frame;
- VoiceFixer and the Supervoice model are parameters too.

Samples are integers. Directory listings are given sequences in arbitrary order. "Exists" is a predicate over paths: the state of the output directory before a run. The enhancement scripts' batch loop asks for existence afresh on every iteration, so the files a run has already written also count.

What is proved, in the system's own terms:

- **Block and frame loops.**
  - The DTLN overlap-add loop stays in bounds.
  - Each output sample is the sum of the four overlapping network blocks.
  - After unpadding, every kept sample was written.
  - RNNoise cuts the signal into 480-sample frames, zero-pads the last one, covers every index exactly once, and falls back to the input where a frame fails.
- **The RNNoise wrapper's life cycle.** The C library is a record of functions, and every call into it is logged as an event. The proofs cover:
  - the guard order of `process_frame`, including the `AttributeError` its `TypeError` message raises for a value without `dtype` (see Findings);
  - the idempotence of `destroy`;
  - the resource invariant, under which a model is freed at most once, for the corrected constructor;
  - the double free of the constructor as written (see Findings).
- **File names and their inverse.**
  - DTLN, RNNoise and VoiceFixer rewrite `_16k`/`_44k` with Python's `str.replace`, which replaces every occurrence. `Strings.ReplaceAll` models that. Preparation builds `<name>_<rate><ext>` from `splitext`, and Supervoice appends `_supervoiceenhance.wav` to the stem and keeps the rate key.
  - The summary's matcher recovers the base name from each producer's output, as long as the stem is free of the rate keys and of the suffix.
  - Two quirks of the code are proved as lemmas (see the notes below).
- **The batch loop.** Each enhancement script skips an input whose output exists when its turn comes. Two inputs can share an output name, since every `_16k` is replaced: `x_16k_16k.wav` and `x_dtln_enhanced_16k.wav` both become `x_dtln_enhanced_dtln_enhanced.wav`. The loop then writes the first and skips the second (`Dtln.CollisionSkipsSecond`). On prepared inputs, whose stems hold no rate key, names never collide, and the loop runs exactly the inputs whose output was absent before the run (`PreparedRunIsPlan` in each script).
- **Selection rules of the summary.**
  - The 16k test wins when filing originals.
  - Orphan outputs are ignored, and every kept entry has an original.
  - A method's configuration text comes from its first recorded file and is never overwritten.
  - The active methods are exactly the configured directories, in sorted order.
  - Rows come in sorted base-name order, with one cell per method.
  - The 44k original is preferred only for `supervoice_flow`.
  - Every spectrogram link on the page is an image the spectrogram generator writes. The generator also writes images the page never links, e.g. for hidden or nested `.wav` files.
- **The page script.**
  - The method filter is a set-toggle state machine whose buttons stay consistent with the set, and a method is selected exactly when it was clicked an odd number of times.
  - The original column is always shown.
  - The click-to-seek guard is modelled.
  - The `m:ss` hover label reads back as whole minutes and the seconds below 60.

Notes on behaviour the code has, as proved:

- The dtln configuration extractor uses `re.match(r'.*_dtln_(.*?)_enhanced\.wav', …)`. It returns the default text for an output `b_dtln_enhanced.wav` whose `b + "_dtln"` contains no `_dtln_` (`SummaryConfig.DtlnDefaultConfig`). That condition holds exactly when `b` neither contains `_dtln_` nor ends in `_dtln` (`SummaryConfig.DtlnTagCondition`). A base such as `a_dtlnx` contains `_dtln` and still gets the default. A base ending in `_dtln` can yield a bogus model name: `x_dtln_dtln_enhanced.wav` reads as `Model: dtln` (`SummaryConfig.DtlnTagInBase`).
- Preparing a recording whose own stem ends in `_44k` produces `y_44k_16k.wav`, which is filed under base `y_44k`. The DTLN output for it is `y_44k_dtln_enhanced.wav`. The matcher strips one trailing `_44k` from that and looks up base `y` instead (`RoundTrips.RateStemMismatch`). If there is no base `y`, the output is dropped as an orphan. If a recording `y.wav` also exists, the output is shown in y's row, where it may replace y's own DTLN output; the `y_44k` row keeps no DTLN output from it (`RoundTrips.RateStemRecorded`).
- `METHOD_INPUT_RATE_KEY` names the VoiceFixer methods `voice_fixer_0/1`, not by their directory names, so only `supervoice_flow` makes a row prefer the 44k original (`SummaryConfig.OnlySupervoicePrefers44k`).

Module layout, following the program:

- `common`, `strings`, `paths`, `sorting`: options and slice writes, Python's `str.replace`/`in`/`lower`, `os.path` and `glob`, and `sorted` on strings.
- `preparation`, `batch`, `dtln`, `rnnoise`, `rnnoise_wrapper`, `voice_fixer`, `supervoice`: the producers.
- `spectrogram`: the spectrogram generator.
- `summary_config`, `summary_find`, `summary_page`, `summary_js`: the summary script and the page script.
- `round_trips`: the producer/matcher round trips.

## Model

| member | source | states |
|---|---|---|
| Strings.ReplaceAll | summary.py:136 | Python `str.replace`, leftmost and non-overlapping, every occurrence. A string without the pattern is returned unchanged, and removal never lengthens it. |
| Strings.ReplaceAllShortens | summary.py:135-136 | When the pattern occurs in the name, deleting it with `str.replace` removes at least one whole copy of it. |
| Strings.ReplaceSole | summary.py:165 | Replacing an unbordered pattern that occurs exactly once, between two pattern-free parts, yields `a + rep + c`. |
| Strings.ReplaceAllConcat | methods/dtln/run.py:178 | A pattern-free prefix that no occurrence straddles passes through `str.replace` untouched. |
| Strings.ContainsIff | summary.py:135 | Python's `in` on strings holds exactly when the pattern occurs at some index. |
| Paths.Join | summary.py:146 | `os.path.join`: an absolute second part wins, and otherwise the result ends with the name. |
| Paths.Basename | summary.py:134 | `os.path.basename` is the separator-free tail of the path. |
| Paths.BasenameOfJoin | summary.py:320 | The basename of `join(dir, name)` is `name` for a separator-free name. |
| Paths.SplitExt | preparation.py:56 | `os.path.splitext`: the parts concatenate back to the name, and the extension is empty or a single dot-led separator-free part. |
| Paths.SplitExtOf | preparation.py:56 | `splitext(x + ext)` is `(x, ext)` for a plain stem and extension. |
| Paths.Glob | summary.py:132 | `glob(dir/*suffix)` lists exactly the non-hidden entries ending in the suffix. |
| Sorting.Sort | summary.py:214 | `sort()` yields an ordered permutation of its input. |
| Sorting.SortedUnique | summary.py:283 | Two sorted permutations of the same strings are equal, so the sorted order is unique. |
| Sorting.SortKeepsDistinct | summary.py:283 | Sorting distinct keys keeps them distinct. |
| Sorting.LessEqTotal | summary.py:214 | String comparison is total; with `LessEqReflexive`, `LessEqAntisymmetric` and `LessEqTransitive` it is a total order. |
| Preparation.PreparedNames | preparation.py:55-60 | `name.wav` yields exactly `name_16k.wav` and `name_44k.wav`. |
| Preparation.PreparedPathInjective | preparation.py:55-60 | Distinct inputs or distinct rates never share a prepared output path. |
| Preparation.RateJobs | preparation.py:58-67 | The jobs for one input are those target rates whose output does not exist yet, each writing `<name>_<key><ext>`. |
| Preparation.RateJobsAll | preparation.py:58-67 | With no output present, one job per target rate is made, in `TARGET_RATES` order. |
| Preparation.Plan | preparation.py:54-67 | Every job is for a listed input and an absent output, and every absent output gets its job. |
| Preparation.PlanNonePresent | preparation.py:54-67 | On a fresh output directory the plan is both rates for every input, in listing order. |
| Preparation.Main | preparation.py:42-69 | No `.wav` input means nothing is produced. Otherwise every job reads `INPUT_DIR/f` and writes its prepared path, which did not exist. |
| Preparation.RerunSkips | preparation.py:62-65 | A rerun with every output present does nothing. |
| Preparation.ResampleAudio | preparation.py:16-40 | An undecodable input writes nothing. An input at the target rate is written unchanged, any other is resampled, and either way the file is written at the target rate. |
| Preparation.ResampleIdempotent | preparation.py:23-27 | Preparing an already-prepared file again leaves it unchanged. |
| Batch.Plan | methods/dtln/run.py:175-186 | The loop judged against the output directory as it was before the run: the jobs are exactly the inputs whose output path is absent, each writing to `join(out_dir, name)`. |
| Batch.Run | methods/dtln/run.py:175-186 | The loop as written, asking `os.path.exists` on every iteration. Every job's output was absent before the run and not written earlier in it. An input runs when its output is absent and no other input shares it. When every job writes its file, no output is written twice. |
| Batch.RunIsPlan | methods/rnnoise/run.py:153-164 | When distinct inputs have distinct output paths, the per-iteration loop runs exactly the jobs the snapshot plans. |
| Batch.RunAllPresent | methods/voice_fixer_mode_1/run.py:55-67 | With every output present before the run, the loop processes nothing. |
| Batch.PlanAllPresent | methods/voice_fixer_mode_1/run.py:55-67 | With every output present, no input is processed. |
| Batch.GlobEmpty | methods/dtln/run.py:135-140 | The `*_16k.wav` glob is empty exactly when no non-hidden listed name has the suffix. |
| Batch.GlobPlan | methods/rnnoise/run.py:124-164 | Against the directory as it was before the run, the jobs are exactly the non-hidden suffix-matching inputs whose output is absent. |
| Batch.GlobRun | methods/rnnoise/run.py:124-164 | The per-iteration loop over the glob: each job is a visible suffix-matching input whose output was absent. Every such input with a unique output runs. When every job writes its file, no output is written twice. |
| Batch.GlobRunIsPlan | methods/dtln/run.py:175-186 | In a listing without repeats, a naming that keeps distinct inputs apart, with plain non-empty file names, makes the loop run exactly the snapshot's jobs. |
| Batch.Renamer | methods/rnnoise/run.py:157 | The naming the loop applies to each input is `name.replace(key, tag)`, shared by the DTLN, RNNoise and VoiceFixer scripts. |
| Batch.RateKeysPlain | methods/voice_fixer_mode_1/run.py:11 | Neither rate key `_16k` nor `_44k` overlaps itself or occurs in `.wav`, and each input suffix is its key followed by `.wav`. |
| Batch.RenamedAtEnd | methods/voice_fixer_mode_1/run.py:60 | A prepared name `x<key>.wav` whose stem has no key is renamed `x<tag>.wav`: the key at the end is the only one replaced. |
| Batch.RenamedStem | methods/rnnoise/run.py:157 | Applied to a whole name ending in `<key>.wav` with a key-free stem, the renaming gives the stem + tag + `.wav`. |
| Batch.RenamedRunIsPlan | methods/rnnoise/run.py:153-164 | On prepared inputs listed once each, renaming the key to a separator-free tag makes the loop run exactly what a snapshot of the output directory plans. |
| Batch.StemNamingApart | methods/dtln/run.py:178 | A naming that turns each input's stem into stem + fixed tag + `.wav` keeps distinct inputs apart and yields plain, non-empty file names. |
| Dtln.BlockInBounds | methods/dtln/run.py:42-52 | For every `idx < num_blocks`, the read and write range `[idx*128, idx*128+128)` lies within the input. |
| Dtln.InBlock | methods/dtln/run.py:39-52 | The input buffer after block `b` holds the last 512 samples, zero where the index would be negative. |
| Dtln.InBlockStep | methods/dtln/run.py:50-52 | Shifting the buffer by 128 and appending the next 128 samples gives the next block's buffer. |
| Dtln.ShiftOut | methods/dtln/run.py:67-68 | The output buffer moves left by 128, and the last 128 slots become zero. |
| Dtln.OutBufferSlot | methods/dtln/run.py:67-70 | After a block, a slot below 384 holds the new network output plus the previous buffer's slot 128 further on. |
| Dtln.OutBufferHead | methods/dtln/run.py:67-72 | The first 128 slots after block `idx` are the overlap-add: the sum over `k` in 0..3 with `idx-k >= 0` of block `idx-k`'s output at `j + 128k`. |
| Dtln.BlockWritten | methods/dtln/run.py:72 | The slice written for block `idx` holds the overlap-add value of every index it covers. |
| Dtln.LoopStep | methods/dtln/run.py:46-72 | One loop iteration keeps the buffer and output invariants, one block further on. |
| Dtln.ProcessAudio | methods/dtln/run.py:33-75 | The output has the input's length. Every index below `num_blocks*128` holds its overlap-add sum, and the rest stay 0. |
| Dtln.KeptSamplesWritten | methods/dtln/run.py:97-106 | After padding 512 zeros on each side, every index of `[512, 512+len)` lies below `num_blocks*128`. |
| Dtln.ProcessFile | methods/dtln/run.py:78-114 | A rate other than 16000 is skipped. Otherwise the result has the original length, and sample `i` is the overlap-add value at padded index `512+i`. |
| Dtln.OutputNameOfPrepared | methods/dtln/run.py:178 | `x_16k.wav` is renamed `x_dtln_enhanced.wav` when `x` has no `_16k`. |
| Dtln.NormStft | methods/dtln/run.py:148-153 | `norm_stft` holds exactly when the model path contains `_norm_`. |
| Dtln.Main | methods/dtln/run.py:120-188 | A missing model stops the run, and so does an empty `*_16k.wav` glob. A model that fails to load stops it too. Otherwise the loop runs, with `norm_stft` from the path: each job's `_dtln_enhanced` output was absent, every input with an absent and unshared output runs, and no output is written twice. |
| Dtln.PreparedRunIsPlan | methods/dtln/run.py:175-186 | On prepared inputs listed once each, whose stems hold no `_16k`, the loop runs exactly the inputs whose output was absent before the run. |
| Dtln.CollisionSkipsSecond | methods/dtln/run.py:175-186 | For a stem `x` without `_16k`, `x_16k_16k.wav` and `x_dtln_enhanced_16k.wav` get the same output name. The loop runs only the first, where a snapshot would plan both. |
| Rnnoise.FrameSizeAgrees | methods/rnnoise/run.py:23 | `RNNOISE_FRAME_SIZE` equals the wrapper's `SAMPLES_PER_FRAME`. |
| Rnnoise.FrameCovers | methods/rnnoise/run.py:40-72 | Every input index falls in frame `i div 480` at offset `i mod 480`, among the frames handed to the denoiser. |
| Rnnoise.FrameUnique | methods/rnnoise/run.py:45-48 | An index belongs to exactly one frame. |
| Rnnoise.TailPadding | methods/rnnoise/run.py:62-68 | The last partial frame is zero beyond the remaining samples. |
| Rnnoise.IdentityKeepsAudio | methods/rnnoise/run.py:45-76 | A denoiser that returns its frame unchanged leaves the whole signal unchanged. |
| Rnnoise.FailedFrameKeepsAudio | methods/rnnoise/run.py:55-59 | Where processing a frame raises, the output over that frame's range equals the input. |
| Rnnoise.FramesPassWrapperGuards | methods/rnnoise/run.py:48 | Every frame handed over is a float32 array of shape `(480,)`, so a live wrapper processes it without raising. |
| Rnnoise.WriteFrameStep | methods/rnnoise/run.py:54-59 | Writing frame `k`'s result (or fallback) extends the finished prefix by one frame. |
| Rnnoise.DenoiseFrame | methods/rnnoise/run.py:50-76 | One frame, full or partial, is processed, and only its first `n` outputs are copied back. |
| Rnnoise.ProcessAudioRnnoise | methods/rnnoise/run.py:29-81 | Non-float32 input raises `TypeError` before any frame. Otherwise the frames are handed over once each, in order, and the output has the input's length. Each index holds its frame's denoised sample, or the input sample where that frame failed. |
| Rnnoise.ProcessFile | methods/rnnoise/run.py:83-111 | A rate other than 16000 is skipped, and otherwise the enhanced signal is written. |
| Rnnoise.EnhancedTag | methods/rnnoise/run.py:156-157 | The tag is `_rnnoise_model_enhanced` with the weights file and `_rnnoise_default_enhanced` without. |
| Rnnoise.InitSucceeds | methods/rnnoise/run.py:134-151 | With the weights file, construction succeeds exactly when the model loads and `rnnoise_init` returns 0. Without it, construction succeeds exactly when `rnnoise_create` succeeds. |
| Rnnoise.Main | methods/rnnoise/run.py:115-171 | An empty glob returns first, and a failed construction stops the run. Otherwise the loop runs the absent outputs named with the weights-file tag, under the same guarantees as DTLN. The closing `destroy()` then frees the loaded model or destroys the library-created state, and the later `__del__` makes no call. |
| Rnnoise.PreparedRunIsPlan | methods/rnnoise/run.py:153-164 | On prepared inputs listed once each, whose stems hold no `_16k`, the loop runs exactly the inputs whose output was absent before the run. |
| RnnoiseWrapper.SamplesPerFrameIs480 | methods/rnnoise/rnnoise_cffi_wrapper.py:7-10 | `(48000 div 1000) * 10 = 480`. |
| RnnoiseWrapper.Construct | methods/rnnoise/rnnoise_cffi_wrapper.py:16-52 | A missing model file raises before any library call, and success leaves a live object. A model path makes exactly the load/size/init calls, and a failing init frees the model but keeps the reference. Otherwise the state comes from `rnnoise_create`. |
| RnnoiseWrapper.ConstructCorrected | methods/rnnoise/rnnoise_cffi_wrapper.py:42-45 | The same guarantees as `Construct`, and a model reference it keeps was never freed. |
| RnnoiseWrapper.ProcessFrame | methods/rnnoise/rnnoise_cffi_wrapper.py:54-88 | As written, the checks fire in order, each before any library call. A destroyed object raises `RNNoiseCFFIError`. A non-float32 value raises `TypeError`, but `AttributeError` when it has no `dtype`, because the message reads it. A shape other than `(480,)` raises `ValueError`. Success makes one `rnnoise_process_frame` call and returns a fresh 480-sample frame. |
| RnnoiseWrapper.ProcessFrameCorrected | methods/rnnoise/rnnoise_cffi_wrapper.py:72-73 | With the message built without `.dtype`, every value that is not a float32 array raises `TypeError`. The other guards and the success case are unchanged. |
| RnnoiseWrapper.AsWrittenAttributeError | methods/rnnoise/rnnoise_cffi_wrapper.py:72-73 | The two versions leave the same object and make the same calls for every value. Their results differ exactly for a value without `dtype` on a live object: `AttributeError` as written, `TypeError` as intended. |
| RnnoiseWrapper.Destroy | methods/rnnoise/rnnoise_cffi_wrapper.py:90-107 | A second call does nothing. Otherwise `rnnoise_destroy` is called exactly when the state was library-created, the model is freed exactly when held, and afterwards the object is destroyed and holds neither. |
| RnnoiseWrapper.Del | methods/rnnoise/rnnoise_cffi_wrapper.py:109-112 | `__del__` destroys an object not yet destroyed and does nothing otherwise. |
| RnnoiseWrapper.DestroyIdempotent | methods/rnnoise/rnnoise_cffi_wrapper.py:90-92 | `destroy` after `destroy`, and `__del__` after `destroy`, make no call. |
| RnnoiseWrapper.DestroySound | methods/rnnoise/rnnoise_cffi_wrapper.py:90-107 | `destroy` keeps the resource invariant: each resource is freed at most once, and never while still referenced. |
| RnnoiseWrapper.ProcessSound | methods/rnnoise/rnnoise_cffi_wrapper.py:58-88 | `process_frame` keeps the resource invariant. |
| RnnoiseWrapper.RunOpsSound | methods/rnnoise/rnnoise_cffi_wrapper.py:54-112 | Any sequence of `process_frame`/`destroy` calls keeps the resource invariant. |
| RnnoiseWrapper.BuiltSound | methods/rnnoise/rnnoise_cffi_wrapper.py:16-52 | The corrected constructor establishes the resource invariant on every path. |
| RnnoiseWrapper.CorrectedFreesOnce | methods/rnnoise/rnnoise_cffi_wrapper.py:103-112 | With the corrected constructor, over any lifetime ending in `__del__`, the model is freed at most once and the state destroyed at most once. |
| RnnoiseWrapper.AsWrittenFreesTwice | methods/rnnoise/rnnoise_cffi_wrapper.py:42-45 | As written, a model that loads but fails `rnnoise_init` is freed in `__init__` and again by `__del__` (lines 103-104, 109-112): two frees. |
| VoiceFixer.TagPart | methods/voice_fixer_mode_1/run.py:59 | The tag part is empty exactly for an empty tag, and is `_` + tag otherwise. |
| VoiceFixer.EnhancedTag | methods/voice_fixer_mode_1/run.py:59-60 | Tag `mode1` gives `_vf_mode1_enhanced`, and the empty tag gives `_vf_enhanced`. |
| VoiceFixer.Main | methods/voice_fixer_mode_1/run.py:31-69 | An empty `*_44k.wav` glob returns before the model is built. A failing `VoiceFixer()` ends the run before any input. Otherwise the loop runs in the given mode, under the same guarantees as DTLN. |
| VoiceFixer.PreparedRunIsPlan | methods/voice_fixer_mode_1/run.py:55-67 | On prepared inputs listed once each, whose stems hold no `_44k`, and with a separator-free tag, the loop runs exactly the inputs whose output was absent before the run. |
| VoiceFixer.ScriptMain | methods/voice_fixer_mode_1/run.py:94 | As a script, mode 1 and tag `mode1` are used. |
| VoiceFixer.RerunSkips | methods/voice_fixer_mode_1/run.py:63-65 | A rerun with every output present processes nothing. |
| Supervoice.WavFiles | methods/supervoice_flow/run.py:124 | Directory mode takes exactly the entries whose lower-cased name ends in `.wav`. |
| Supervoice.OutputNameOfPrepared | methods/supervoice_flow/run.py:132 | `x_44k.wav` becomes `x_44k_supervoiceenhance.wav`. |
| Supervoice.UpperCaseExtension | methods/supervoice_flow/run.py:124-132 | `A.WAV` is accepted and named `A_supervoiceenhance.wav`. |
| Supervoice.Main | methods/supervoice_flow/run.py:94-147 | A failed model load exits. A directory yields one job per `.wav` entry in listing order, and a single `.wav` file yields one job. Anything else is an error with no job. |
| Supervoice.PrepareInput | methods/supervoice_flow/run.py:50-68 | Resampling happens exactly when the rates differ, and afterwards the rate is the model's. More than one channel is averaged, and a single channel is squeezed to one dimension. |
| Supervoice.WrittenShape | methods/supervoice_flow/run.py:81-82 | A 1-D result gets a trailing channel axis, and any other shape is written as is. |
| Supervoice.EnhanceAudio | methods/supervoice_flow/run.py:34-86 | Without a model nothing is written. Otherwise the written shape is the enhanced shape with its channel axis, at the model's rate. |
| Supervoice.MonoRoundTrip | methods/supervoice_flow/run.py:62-85 | A shape-preserving model writes a `[frames, 1]` array at the model's rate. |
| Spectrogram.WavNames | utils/spectrogram.py:61 | Exactly the names ending in `.wav`, case-sensitive, are kept. |
| Spectrogram.DirFiles | utils/spectrogram.py:60-62 | A directory's files are exactly its `.wav` names, in listing order. |
| Spectrogram.FilesCount | utils/spectrogram.py:49-50 | The walk's `.wav` files number `total_files`. |
| Spectrogram.FilesExactly | utils/spectrogram.py:60-62 | A file is processed exactly when some directory of the walk lists it under a `.wav` name. |
| Spectrogram.GenerateForDir | utils/spectrogram.py:61-72 | Each `.wav` file of a directory is attempted in order, with the image at `output_dir/rel_path` where every `.wav` becomes `_spectrogram.png`. |
| Spectrogram.GenerateForDirectory | utils/spectrogram.py:38-77 | With no `.wav` file nothing is attempted. Otherwise every file is attempted once, in walk order, and `processed_count` ends equal to `total_files`, failures included. |
| SummaryConfig.OnlySupervoicePrefers44k | summary.py:48-55 | Among the configured methods, only `supervoice_flow` maps to `_44k`. |
| SummaryConfig.SuffixesAreWav | summary.py:21-45 | Every expected suffix ends in `.wav`. |
| SummaryConfig.LazyEnd | summary.py:34 | The lazy `(.*?)_enhanced\.wav` group ends at the first `_enhanced.wav` reachable without crossing a newline. |
| SummaryConfig.MatchFrom | summary.py:34 | The greedy `.*_dtln_` backtracks to the last start where the whole pattern matches. |
| SummaryConfig.DtlnConfig | summary.py:33-35 | The extractor returns `Model: <group>` on a match and the default text otherwise. |
| SummaryConfig.DtlnDefaultConfig | summary.py:33-35 | For `b_dtln_enhanced.wav` with no `_dtln_` in `b + "_dtln"`, the text is `Model: DTLN_norm_500h.h5 (Default)`. |
| SummaryConfig.DtlnTagCondition | summary.py:33-35 | `b + "_dtln"` contains `_dtln_` exactly when `b` contains `_dtln_` or ends in `_dtln`, so these are the bases whose output may not show the default text. |
| SummaryConfig.DtlnTagInBase | summary.py:33-35 | `x_dtln_dtln_enhanced.wav` reads as `Model: dtln`. |
| SummaryConfig.ConfigText | summary.py:21-45 | Each method's configuration text is non-empty, and fixed for every method but dtln. |
| SummaryFind.Classify | summary.py:133-142 | A prepared name is filed as a 16k original exactly when it contains `_16k.wav`. Otherwise it is a 44k original exactly when it contains `_44k.wav`, and anything else is skipped. A filed base is shorter than the name by at least the whole key. |
| SummaryFind.AddPrepared | summary.py:133-142 | Filing a prepared path adds exactly its base, if any, and keeps every entry's original. |
| SummaryFind.PreparedKeys | summary.py:132-142 | After the prepared scan, the keys are the bases of the prepared files. |
| SummaryFind.PreparedHaveOriginals | summary.py:133-140 | Every entry the prepared scan creates has an original. |
| SummaryFind.StripRate | summary.py:166-171 | One trailing `_16k` or `_44k` is dropped, and any other name is kept. |
| SummaryFind.Match | summary.py:162-187 | A name matches exactly when it ends with the method's suffix, or with `_rnnoise_default_enhanced.wav` for `rnnoise`. The configuration text comes from the extractor, or is `Model: Default` for the rnnoise alternative. |
| SummaryFind.Store | summary.py:191-196 | Recording sets `methods[m]` of one base and changes no other entry. |
| SummaryFind.RecordEnhanced | summary.py:189-206 | A match whose base is not in `results` changes nothing. Originals are never changed, and only method `m`'s config may change. |
| SummaryFind.OrphanIgnored | summary.py:189-208 | A non-matching or orphan output changes nothing. |
| SummaryFind.RecordedStored | summary.py:191-196 | A recorded output is stored as `methods[m] = path`. |
| SummaryFind.Capture | summary.py:199-202 | Capturing sets only method `m`'s text, and not capturing leaves the configs alone. |
| SummaryFind.ConfigCapture | summary.py:129-202 | A method's config becomes the text of its first recorded output, and stays unchanged if none is recorded. |
| SummaryFind.FoundKeepsConfig | summary.py:150-202 | Once captured, a method's config is never overwritten. |
| SummaryFind.ScanMethods | summary.py:145-206 | Scanning the methods' outputs keeps the keys, the order and every original. |
| SummaryFind.ScanMethodsWithin | summary.py:145-206 | Only scanned methods are recorded, and only they get configs. |
| SummaryFind.ActiveList | summary.py:123-126 | The active methods are exactly the listed directories that are `METHOD_CONFIG` keys, each once. |
| SummaryFind.KeepWithOriginal | summary.py:210-211 | The kept entries are exactly those with a truthy original, unchanged. |
| SummaryFind.FilterKeysAll | summary.py:211 | When every entry has an original, the filter keeps the insertion order whole. |
| SummaryFind.FindFiles | summary.py:120-215 | Every returned entry has an original, and the methods are exactly the active directories, sorted and distinct. |
| SummaryFind.FindFilesKeys | summary.py:131-211 | The returned bases are exactly the bases of the prepared `.wav` files. |
| SummaryFind.FindFilesConfigs | summary.py:126-129 | Exactly the active methods have a configuration text. |
| SummaryFind.FindFilesMethods | summary.py:145-196 | Every recorded method is an active one. |
| SummaryFind.FindFilesPaths | summary.py:132-196 | Every stored path is a `glob` result: a prepared path or a method output path. |
| SummaryPage.PickOriginalRule | summary.py:290-302 | The 44k original is shown when it is the only truthy one, or when `supervoice_flow` is recorded for the base. Otherwise the 16k original is shown, and a row is skipped exactly when neither is truthy. |
| SummaryPage.Cells | summary.py:313-341 | There is one cell per method, in `methods` order. A player appears exactly where the method has a non-empty path, with its image under `spectrograms/<method>`, and the placeholder everywhere else. |
| SummaryPage.RowsOf | summary.py:285-349 | Each row plays its base's picked original, with that original's image and its cells. |
| SummaryPage.RowsOfAll | summary.py:302-304 | With every entry holding an original, no row is skipped and the rows follow the keys. |
| SummaryPage.Headers | summary.py:268-280 | One header per method, in order. Its config is the method's captured text, and `Config N/A` exactly when none is known or the captured text is that default. Its title is `SuperVoice` exactly for `supervoice_flow`; any other title is the name re-cased, with `_` read as a space. |
| SummaryPage.FindFilesHeaders | summary.py:268-280 | On `find_files`' result the headers are its active methods, in order, distinct and each listed as a directory. Each carries that method's own captured config, never the `get` fallback. |
| SummaryPage.FoundHeaders | summary.py:268-280 | When every method has a captured config, header i is method i with that config, and the headers name exactly the methods. |
| SummaryPage.TitleFromLowersInside | summary.py:252 | `title()` lower-cases every character that follows a cased one. |
| SummaryPage.TitleNotSuperVoice | summary.py:252-254 | No `title()` result reads `SuperVoice`, because `title()` lowers the `V` after the cased `r`. |
| SummaryPage.MethodTitleFacts | summary.py:252-254 | The title `SuperVoice` marks `supervoice_flow` alone. Every other title is the name re-cased, with `_` read as a space. |
| SummaryPage.Summary | summary.py:380-387 | No page is produced exactly when no result was found. |
| SummaryPage.FindFilesComplete | summary.py:120-215 | `find_files`' output satisfies everything the page needs. |
| SummaryPage.PageRows | summary.py:283-349 | The page has one header per method and one row per base. The rows are in strictly increasing base order, and every base appears. |
| SummaryPage.MethodImageAgrees | summary.py:317-321 | A method cell's image is the path the spectrogram generator writes for that output. |
| SummaryPage.OriginalImageAgrees | summary.py:306-310 | The original's image is the path the generator writes under `spectrograms/prepared`. |
| SummaryPage.PageImagesAgree | summary.py:306-321 | Every image the page links is one the spectrogram generator produces for the linked audio. |
| SummaryPage.TitleIdempotent | summary.py:252 | `title()` is idempotent. |
| SummaryPage.MethodTitleWords | summary.py:252-254 | A method's title is its name with `_` as spaces, re-cased, for all methods but `supervoice_flow`. |
| SummaryScript.Toggle | static/summary.js:67-79 | A toggle adds `m` when its button is inactive and removes it otherwise, changes no other method, and keeps the button state equal to the set. |
| SummaryScript.ToggleTwice | static/summary.js:71-79 | Toggling twice restores both the set and the buttons. |
| SummaryScript.ClicksParity | static/summary.js:65-79 | After any clicks from the fresh page, a method is selected exactly when it was clicked an odd number of times. |
| SummaryScript.OriginalAlwaysShown | static/summary.js:82-97 | `original` is always shown, and an empty set shows everything. A non-empty set shows an element exactly when its method is in the set. |
| SummaryScript.SelectOne | static/summary.js:82-97 | One click shows exactly the original and that method, and a second click shows everything again. |
| SummaryScript.Display | static/summary.js:82-97 | With no method selected every element is shown, and the `original` column always is. Otherwise a method's element is shown exactly when that method is selected. |
| SummaryScript.NoneSelected | static/summary.js:65-86 | After any clicks from the fresh page, no method is selected exactly when every button was clicked an even number of times. |
| SummaryScript.DisplayAfterClicks | static/summary.js:65-97 | After any clicks from the fresh page, an element is shown exactly when it is the original, or every button was clicked an even number of times, or its method's button was clicked an odd number of times. |
| SummaryScript.Seek | static/summary.js:38-47 | A click seeks exactly when `0 <= x <= width`, to `progress * duration` within `[0, duration]`, and moves the cursor to `x`. |
| SummaryScript.DecimalValue | static/summary.js:59 | The decimal digits of a number read back as that number. |
| SummaryScript.ClockSplits | static/summary.js:57-58 | The label's minutes and seconds are `floor(t) div 60` and `floor(t) mod 60`. |
| SummaryScript.LabelReads | static/summary.js:57-59 | The label is minutes, `:`, and two digits that read back as the seconds. |
| SummaryScript.HoverWithin | static/summary.js:50-61 | Over a clip of positive length, the label is set exactly for offsets within the image. |
| SummaryScript.CursorOffset | static/summary.js:13-18 | An unavailable or zero duration leaves the cursor alone, and otherwise it moves to `current / duration * width`. |
| SummaryScript.CursorWithin | static/summary.js:16-18 | During playback the cursor stays over the image. |
| RoundTrips.PreparedFiledTogether | preparation.py:59 | The summary files both prepared rates of `name.wav` under base `name`, for a stem free of the rate keys. |
| RoundTrips.MatchedBase | summary.py:163-171 | Removing the suffix and then a rate key recovers the base. |
| RoundTrips.MatchRateSuffix | summary.py:163-174 | For any configured method, `x` + rate key + suffix matches with base `x`. |
| RoundTrips.DtlnRoundTrip | methods/dtln/run.py:178 | DTLN's output for `x_16k.wav` matches the dtln suffix with base `x`. |
| RoundTrips.DtlnHeader | summary.py:33-35 | For such outputs the dtln header shows the default model text. |
| RoundTrips.RnnoiseRoundTrip | methods/rnnoise/run.py:156-157 | RNNoise's output for `x_16k.wav` matches `rnnoise` with base `x` and `Model: Default`, with or without the weights file. |
| RoundTrips.DefaultIsNotModel | summary.py:163-176 | A `_rnnoise_default_enhanced.wav` name only matches through the alternative branch. |
| RoundTrips.VoiceFixerRoundTrip | methods/voice_fixer_mode_1/run.py:59-60 | Output with tag `mode1` maps back to `x` under `voice_fixer_mode_1`, and empty-tag output under `voice_fixer_mode_0`, each with its fixed text. |
| RoundTrips.SupervoiceRoundTrip | methods/supervoice_flow/run.py:132 | Supervoice's output for `x_44k.wav` has its suffix stripped, then `_44k`, recovering base `x`. |
| RoundTrips.RateStemMismatch | preparation.py:59 | A stem `y_44k` is filed as `y_44k`, but its DTLN output is matched to base `y`. |
| RoundTrips.RateStemRecorded | summary.py:189-196 | That output is dropped when there is no base `y`. Otherwise it is stored as y's `dtln` output, replacing any earlier one, and the `y_44k` entry is unchanged. |

## Left out

- Model inference (the DTLN Keras network, the RNNoise C library, VoiceFixer's `restore`, the torch.hub Supervoice model) is foreign code, so each is an uninterpreted function parameter or a logged event.
- Float32 samples, resampling and channel averaging are floating-point numerics. Samples are integers, and Supervoice's tensors are reduced to their shapes.
- File and directory I/O (`glob`, `os.walk`, `os.listdir`, `soundfile`, `makedirs`, `exists`) is not modelled. Listings are given sequences and existence is a predicate; the order `glob` and `os.walk` return is whatever the sequence holds.
- methods/rnnoise/build_rnnoise_cffi.py is not part of this model: it is a build script with no runtime logic.
- Spectrogram drawing (`create_spectrogram`) is plotting. A failure there is caught and only logged, so every attempt counts alike.
- HTML and Jinja2 rendering, the template strings, `copy_static_files` and `generate_spectrograms` are text or I/O. The page is modelled as its rows, cells and headers.
- DOM and event wiring, `requestAnimationFrame`, tooltips and the zoom modal in static/summary.js are left out. In `updateCursor` (SummaryScript.CursorOffset) a NaN duration is modelled as an absent one. Infinite values are not modelled.
- argparse, logging and CUDA/device selection are left out.
- SummaryScript.Seek: Seek and Hover take a finite real duration. A click before the audio's metadata has loaded is not modelled: the script then assigns `progress * NaN` to `currentTime`, which throws and leaves the cursor where it was.
- Whether processing an input writes its output file depends on decoding the audio and on the model, so the batch loop takes it as a parameter (`writes`).
- SummaryFind.FindFilesPaths: `os.path.relpath` is the identity, because the listed paths are already relative to the working directory.
- SummaryFind.Store: the `{'path': p}` record is modelled as the path `p` itself.
- SummaryPage.Title: only ASCII letters are cased; Python's `str.title` also cases other Unicode letters.
- Dtln.ProcessFile: the mono averaging of multi-channel input is numerics and is left out; the audio is taken as mono.
- Rnnoise.ProcessFile: the mono averaging of multi-channel input is left out, as for DTLN, and so is the float32 write.
- RnnoiseWrapper.ProcessFrame: the voice probability is whatever the library returns. That the caller's frame is left untouched holds trivially, since the model's values are immutable.
- Supervoice.EnhanceAudio: an exception during enhancement is only logged, so it is not modelled.
- Spectrogram.GenerateForDirectory: the walk is a given sequence of directories, each with its path relative to the root.

## Findings

| source | as written | input that shows it | evidently intended | confidence | as-written member | corrected member |
|---|---|---|---|---|---|---|
| methods/rnnoise/rnnoise_cffi_wrapper.py:44 | On an `rnnoise_init` failure the constructor frees the model but leaves it in `_model` with `_destroyed` false. `__del__` then calls `destroy`, which frees `_model` again (lines 103-104, 109-112). | A model path whose file exists and loads, but whose `rnnoise_init` returns nonzero. | Free the model once: clear `_model` after the clean-up free. | not executed | RnnoiseWrapper.AsWrittenFreesTwice | RnnoiseWrapper.CorrectedFreesOnce |
| methods/rnnoise/rnnoise_cffi_wrapper.py:73 | The `TypeError` message for a value that is not a float32 array reads `frame_float32.dtype`. | A live wrapper given a Python list of 480 floats: the f-string raises `AttributeError` instead. | Raise `TypeError` for every value that is not a float32 array. | not executed | RnnoiseWrapper.AsWrittenAttributeError | RnnoiseWrapper.ProcessFrameCorrected |

=== FILE: batch.dfy ===
/**
 The batch loop every enhancement script runs: for each input name, build
 the output path and skip the input when that path already exists.
 `Run` is the loop as written, asking for existence afresh on every
 iteration; `Plan` tests a snapshot of the output directory taken before the
 run. The two agree whenever distinct inputs get distinct output paths.
 */
module Batch {
  import opened Strings
  import opened Paths
  import opened Sorting

  datatype Job = Job(input: string, output: string)

  function Plan(inputs: seq<string>, outDir: string, outName: string -> string, present: string -> bool): (jobs: seq<Job>)
    ensures |jobs| <= |inputs|
    ensures forall j :: j in jobs ==>
      j.input in inputs && j.output == Join(outDir, outName(j.input)) && !present(j.output)
    ensures forall f :: f in inputs && !present(Join(outDir, outName(f))) ==>
      Job(f, Join(outDir, outName(f))) in jobs
  {
    if inputs == [] then []
    else
      var out := Join(outDir, outName(inputs[0]));
      var rest := Plan(inputs[1..], outDir, outName, present);
      if present(out) then rest else [Job(inputs[0], out)] + rest
  }

  /** When every output already exists, nothing is planned. */
  lemma {:induction false} PlanAllPresent(inputs: seq<string>, outDir: string, outName: string -> string, present: string -> bool)
    requires forall f :: f in inputs ==> present(Join(outDir, outName(f)))
    ensures Plan(inputs, outDir, outName, present) == []
    decreases |inputs|
  {
    if inputs != [] {
      assert inputs[0] in inputs;
      PlanAllPresent(inputs[1..], outDir, outName, present);
    }
  }

  /** No visible entry of the listing ends with `suffix`: the glob finds nothing. */
  predicate NoCandidates(listing: seq<string>, suffix: string) {
    forall f :: f in listing ==> !EndsWith(f, suffix) || Hidden(f)
  }

  lemma GlobEmpty(listing: seq<string>, suffix: string)
    ensures Glob(listing, suffix) == [] <==> NoCandidates(listing, suffix)
  {
    var inputs := Glob(listing, suffix);
    if inputs != [] {
      assert inputs[0] in inputs;
    }
  }

  /**
   The batch loop over the entries a glob for `suffix` finds: one job per visible matching
   entry whose output does not exist yet, and nothing else.
   */
  function GlobPlan(listing: seq<string>, suffix: string, outDir: string, outName: string -> string, present: string -> bool): (jobs: seq<Job>)
    ensures forall j :: j in jobs ==>
      && j.input in listing && EndsWith(j.input, suffix) && !Hidden(j.input)
      && j.output == Join(outDir, outName(j.input)) && !present(j.output)
    ensures forall f ::
      (f in listing && EndsWith(f, suffix) && !Hidden(f) && !present(Join(outDir, outName(f))))
      ==> Job(f, Join(outDir, outName(f))) in jobs
  {
    Plan(Glob(listing, suffix), outDir, outName, present)
  }

  /** The output path of input `f`. */
  function OutPath(outDir: string, outName: string -> string, f: string): string {
    Join(outDir, outName(f))
  }

  /** No other input of the run shares `f`'s output path. */
  predicate UniqueOutput(inputs: seq<string>, outDir: string, outName: string -> string, f: string) {
    forall g :: g in inputs && OutPath(outDir, outName, g) == OutPath(outDir, outName, f) ==> g == f
  }

  /**
   The loop as the scripts run it: `os.path.exists(output_path)` is asked on
   every iteration, so a file written earlier in the same run counts.
   `present` is the output directory before the run, `written` the outputs
   this run has written so far, and `writes(f)` whether processing `f` wrote
   its output (a processing error is caught and logged, leaving no file).
   */
  function Run(inputs: seq<string>, outDir: string, outName: string -> string, present: string -> bool,
               writes: string -> bool, written: set<string>): (jobs: seq<Job>)
    ensures |jobs| <= |inputs|
    ensures forall j :: j in jobs ==>
      && j.input in inputs && j.output == OutPath(outDir, outName, j.input)
      && !present(j.output) && j.output !in written
    ensures forall f ::
      (f in inputs && !present(OutPath(outDir, outName, f)) && OutPath(outDir, outName, f) !in written
       && UniqueOutput(inputs, outDir, outName, f))
      ==> Job(f, OutPath(outDir, outName, f)) in jobs
    ensures (forall f :: f in inputs ==> writes(f)) ==>
      forall i, k :: 0 <= i < k < |jobs| ==> jobs[i].output != jobs[k].output
    decreases |inputs|
  {
    if inputs == [] then []
    else
      var f := inputs[0];
      var out := OutPath(outDir, outName, f);
      if present(out) || out in written then
        var rest := Run(inputs[1..], outDir, outName, present, writes, written);
        TailUnique(inputs, outDir, outName);
        rest
      else
        var after := if writes(f) then written + {out} else written;
        var rest := Run(inputs[1..], outDir, outName, present, writes, after);
        TailUnique(inputs, outDir, outName);
        assert forall j :: j in rest ==> j.input in inputs[1..];
        HeadThenFresh(Job(f, out), rest, (forall g :: g in inputs ==> writes(g)));
        [Job(f, out)] + rest
  }

  /** Uniqueness of an output among all inputs carries over to the inputs after the first. */
  lemma TailUnique(inputs: seq<string>, outDir: string, outName: string -> string)
    requires inputs != []
    ensures forall f :: UniqueOutput(inputs, outDir, outName, f) ==> UniqueOutput(inputs[1..], outDir, outName, f)
    ensures forall f :: f in inputs[1..] ==> f in inputs
  {
    assert forall g :: g in inputs[1..] ==> g in inputs;
  }

  /** Prepending a job whose output the rest avoids keeps all outputs pairwise different. */
  lemma HeadThenFresh(head: Job, rest: seq<Job>, allWrite: bool)
    requires allWrite ==> forall j :: j in rest ==> j.output != head.output
    requires allWrite ==> forall i, k :: 0 <= i < k < |rest| ==> rest[i].output != rest[k].output
    ensures allWrite ==> forall i, k :: 0 <= i < k < |[head] + rest| ==> ([head] + rest)[i].output != ([head] + rest)[k].output
  {
    if allWrite {
      var all := [head] + rest;
      forall i, k | 0 <= i < k < |all| ensures all[i].output != all[k].output {
        assert all[k] == rest[k - 1];
        if i == 0 {
          assert rest[k - 1] in rest;
        } else {
          assert all[i] == rest[i - 1];
        }
      }
    }
  }

  /**
   When distinct positions of the input list have distinct output paths and
   none of them is written yet, re-checking existence on every iteration
   plans exactly what the snapshot does.
   */
  lemma {:induction false} RunIsPlan(inputs: seq<string>, outDir: string, outName: string -> string, present: string -> bool,
                                     writes: string -> bool, written: set<string>)
    requires forall i, k :: 0 <= i < k < |inputs| ==> OutPath(outDir, outName, inputs[i]) != OutPath(outDir, outName, inputs[k])
    requires forall i :: 0 <= i < |inputs| ==> OutPath(outDir, outName, inputs[i]) !in written
    ensures Run(inputs, outDir, outName, present, writes, written) == Plan(inputs, outDir, outName, present)
    decreases |inputs|
  {
    if inputs != [] {
      var out := OutPath(outDir, outName, inputs[0]);
      var after := if !present(out) && writes(inputs[0]) then written + {out} else written;
      var tail := inputs[1..];
      forall i, k | 0 <= i < k < |tail|
        ensures OutPath(outDir, outName, tail[i]) != OutPath(outDir, outName, tail[k])
      {
        assert tail[i] == inputs[i + 1] && tail[k] == inputs[k + 1];
      }
      forall i | 0 <= i < |tail| ensures OutPath(outDir, outName, tail[i]) !in after {
        assert tail[i] == inputs[i + 1];
      }
      RunIsPlan(tail, outDir, outName, present, writes, after);
    }
  }

  /** The per-iteration loop over what a glob for `suffix` finds, from an empty record of writes. */
  function GlobRun(listing: seq<string>, suffix: string, outDir: string, outName: string -> string,
                   present: string -> bool, writes: string -> bool): (jobs: seq<Job>)
    ensures forall j :: j in jobs ==>
      && j.input in listing && EndsWith(j.input, suffix) && !Hidden(j.input)
      && j.output == Join(outDir, outName(j.input)) && !present(j.output)
    ensures forall f ::
      (f in listing && EndsWith(f, suffix) && !Hidden(f) && !present(Join(outDir, outName(f)))
       && UniqueOutput(Glob(listing, suffix), outDir, outName, f))
      ==> Job(f, Join(outDir, outName(f))) in jobs
    ensures (forall f :: f in listing ==> writes(f)) ==>
      forall i, k :: 0 <= i < k < |jobs| ==> jobs[i].output != jobs[k].output
  {
    Run(Glob(listing, suffix), outDir, outName, present, writes, {})
  }

  /** A glob over a listing without repeats repeats nothing. */
  lemma {:induction false} GlobDistinct(listing: seq<string>, suffix: string)
    requires Distinct(listing)
    ensures Distinct(Glob(listing, suffix))
    decreases |listing|
  {
    if listing != [] {
      DistinctCons(listing);
      GlobDistinct(listing[1..], suffix);
      var rest := Glob(listing[1..], suffix);
      if EndsWith(listing[0], suffix) && !Hidden(listing[0]) {
        assert listing[0] !in rest;
        DistinctCons([listing[0]] + rest);
      }
    }
  }

  /** What a glob finds: a visible listed name with the suffix. */
  predicate Candidate(listing: seq<string>, suffix: string, f: string) {
    f in listing && EndsWith(f, suffix) && !Hidden(f)
  }

  /**
   In a directory listing without repeats, a naming that keeps distinct
   candidates apart and gives each a plain, non-empty file name makes the
   per-iteration loop plan exactly the snapshot's jobs: no output is then
   reached twice.
   */
  lemma GlobRunIsPlan(listing: seq<string>, suffix: string, outDir: string, outName: string -> string,
                      present: string -> bool, writes: string -> bool)
    requires Distinct(listing)
    requires forall f :: Candidate(listing, suffix, f) ==> outName(f) != [] && Sep !in outName(f)
    requires forall f, g :: Candidate(listing, suffix, f) && Candidate(listing, suffix, g) && f != g ==> outName(f) != outName(g)
    ensures GlobRun(listing, suffix, outDir, outName, present, writes) == GlobPlan(listing, suffix, outDir, outName, present)
  {
    var inputs := Glob(listing, suffix);
    GlobDistinct(listing, suffix);
    forall i, k | 0 <= i < k < |inputs|
      ensures OutPath(outDir, outName, inputs[i]) != OutPath(outDir, outName, inputs[k])
    {
      var f, g := inputs[i], inputs[k];
      assert f in inputs && g in inputs;
      assert Candidate(listing, suffix, f) && Candidate(listing, suffix, g);
      BasenameOfJoin(outDir, outName(f));
      BasenameOfJoin(outDir, outName(g));
    }
    RunIsPlan(inputs, outDir, outName, present, writes, {});
  }

  /** When every output already exists, the loop processes nothing. */
  lemma {:induction false} RunAllPresent(inputs: seq<string>, outDir: string, outName: string -> string, present: string -> bool,
                                         writes: string -> bool, written: set<string>)
    requires forall f :: f in inputs ==> present(OutPath(outDir, outName, f))
    ensures Run(inputs, outDir, outName, present, writes, written) == []
    decreases |inputs|
  {
    if inputs != [] {
      assert inputs[0] in inputs;
      assert forall f :: f in inputs[1..] ==> f in inputs;
      RunAllPresent(inputs[1..], outDir, outName, present, writes, written);
    }
  }

  // The naming DTLN, RNNoise and VoiceFixer share: `name.replace(key, tag)`.

  /** The renaming as the function the loop applies to each input name. */
  function Renamer(key: string, tag: string): (n: string -> string)
    requires |key| > 0
    ensures forall name :: n(name) == ReplaceAll(name, key, tag)
  {
    name => ReplaceAll(name, key, tag)
  }

  /** A rate key that cannot overlap itself and does not occur in `.wav`. */
  predicate PlainKey(key: string) {
    |key| > 0 && Unbordered(key) && !Contains(".wav", key)
  }

  /** Both rate keys the scripts rename are plain, and each input suffix is its key before `.wav`. */
  lemma RateKeysPlain()
    ensures PlainKey("_16k") && PlainKey("_44k")
    ensures "_16k.wav" == "_16k" + ".wav" && "_44k.wav" == "_44k" + ".wav"
  {
    SeamSafeNoStraddle("_16k", "_16k");
    AbsentHead(".wav", "_16k");
    SeamSafeNoStraddle("_44k", "_44k");
    AbsentHead(".wav", "_44k");
  }

  /** A prepared name `x<key>.wav` whose stem holds no key is renamed `x<tag>.wav`. */
  lemma RenamedAtEnd(x: string, key: string, tag: string)
    requires PlainKey(key) && !Contains(x, key)
    ensures ReplaceAll(x + key + ".wav", key, tag) == x + tag + ".wav"
  {
    ReplaceSole(x, key, ".wav", tag);
  }

  /** The same for a name given whole: only the key at its end is renamed. */
  lemma RenamedStem(f: string, key: string, tag: string)
    requires PlainKey(key) && EndsWith(f, key + ".wav") && !Contains(f[..|f| - |key + ".wav"|], key)
    ensures Renamer(key, tag)(f) == f[..|f| - |key + ".wav"|] + (tag + ".wav")
  {
    var stem := f[..|f| - |key + ".wav"|];
    assert f == stem + key + ".wav";
    RenamedAtEnd(stem, key, tag);
  }

  /**
   On prepared inputs (`<stem><key>.wav`, the stem holding no key) listed
   once each, renaming the key to a separator-free tag keeps distinct inputs
   apart, so the loop runs exactly what a snapshot of the output directory
   plans.
   */
  lemma RenamedRunIsPlan(listing: seq<string>, suffix: string, key: string, tag: string, outDir: string,
                         present: string -> bool, writes: string -> bool)
    requires PlainKey(key) && suffix == key + ".wav" && Sep !in tag
    requires Distinct(listing)
    requires forall f :: Candidate(listing, suffix, f) ==> Sep !in f && !Contains(f[..|f| - |suffix|], key)
    ensures GlobRun(listing, suffix, outDir, Renamer(key, tag), present, writes)
         == GlobPlan(listing, suffix, outDir, Renamer(key, tag), present)
  {
    forall f | Candidate(listing, suffix, f)
      ensures Renamer(key, tag)(f) == f[..|f| - |suffix|] + (tag + ".wav")
    {
      RenamedStem(f, key, tag);
    }
    StemNamingApart(listing, suffix, tag, Renamer(key, tag));
    GlobRunIsPlan(listing, suffix, outDir, Renamer(key, tag), present, writes);
  }

  /**
   A naming that turns every candidate's stem before `suffix` into the stem,
   a fixed separator-free tag and `.wav` keeps distinct candidates apart and
   yields plain, non-empty file names.
   */
  lemma StemNamingApart(listing: seq<string>, suffix: string, tag: string, outName: string -> string)
    requires Sep !in tag
    requires forall f :: Candidate(listing, suffix, f) ==> Sep !in f && outName(f) == f[..|f| - |suffix|] + (tag + ".wav")
    ensures forall f :: Candidate(listing, suffix, f) ==> outName(f) != [] && Sep !in outName(f)
    ensures forall f, g :: Candidate(listing, suffix, f) && Candidate(listing, suffix, g) && f != g ==> outName(f) != outName(g)
  {
    forall f | Candidate(listing, suffix, f) ensures outName(f) != [] && Sep !in outName(f) {
      var stem := f[..|f| - |suffix|];
      assert forall c :: c in stem ==> c in f;
      assert outName(f)[|outName(f)| - 1] == 'v';
      assert forall c :: c in outName(f) ==> c in stem || c in tag || c in ".wav";
    }
    forall f, g | Candidate(listing, suffix, f) && Candidate(listing, suffix, g) && f != g ensures outName(f) != outName(g) {
      var sf, sg := f[..|f| - |suffix|], g[..|g| - |suffix|];
      assert f == sf + suffix && g == sg + suffix;
      SameTagged(sf, sg, tag + ".wav");
    }
  }

  /** Two stems followed by the same text differ exactly when the stems do. */
  lemma SameTagged(a: string, b: string, t: string)
    ensures a + t == b + t <==> a == b
  {
    if a + t == b + t {
      assert a == (a + t)[..|a|] && b == (b + t)[..|b|];
    }
  }
}

=== FILE: common.dfy ===
/** Optional values and results with an error value, used across the model. */
module Common {

  datatype Option<+T> = None | Some(value: T)

  datatype Result<+T, +E> = Success(value: T) | Failure(error: E)

  /** A block of `n` zero samples (`np.zeros(n)`). */
  function Zeros(n: nat): (z: seq<int>)
    ensures |z| == n
    ensures forall i :: 0 <= i < n ==> z[i] == 0
  {
    seq(n, _ => 0)
  }

  /** Numpy slice assignment `out[start:start + len(w)] = w`. */
  function Write(out: seq<int>, start: nat, w: seq<int>): (r: seq<int>)
    requires start + |w| <= |out|
    ensures |r| == |out|
    ensures forall i :: 0 <= i < |out| && !(start <= i < start + |w|) ==> r[i] == out[i]
    ensures forall i :: start <= i < start + |w| ==> r[i] == w[i - start]
  {
    out[..start] + w + out[start + |w|..]
  }
}

=== FILE: dtln.dfy ===
/**
 The DTLN method (methods/dtln/run.py): a 512-sample block, 128-sample shift
 overlap-add loop around a pretrained network, the zero padding around it,
 and the batch driver that names the outputs.

 The network is an arbitrary total function from one 512-sample block to
 another; samples are integers.
 */
module Dtln {
  import opened Common
  import opened Strings
  import opened Paths
  import opened Batch

  const SampleRate: int := 16000
  const SampleRateKey: string := "_16k"
  const BlockLen: nat := 512
  const BlockShift: nat := 128
  const EnhancedTag: string := "_dtln_enhanced"
  const InputSuffix: string := "_16k.wav"

  type Block = s: seq<int> | |s| == BlockLen witness seq(512, _ => 0)

  /** The pretrained network, seen as a function on blocks. */
  type Network = Block -> Block

  /**
   `(len(audio) - (BLOCK_LEN - BLOCK_SHIFT)) // BLOCK_SHIFT`. Dafny's `/` agrees
   with Python's `//` here because the divisor is positive; the count is
   negative for inputs shorter than 384 samples, and then no block runs.
   */
  function NumBlocks(n: nat): int {
    (n - (BlockLen - BlockShift)) / BlockShift
  }

  /** Every block the loop runs reads and writes inside the signal. */
  lemma BlockInBounds(n: nat, idx: int)
    requires 0 <= idx < NumBlocks(n)
    ensures 0 <= idx * BlockShift && idx * BlockShift + BlockShift <= n
  {
  }

  /**
   The input buffer once blocks 0..b have been read: the 512 samples ending
   at sample (b + 1) * 128, with zeros standing for positions before the start.
   `b = -1` is the all-zero buffer before the first block.
   */
  function InBlock(audio: seq<int>, b: int): (blk: Block)
    requires -1 <= b && (b + 1) * BlockShift <= |audio|
    ensures forall m :: 0 <= m < BlockLen && (b + 1) * BlockShift - BlockLen + m < 0 ==> blk[m] == 0
  {
    seq(BlockLen, m requires 0 <= m < BlockLen =>
      var t := (b + 1) * BlockShift - BlockLen + m;
      if t >= 0 then audio[t] else 0)
  }

  /** `buf[:-128] = buf[128:]; buf[-128:] = 0`. */
  function ShiftOut(buf: Block): (r: Block)
    ensures forall m :: 0 <= m < BlockLen - BlockShift ==> r[m] == buf[m + BlockShift]
    ensures forall m :: BlockLen - BlockShift <= m < BlockLen ==> r[m] == 0
  {
    buf[BlockShift..] + Zeros(BlockShift)
  }

  /** `buf += blk`. */
  function AddBlock(buf: Block, blk: Block): (r: Block)
    ensures forall m :: 0 <= m < BlockLen ==> r[m] == buf[m] + blk[m]
  {
    seq(BlockLen, m requires 0 <= m < BlockLen => buf[m] + blk[m])
  }

  /** The output buffer once `b` blocks have been processed. */
  function OutBuffer(net: Network, audio: seq<int>, b: nat): Block
    requires b * BlockShift <= |audio|
  {
    if b == 0 then Zeros(BlockLen)
    else AddBlock(ShiftOut(OutBuffer(net, audio, b - 1)), net(InBlock(audio, b - 1)))
  }

  /** What the network's output for block `idx - k` puts at offset `j` of block `idx`'s slot. */
  function Contribution(net: Network, audio: seq<int>, idx: nat, k: nat, j: nat): int
    requires j < BlockShift && k < 4 && (idx + 1) * BlockShift <= |audio|
  {
    if idx - k >= 0 then net(InBlock(audio, idx - k))[j + BlockShift * k] else 0
  }

  /**
   The overlap-add value of output sample `idx * 128 + j`: the sum of the four
   network outputs whose 512-sample windows cover it.
   */
  function OverlapAdd(net: Network, audio: seq<int>, idx: nat, j: nat): int
    requires j < BlockShift && (idx + 1) * BlockShift <= |audio|
  {
    Contribution(net, audio, idx, 0, j) + Contribution(net, audio, idx, 1, j)
    + Contribution(net, audio, idx, 2, j) + Contribution(net, audio, idx, 3, j)
  }

  /** Reading the next 128 samples into the shifted input buffer advances it by one block. */
  lemma InBlockStep(audio: seq<int>, b: nat)
    requires (b + 1) * BlockShift <= |audio|
    ensures InBlock(audio, b - 1)[BlockShift..] + audio[b * BlockShift..b * BlockShift + BlockShift]
         == InBlock(audio, b)
  {
    var lhs := InBlock(audio, b - 1)[BlockShift..] + audio[b * BlockShift..b * BlockShift + BlockShift];
    forall m | 0 <= m < BlockLen ensures lhs[m] == InBlock(audio, b)[m] {
      if m < BlockLen - BlockShift {
        assert lhs[m] == InBlock(audio, b - 1)[m + BlockShift];
      } else {
        assert lhs[m] == audio[b * BlockShift + m - (BlockLen - BlockShift)];
      }
    }
  }

  /** One step of the output buffer below its last 128 slots: the new block's value plus what shifted in from 128 slots up. */
  lemma OutBufferSlot(net: Network, audio: seq<int>, b: nat, m: nat)
    requires 1 <= b && b * BlockShift <= |audio| && m < BlockLen - BlockShift
    ensures OutBuffer(net, audio, b)[m] == net(InBlock(audio, b - 1))[m] + OutBuffer(net, audio, b - 1)[m + BlockShift]
  {
  }

  /** The last 128 slots hold only the new block's values. */
  lemma OutBufferLastSlot(net: Network, audio: seq<int>, b: nat, m: nat)
    requires 1 <= b && b * BlockShift <= |audio| && BlockLen - BlockShift <= m < BlockLen
    ensures OutBuffer(net, audio, b)[m] == net(InBlock(audio, b - 1))[m]
  {
  }

  lemma OutBufferEmpty(net: Network, audio: seq<int>, m: nat)
    requires m < BlockLen
    ensures OutBuffer(net, audio, 0)[m] == 0
  {
  }

  /** The four terms of the overlap-add, with the blocks before the first one contributing nothing. */
  lemma OverlapTerms(net: Network, audio: seq<int>, idx: nat, j: nat)
    requires j < BlockShift && (idx + 1) * BlockShift <= |audio|
    ensures Contribution(net, audio, idx, 0, j) == net(InBlock(audio, idx))[j]
    ensures Contribution(net, audio, idx, 1, j) == if idx >= 1 then net(InBlock(audio, idx - 1))[j + BlockShift] else 0
    ensures Contribution(net, audio, idx, 2, j) == if idx >= 2 then net(InBlock(audio, idx - 2))[j + 2 * BlockShift] else 0
    ensures Contribution(net, audio, idx, 3, j) == if idx >= 3 then net(InBlock(audio, idx - 3))[j + 3 * BlockShift] else 0
  {
  }

  /** The first 128 slots of the output buffer hold the overlap-add of the last block read. */
  lemma OutBufferHead(net: Network, audio: seq<int>, b: nat, j: nat)
    requires 1 <= b && b * BlockShift <= |audio| && j < BlockShift
    ensures OutBuffer(net, audio, b)[j] == OverlapAdd(net, audio, b - 1, j)
  {
    // Each unfolding moves 128 slots up the buffer and one block back.
    var idx := b - 1;
    OverlapTerms(net, audio, idx, j);
    var total := OverlapAdd(net, audio, idx, j);
    OutBufferSlot(net, audio, b, j);
    var v0 := net(InBlock(audio, idx))[j];
    if idx == 0 {
      OutBufferEmpty(net, audio, j + BlockShift);
      assert total == v0;
    } else {
      OutBufferSlot(net, audio, idx, j + BlockShift);
      var v1 := net(InBlock(audio, idx - 1))[j + BlockShift];
      if idx == 1 {
        OutBufferEmpty(net, audio, j + 2 * BlockShift);
        assert total == v0 + v1;
      } else {
        OutBufferSlot(net, audio, idx - 1, j + 2 * BlockShift);
        var v2 := net(InBlock(audio, idx - 2))[j + 2 * BlockShift];
        if idx == 2 {
          OutBufferEmpty(net, audio, j + 3 * BlockShift);
          assert total == v0 + v1 + v2;
        } else {
          OutBufferLastSlot(net, audio, idx - 2, j + 3 * BlockShift);
          var v3 := net(InBlock(audio, idx - 3))[j + 3 * BlockShift];
          assert total == v0 + v1 + v2 + v3;
        }
      }
    }
  }

  /** The overlap-add value of output sample `i`, for `i` below `num_blocks * 128`. */
  function Expected(net: Network, audio: seq<int>, i: nat): int
    requires i < NumBlocks(|audio|) * BlockShift
  {
    OverlapAdd(net, audio, i / BlockShift, i % BlockShift)
  }

  lemma SlotOf(i: int, idx: int)
    requires idx * BlockShift <= i < idx * BlockShift + BlockShift
    ensures i / BlockShift == idx && i % BlockShift == i - idx * BlockShift
  {
  }

  /** The first `upto` output samples are final and the rest are still zero. */
  predicate Finished(net: Network, audio: seq<int>, out: seq<int>, upto: int) {
    && |out| == |audio|
    && (forall i :: 0 <= i < upto && i < NumBlocks(|audio|) * BlockShift && i < |out| ==> out[i] == Expected(net, audio, i))
    && (forall i :: upto <= i < |out| && 0 <= i ==> out[i] == 0)
  }

  /** Writing block `idx` extends the prefix of finished overlap-add samples by 128. */
  lemma WriteBlockStep(net: Network, audio: seq<int>, idx: nat, out: seq<int>, next: seq<int>)
    requires idx < NumBlocks(|audio|)
    requires Finished(net, audio, out, idx * BlockShift)
    requires next == Write(out, idx * BlockShift, OutBuffer(net, audio, idx + 1)[..BlockShift])
    ensures Finished(net, audio, next, (idx + 1) * BlockShift)
  {
    BlockWritten(net, audio, idx, OutBuffer(net, audio, idx + 1)[..BlockShift]);
  }

  /** The 128 samples written for block `idx` are the overlap-add values of their positions. */
  lemma BlockWritten(net: Network, audio: seq<int>, idx: nat, w: seq<int>)
    requires idx < NumBlocks(|audio|)
    requires w == OutBuffer(net, audio, idx + 1)[..BlockShift]
    ensures forall i :: idx * BlockShift <= i < idx * BlockShift + BlockShift ==>
      i < NumBlocks(|audio|) * BlockShift && w[i - idx * BlockShift] == Expected(net, audio, i)
  {
    var start := idx * BlockShift;
    forall i | start <= i < start + BlockShift
      ensures i < NumBlocks(|audio|) * BlockShift && w[i - start] == Expected(net, audio, i)
    {
      SlotOf(i, idx);
      OutBufferHead(net, audio, idx + 1, i - start);
    }
  }

  /** The state the block loop keeps between iterations, after `idx` blocks. */
  predicate LoopState(net: Network, audio: seq<int>, idx: nat, inBuffer: seq<int>, outBuffer: seq<int>, out: seq<int>) {
    && idx * BlockShift <= |audio|
    && inBuffer == InBlock(audio, idx - 1)
    && outBuffer == OutBuffer(net, audio, idx)
    && Finished(net, audio, out, idx * BlockShift)
  }

  /** One iteration of the block loop moves the state from block `idx` to `idx + 1`. */
  lemma LoopStep(net: Network, audio: seq<int>, idx: nat, inBuffer: Block, outBuffer: Block, out: seq<int>,
                 inNext: seq<int>, outNext: seq<int>, next: seq<int>)
    requires idx < NumBlocks(|audio|)
    requires LoopState(net, audio, idx, inBuffer, outBuffer, out)
    requires inNext == inBuffer[BlockShift..] + audio[idx * BlockShift..idx * BlockShift + BlockShift]
    requires outNext == AddBlock(ShiftOut(outBuffer), net(inNext))
    requires next == Write(out, idx * BlockShift, outNext[..BlockShift])
    ensures LoopState(net, audio, idx + 1, inNext, outNext, next)
  {
    BlockInBounds(|audio|, idx);
    InBlockStep(audio, idx);
    WriteBlockStep(net, audio, idx, out, next);
  }

  /**
   `process_audio`: the block loop. Every output sample below
   `num_blocks * 128` is the overlap-add of the four blocks covering it; the
   rest of the pre-allocated output stays zero.
   */
  method ProcessAudio(net: Network, audio: seq<int>) returns (out: seq<int>)
    ensures |out| == |audio|
    ensures forall i :: 0 <= i < NumBlocks(|audio|) * BlockShift ==> out[i] == Expected(net, audio, i)
    ensures forall i :: 0 <= i < |out| && i >= NumBlocks(|audio|) * BlockShift ==> out[i] == 0
  {
    out := Zeros(|audio|);
    var inBuffer: Block := Zeros(BlockLen);
    var outBuffer: Block := Zeros(BlockLen);
    var numBlocks := NumBlocks(|audio|);
    var idx: nat := 0;
    while idx < numBlocks
      invariant idx <= numBlocks || idx == 0
      invariant LoopState(net, audio, idx, inBuffer, outBuffer, out)
    {
      BlockInBounds(|audio|, idx);
      var start := idx * BlockShift;
      var inNext: Block := inBuffer[BlockShift..] + audio[start..start + BlockShift];
      var outNext: Block := AddBlock(ShiftOut(outBuffer), net(inNext));
      var next := Write(out, start, outNext[..BlockShift]);
      LoopStep(net, audio, idx, inBuffer, outBuffer, out, inNext, outNext, next);
      inBuffer, outBuffer, out := inNext, outNext, next;
      idx := idx + 1;
    }
  }

  /** `np.concatenate((zeros(512), audio, zeros(512)))`. */
  function Pad(audio: seq<int>): (p: seq<int>)
    ensures |p| == |audio| + 2 * BlockLen
    ensures forall i :: 0 <= i < |audio| ==> p[BlockLen + i] == audio[i]
  {
    Zeros(BlockLen) + audio + Zeros(BlockLen)
  }

  /** After padding, every sample the unpadding keeps lies below `num_blocks * 128`. */
  lemma KeptSamplesWritten(n: nat)
    ensures BlockLen + n <= NumBlocks(n + 2 * BlockLen) * BlockShift
  {
  }

  /**
   `process_file` on decoded mono audio: skipped (nothing written) unless the
   rate is 16 kHz; otherwise pad, run the block loop, and keep
   `[512, 512 + len)`. Every kept sample is an overlap-add value, never a
   left-over zero of the output buffer.
   */
  method ProcessFile(net: Network, sr: int, audio: seq<int>) returns (r: Option<seq<int>>)
    ensures sr != SampleRate <==> r.None?
    ensures r.Some? ==> |r.value| == |audio|
    ensures r.Some? ==> forall i :: 0 <= i < |audio| ==>
      BlockLen + i < NumBlocks(|Pad(audio)|) * BlockShift && r.value[i] == Expected(net, Pad(audio), BlockLen + i)
  {
    if sr != SampleRate {
      return None;
    }
    var padded := Pad(audio);
    var enhanced := ProcessAudio(net, padded);
    KeptSamplesWritten(|audio|);
    r := Some(enhanced[BlockLen..BlockLen + |audio|]);
  }

  /** The output file name: every `_16k` in the input name becomes `_dtln_enhanced`. */
  function OutputName(name: string): string {
    ReplaceAll(name, SampleRateKey, EnhancedTag)
  }

  /** For a prepared name `x_16k.wav` whose stem holds no `_16k`, the output is `x_dtln_enhanced.wav`. */
  lemma OutputNameOfPrepared(x: string)
    requires !Contains(x, SampleRateKey)
    ensures OutputName(x + SampleRateKey + ".wav") == x + EnhancedTag + ".wav"
  {
    RateKeysPlain();
    RenamedAtEnd(x, SampleRateKey, EnhancedTag);
  }

  /** `model_path.find('_norm_') != -1`: the model uses STFT normalisation. */
  function NormStft(modelPath: string): (norm: bool)
    ensures norm <==> exists i :: OccursAt(modelPath, "_norm_", i)
  {
    ContainsIff(modelPath, "_norm_");
    Contains(modelPath, "_norm_")
  }

  /** How a run of the DTLN script ends. */
  datatype Outcome =
    | ModelMissing
    | NoInputs
    | LoadFailed
    | Ran(normStft: bool, jobs: seq<Job>)

  /**
   `main`: check the weights file, find the `*_16k.wav` inputs, build and load
   the model (`loads` says whether that succeeds for the given normalisation
   flag), then run the batch loop, which skips an input whose output exists
   when its turn comes; `writes(f)` says whether processing `f` wrote its
   output.
   */
  function Main(modelPath: string, modelExists: bool, loads: bool -> bool,
                listing: seq<string>, outDir: string, present: string -> bool, writes: string -> bool): (r: Outcome)
    ensures r.ModelMissing? <==> !modelExists
    ensures r.NoInputs? <==> modelExists && NoCandidates(listing, "_16k.wav")
    ensures r.LoadFailed? ==> !loads(NormStft(modelPath))
    ensures r.Ran? ==> loads(r.normStft) && (r.normStft <==> exists i :: OccursAt(modelPath, "_norm_", i))
    ensures r.Ran? ==> forall j :: j in r.jobs ==>
      && j.input in listing && EndsWith(j.input, "_16k.wav") && !Hidden(j.input)
      && j.output == Join(outDir, OutputName(j.input)) && !present(j.output)
    ensures r.Ran? ==> forall f ::
      (f in listing && EndsWith(f, "_16k.wav") && !Hidden(f) && !present(Join(outDir, OutputName(f)))
       && UniqueOutput(Glob(listing, "_16k.wav"), outDir, OutputName, f))
      ==> Job(f, Join(outDir, OutputName(f))) in r.jobs
    ensures r.Ran? && (forall f :: f in listing ==> writes(f)) ==>
      forall i, k :: 0 <= i < k < |r.jobs| ==> r.jobs[i].output != r.jobs[k].output
  {
    if !modelExists then ModelMissing
    else
      GlobEmpty(listing, InputSuffix);
      if Glob(listing, InputSuffix) == [] then NoInputs
      else
        var norm := NormStft(modelPath);
        if !loads(norm) then LoadFailed
        else Ran(norm, GlobRun(listing, InputSuffix, outDir, OutputName, present, writes))
  }

  /**
   On prepared inputs (`<stem>_16k.wav`, the stem holding no `_16k`) listed
   once each, distinct inputs get distinct outputs, so the loop runs every
   input whose output did not exist before the run, exactly as a snapshot
   of the output directory would decide.
   */
  lemma PreparedRunIsPlan(modelPath: string, loads: bool -> bool, listing: seq<string>, outDir: string,
                          present: string -> bool, writes: string -> bool)
    requires Sorting.Distinct(listing)
    requires forall f :: Candidate(listing, InputSuffix, f) ==>
      Sep !in f && !Contains(f[..|f| - |InputSuffix|], SampleRateKey)
    ensures var r := Main(modelPath, true, loads, listing, outDir, present, writes);
      r.Ran? ==> r.jobs == GlobPlan(listing, InputSuffix, outDir, OutputName, present)
  {
    forall f | Candidate(listing, InputSuffix, f)
      ensures OutputName(f) == f[..|f| - |InputSuffix|] + (EnhancedTag + ".wav")
    {
      PreparedName(f);
    }
    StemNamingApart(listing, InputSuffix, EnhancedTag, OutputName);
    GlobRunIsPlan(listing, InputSuffix, outDir, OutputName, present, writes);
  }

  /** The two names of a colliding pair: the key doubled, and the tag already in the stem. */
  function DoubledKey(x: string): string { x + SampleRateKey + SampleRateKey + ".wav" }
  function TaggedStem(x: string): string { x + EnhancedTag + SampleRateKey + ".wav" }

  /** A `_16k.wav` name whose stem holds no `_16k` is renamed at its end only. */
  lemma PreparedName(f: string)
    requires EndsWith(f, InputSuffix) && !Contains(f[..|f| - |InputSuffix|], SampleRateKey)
    ensures OutputName(f) == f[..|f| - |InputSuffix|] + (EnhancedTag + ".wav")
  {
    var stem := f[..|f| - |InputSuffix|];
    assert f == stem + SampleRateKey + ".wav";
    OutputNameOfPrepared(stem);
  }

  /**
   Replacing every `_16k` can give two inputs the same output name:
   `x_16k_16k.wav` and `x_dtln_enhanced_16k.wav` both become
   `x_dtln_enhanced_dtln_enhanced.wav`. The loop writes the first one's
   output and, finding it present, skips the second; a snapshot of the
   directory would have planned both.
   */
  lemma CollisionSkipsSecond(x: string, modelPath: string, loads: bool -> bool, outDir: string,
                             present: string -> bool, writes: string -> bool)
    requires !Contains(x, SampleRateKey) && !Hidden(x)
    requires loads(NormStft(modelPath))
    requires forall p :: !present(p)
    requires forall f :: writes(f)
    ensures OutputName(DoubledKey(x)) == OutputName(TaggedStem(x)) == x + EnhancedTag + EnhancedTag + ".wav"
    ensures Main(modelPath, true, loads, [DoubledKey(x), TaggedStem(x)], outDir, present, writes).jobs
         == [Job(DoubledKey(x), Join(outDir, x + EnhancedTag + EnhancedTag + ".wav"))]
    ensures |GlobPlan([DoubledKey(x), TaggedStem(x)], InputSuffix, outDir, OutputName, present)| == 2
  {
    var f, g := DoubledKey(x), TaggedStem(x);
    var listing := [f, g];
    CollidingNames(x);
    CollidingGlob(x);
    CollidingRun(x, outDir, present, writes);
    assert Main(modelPath, true, loads, listing, outDir, present, writes)
        == Ran(NormStft(modelPath), Run(listing, outDir, OutputName, present, writes, {}));
    assert listing[1..] == [g];
  }

  /** Both colliding names are visible `_16k.wav` inputs. */
  lemma CollidingGlob(x: string)
    requires !Hidden(x)
    ensures Glob([DoubledKey(x), TaggedStem(x)], InputSuffix) == [DoubledKey(x), TaggedStem(x)]
  {
    var f, g := DoubledKey(x), TaggedStem(x);
    assert f == (x + SampleRateKey) + InputSuffix;
    assert g == (x + EnhancedTag) + InputSuffix;
    assert f[0] == (if x == [] then '_' else x[0]);
    assert g[0] == (if x == [] then '_' else x[0]);
    assert [f, g][1..] == [g];
    assert Glob([g], InputSuffix) == [g];
  }

  /** The loop over the colliding pair runs the first input only. */
  lemma CollidingRun(x: string, outDir: string, present: string -> bool, writes: string -> bool)
    requires !Contains(x, SampleRateKey)
    requires forall p :: !present(p)
    requires forall f :: writes(f)
    ensures Run([DoubledKey(x), TaggedStem(x)], outDir, OutputName, present, writes, {})
         == [Job(DoubledKey(x), Join(outDir, x + EnhancedTag + EnhancedTag + ".wav"))]
  {
    var f, g := DoubledKey(x), TaggedStem(x);
    CollidingNames(x);
    var out := Join(outDir, x + EnhancedTag + EnhancedTag + ".wav");
    assert OutPath(outDir, OutputName, f) == out;
    assert OutPath(outDir, OutputName, g) == out;
    assert Run([g], outDir, OutputName, present, writes, {out}) == [];
    assert [f, g][1..] == [g];
    assert writes(f) && !present(out);
  }

  lemma CollidingNames(x: string)
    requires !Contains(x, SampleRateKey)
    ensures OutputName(DoubledKey(x)) == x + EnhancedTag + EnhancedTag + ".wav"
    ensures OutputName(TaggedStem(x)) == x + EnhancedTag + EnhancedTag + ".wav"
  {
    DoubledKeyName(x);
    TaggedStemName(x);
  }

  /** Both keys of `x_16k_16k.wav` are replaced. */
  lemma DoubledKeyName(x: string)
    requires !Contains(x, SampleRateKey)
    ensures OutputName(DoubledKey(x)) == x + EnhancedTag + EnhancedTag + ".wav"
  {
    KeyFacts();
    ReplaceTwice(x, SampleRateKey, ".wav", EnhancedTag);
  }

  /** The single key of `x_dtln_enhanced_16k.wav` is replaced. */
  lemma TaggedStemName(x: string)
    requires !Contains(x, SampleRateKey)
    ensures OutputName(TaggedStem(x)) == x + EnhancedTag + EnhancedTag + ".wav"
  {
    KeyFacts();
    NotContainsConcat(x, EnhancedTag, SampleRateKey);
    ReplaceSole(x + EnhancedTag, SampleRateKey, ".wav", EnhancedTag);
  }

  /** `_16k` has no border, and neither `.wav` nor the tag contains it or straddles into it. */
  lemma KeyFacts()
    ensures Unbordered(SampleRateKey)
    ensures !Contains(".wav", SampleRateKey) && !Contains([], SampleRateKey)
    ensures !Contains(EnhancedTag, SampleRateKey) && NoStraddle(EnhancedTag, SampleRateKey)
  {
    SplitUnbordered("_", "16k");
    assert SampleRateKey == "_" + "16k";
    AbsentHead(".wav", SampleRateKey);
    AbsentChar(EnhancedTag, SampleRateKey, 1);
    HeadOnlyAtStart(EnhancedTag, SampleRateKey);
  }
}

=== FILE: paths.dfy ===
/**
 The parts of `os.path` and `glob` the scripts use, on POSIX paths.
 Directory listings are given as sequences of entry names in whatever order
 the file system returns them.
 */
module Paths {
  import opened Strings

  const Sep: char := '/'

  /** `os.path.join(dir, name)`. */
  function Join(dir: string, name: string): (r: string)
    ensures |name| > 0 && name[0] == Sep ==> r == name
    ensures Sep !in name && name != [] ==> EndsWith(r, name)
  {
    if |name| > 0 && name[0] == Sep then name
    else if dir == [] || dir[|dir| - 1] == Sep then dir + name
    else dir + [Sep] + name
  }

  /** Index of the last `c` in `s`, or -1 (`str.rfind`). */
  function RFind(s: string, c: char): (r: int)
    ensures -1 <= r < |s|
    ensures r >= 0 ==> s[r] == c
    ensures forall k :: r < k < |s| ==> s[k] != c
  {
    if s == [] then -1
    else if s[|s| - 1] == c then |s| - 1
    else RFind(s[..|s| - 1], c)
  }

  /** `os.path.basename`: the part after the last separator. */
  function Basename(path: string): (r: string)
    ensures Sep !in r
    ensures EndsWith(path, r)
  {
    path[RFind(path, Sep) + 1..]
  }

  /** Appending text without `c` leaves the last `c` where it was. */
  lemma {:induction false} RFindAppend(a: string, b: string, c: char)
    requires c !in b
    ensures RFind(a + b, c) == RFind(a, c)
    decreases |b|
  {
    if b != [] {
      assert (a + b)[..|a + b| - 1] == a + b[..|b| - 1];
      assert (a + b)[|a + b| - 1] == b[|b| - 1];
      RFindAppend(a, b[..|b| - 1], c);
    } else {
      assert a + b == a;
    }
  }

  lemma BasenameOfJoin(dir: string, name: string)
    requires name != [] && Sep !in name
    ensures Basename(Join(dir, name)) == name
  {
    if dir == [] {
      BasenameAfter([], name);
      assert [] + name == name;
    } else if dir[|dir| - 1] == Sep {
      BasenameAfter(dir, name);
    } else {
      BasenameAfter(dir + [Sep], name);
    }
  }

  /** After a prefix that is empty or ends in a separator, the basename is what follows. */
  lemma BasenameAfter(prefix: string, name: string)
    requires Sep !in name
    requires prefix == [] || prefix[|prefix| - 1] == Sep
    ensures Basename(prefix + name) == name
  {
    RFindAppend(prefix, name, Sep);
    assert RFind(prefix, Sep) == |prefix| - 1;
    assert (prefix + name)[|prefix|..] == name;
  }

  /**
   `os.path.splitext`: the extension runs from the last dot of the final path
   component, unless every character before that dot in the component is a dot
   (leading dots do not start an extension).
   */
  function SplitExt(p: string): (r: (string, string))
    ensures r.0 + r.1 == p
    ensures r.1 == [] || (r.1[0] == '.' && '.' !in r.1[1..] && Sep !in r.1)
  {
    var sep := RFind(p, Sep);
    var dot := RFind(p, '.');
    if dot > sep && exists k :: sep + 1 <= k < dot && p[k] != '.' then
      assert forall k :: dot < k < |p| ==> p[k] != '.' && p[k] != Sep;
      assert forall k :: 0 <= k < |p[dot..]| ==> p[dot..][k] == p[dot + k];
      (p[..dot], p[dot..])
    else
      (p, [])
  }

  /** A name with a character other than a dot and no separator. */
  predicate PlainStem(x: string) {
    Sep !in x && exists k :: 0 <= k < |x| && x[k] != '.'
  }

  /** An extension as `splitext` returns it: a dot followed by no dot and no separator. */
  predicate Extension(ext: string) {
    |ext| > 0 && ext[0] == '.' && '.' !in ext[1..] && Sep !in ext
  }

  /** `splitext` splits a plain stem from the extension appended to it. */
  lemma SplitExtOf(x: string, ext: string)
    requires PlainStem(x) && Extension(ext)
    ensures SplitExt(x + ext) == (x, ext)
  {
    var p := x + ext;
    assert p == (x + ext[..1]) + ext[1..];
    RFindAppend(x + ext[..1], ext[1..], '.');
    assert (x + ext[..1])[|x|] == '.';
    RFindAppend(x, ext, Sep);
    assert p[..|x|] == x && p[|x|..] == ext;
    assert forall k :: 0 <= k < |x| ==> p[k] == x[k];
  }

  lemma SplitExtWav(x: string)
    requires PlainStem(x)
    ensures SplitExt(x + ".wav") == (x, ".wav")
  {
    assert ".wav"[1..] == "wav";
    SplitExtOf(x, ".wav");
  }

  /** A hidden entry: glob's `*` does not match a leading dot. */
  predicate Hidden(name: string) {
    |name| > 0 && name[0] == '.'
  }

  /** `glob.glob(os.path.join(dir, "*" + suffix))`, as the names it returns. */
  function Glob(listing: seq<string>, suffix: string): (r: seq<string>)
    ensures forall f :: f in r <==> f in listing && EndsWith(f, suffix) && !Hidden(f)
    ensures |r| <= |listing|
  {
    if listing == [] then []
    else
      var rest := Glob(listing[1..], suffix);
      if EndsWith(listing[0], suffix) && !Hidden(listing[0]) then [listing[0]] + rest else rest
  }
}

=== FILE: preparation.dfy ===
/**
 Audio preparation (preparation.py): every `*.wav` file of the input
 directory is written once per target rate into the prepared directory, as
 `<name>_<key><ext>`, unless that file already exists. Decoding, the
 resampler and the file writer are parameters.
 */
module Preparation {
  import opened Common
  import opened Strings
  import opened Paths

  const InputDir: string := "assets/audio_samples/original_rate"
  const OutputDir: string := "assets/prepared"

  /** The target rates in the dictionary's insertion order. */
  const TargetRates: seq<(string, int)> := [("16k", 16000), ("44k", 44100)]

  /** `f"{name}_{rate_key}{ext}"` where `name, ext = os.path.splitext(filename)`. */
  function OutputName(filename: string, key: string): string {
    var (name, ext) := SplitExt(filename);
    name + "_" + key + ext
  }

  /** The path written for one input entry and one rate key. */
  function PreparedPath(entry: string, key: string): string {
    Join(OutputDir, OutputName(Basename(Join(InputDir, entry)), key))
  }

  /** A visible `.wav` entry splits into its stem and `.wav`. */
  lemma WavSplit(f: string)
    requires Sep !in f && EndsWith(f, ".wav") && !Hidden(f)
    ensures |f| > 4 && f == f[..|f| - 4] + ".wav"
    ensures SplitExt(f) == (f[..|f| - 4], ".wav")
  {
    assert f[|f| - 4] == ".wav"[0];
    var x := f[..|f| - 4];
    assert x[0] == f[0];
    assert PlainStem(x);
    SplitExtWav(x);
    assert x + ".wav" == f;
  }

  /** For a visible `.wav` entry the key goes between the stem and the extension. */
  lemma PreparedPathOf(f: string, key: string)
    requires f != [] && Sep !in f && EndsWith(f, ".wav") && !Hidden(f)
    ensures PreparedPath(f, key) == Join(OutputDir, f[..|f| - 4] + "_" + key + ".wav")
    ensures f == f[..|f| - 4] + ".wav"
  {
    BasenameOfJoin(InputDir, f);
    WavSplit(f);
  }

  /** `x.wav` is prepared as `x_16k.wav` and `x_44k.wav`. */
  lemma PreparedNames(x: string)
    requires PlainStem(x)
    ensures OutputName(x + ".wav", "16k") == x + "_16k.wav"
    ensures OutputName(x + ".wav", "44k") == x + "_44k.wav"
  {
    SplitExtWav(x);
  }

  /** Joining a fixed directory with names that are not absolute loses nothing. */
  lemma JoinInjective(dir: string, a: string, b: string)
    requires a != [] && a[0] != Sep && b != [] && b[0] != Sep
    requires Join(dir, a) == Join(dir, b)
    ensures a == b
  {
    if dir == [] || dir[|dir| - 1] == Sep {
      assert a == (dir + a)[|dir|..] && b == (dir + b)[|dir|..];
    } else {
      assert a == (dir + [Sep] + a)[|dir| + 1..] && b == (dir + [Sep] + b)[|dir| + 1..];
    }
  }

  /** A prepared name gives back its stem and its three-letter key. */
  lemma NameInjective(x: string, k: string, y: string, k': string)
    requires |k| == 3 && |k'| == 3
    requires x + "_" + k + ".wav" == y + "_" + k' + ".wav"
    ensures x == y && k == k'
  {
    var a := x + "_" + k + ".wav";
    assert x == a[..|a| - 8] && k == a[|a| - 7..|a| - 4];
    var b := y + "_" + k' + ".wav";
    assert y == b[..|b| - 8] && k' == b[|b| - 7..|b| - 4];
  }

  /**
   Distinct (entry, rate) pairs are written to distinct paths, so the
   existence checks taken before the run are the ones the loop sees.
   */
  lemma PreparedPathInjective(f: string, i: nat, g: string, j: nat)
    requires f != [] && Sep !in f && EndsWith(f, ".wav") && !Hidden(f)
    requires g != [] && Sep !in g && EndsWith(g, ".wav") && !Hidden(g)
    requires i < |TargetRates| && j < |TargetRates|
    requires PreparedPath(f, TargetRates[i].0) == PreparedPath(g, TargetRates[j].0)
    ensures f == g && i == j
  {
    var k, k' := TargetRates[i].0, TargetRates[j].0;
    assert |k| == 3 && |k'| == 3 && (k == k' ==> i == j);
    PreparedPathOf(f, k);
    PreparedPathOf(g, k');
    var x, y := f[..|f| - 4], g[..|g| - 4];
    var a, b := x + "_" + k + ".wav", y + "_" + k' + ".wav";
    assert a[0] != Sep by { if |x| > 0 { assert a[0] == f[0]; } }
    assert b[0] != Sep by { if |y| > 0 { assert b[0] == g[0]; } }
    JoinInjective(OutputDir, a, b);
    NameInjective(x, k, y, k');
  }

  /** One resampling job: the entry, its rate key and target rate, and the two paths. */
  datatype PrepJob = PrepJob(entry: string, key: string, rate: int) {
    function Input(): string {
      Join(InputDir, entry)
    }

    function Output(): string {
      PreparedPath(entry, key)
    }
  }

  function JobFor(entry: string, target: (string, int)): PrepJob {
    PrepJob(entry, target.0, target.1)
  }

  /** The inner loop over the target rates for one entry. */
  function RateJobs(entry: string, rates: seq<(string, int)>, present: string -> bool): (jobs: seq<PrepJob>)
    ensures |jobs| <= |rates|
    ensures forall j :: j in jobs ==> j.entry == entry && (j.key, j.rate) in rates && !present(j.Output())
    ensures forall t :: t in rates && !present(PreparedPath(entry, t.0)) ==> JobFor(entry, t) in jobs
  {
    if rates == [] then []
    else
      var j := JobFor(entry, rates[0]);
      var rest := RateJobs(entry, rates[1..], present);
      if present(j.Output()) then rest else [j] + rest
  }

  /** With none of its outputs present, an entry gets one job per rate, in the rates' order. */
  lemma {:induction false} RateJobsAll(entry: string, rates: seq<(string, int)>, present: string -> bool)
    requires forall t :: t in rates ==> !present(PreparedPath(entry, t.0))
    ensures |RateJobs(entry, rates, present)| == |rates|
    ensures forall k :: 0 <= k < |rates| ==> RateJobs(entry, rates, present)[k] == JobFor(entry, rates[k])
    decreases |rates|
  {
    if rates != [] {
      assert rates[0] in rates;
      forall t | t in rates[1..] ensures !present(PreparedPath(entry, t.0)) {
        assert t in rates;
      }
      RateJobsAll(entry, rates[1..], present);
      var rest := RateJobs(entry, rates[1..], present);
      var all := RateJobs(entry, rates, present);
      assert all == [JobFor(entry, rates[0])] + rest;
      JobsShift(entry, rates, all, rest);
    }
  }

  /** Jobs whose tail lines up with the tail of the rates line up with the rates. */
  lemma JobsShift(entry: string, rates: seq<(string, int)>, all: seq<PrepJob>, rest: seq<PrepJob>)
    requires |rates| > 0 && all == [JobFor(entry, rates[0])] + rest && |rest| == |rates| - 1
    requires forall k :: 0 <= k < |rest| ==> rest[k] == JobFor(entry, rates[1..][k])
    ensures forall k :: 0 <= k < |rates| ==> all[k] == JobFor(entry, rates[k])
  {
    forall k | 1 <= k < |rates| ensures all[k] == JobFor(entry, rates[k]) {
      assert all[k] == rest[k - 1];
      assert rates[1..][k - 1] == rates[k];
    }
  }

  /** The outer loop over the entries the glob found. */
  function Plan(entries: seq<string>, present: string -> bool): (jobs: seq<PrepJob>)
    ensures |jobs| <= 2 * |entries|
    ensures forall j :: j in jobs ==>
      && j.entry in entries && (j.key, j.rate) in TargetRates
      && !present(j.Output())
    ensures forall f, t :: f in entries && t in TargetRates && !present(PreparedPath(f, t.0)) ==> JobFor(f, t) in jobs
  {
    if entries == [] then []
    else RateJobs(entries[0], TargetRates, present) + Plan(entries[1..], present)
  }

  /** With neither prepared file present, an entry gets its 16k job then its 44k job. */
  lemma RateJobsNonePresent(entry: string, present: string -> bool)
    requires !present(PreparedPath(entry, "16k")) && !present(PreparedPath(entry, "44k"))
    ensures RateJobs(entry, TargetRates, present) == [JobFor(entry, TargetRates[0]), JobFor(entry, TargetRates[1])]
  {
    assert TargetRates[1..][1..] == [];
  }

  /** Every entry at 16k then 44k, in glob order: the plan when nothing is prepared yet. */
  function AllJobs(entries: seq<string>): (jobs: seq<PrepJob>)
    ensures |jobs| == 2 * |entries|
    ensures forall i :: 0 <= i < |jobs| ==> jobs[i] == JobFor(entries[i / 2], TargetRates[i % 2])
  {
    if entries == [] then []
    else
      var head := [JobFor(entries[0], TargetRates[0]), JobFor(entries[0], TargetRates[1])];
      var rest := AllJobs(entries[1..]);
      PairStep(entries, head, rest);
      head + rest
  }

  lemma PairStep(entries: seq<string>, head: seq<PrepJob>, rest: seq<PrepJob>)
    requires entries != [] && head == [JobFor(entries[0], TargetRates[0]), JobFor(entries[0], TargetRates[1])]
    requires |rest| == 2 * (|entries| - 1)
    requires forall i :: 0 <= i < |rest| ==> rest[i] == JobFor(entries[1..][i / 2], TargetRates[i % 2])
    ensures forall i :: 0 <= i < |head + rest| ==> (head + rest)[i] == JobFor(entries[i / 2], TargetRates[i % 2])
  {
    forall i | 0 <= i < |head + rest|
      ensures (head + rest)[i] == JobFor(entries[i / 2], TargetRates[i % 2])
    {
      if i >= 2 {
        assert (head + rest)[i] == rest[i - 2];
        assert (i - 2) / 2 == i / 2 - 1 && (i - 2) % 2 == i % 2;
        assert entries[1..][i / 2 - 1] == entries[i / 2];
      }
    }
  }

  lemma {:induction false} PlanNonePresent(entries: seq<string>, present: string -> bool)
    requires forall f, t :: f in entries && t in TargetRates ==> !present(PreparedPath(f, t.0))
    ensures Plan(entries, present) == AllJobs(entries)
    decreases |entries|
  {
    if entries != [] {
      assert entries[0] in entries && TargetRates[0] in TargetRates && TargetRates[1] in TargetRates;
      RateJobsNonePresent(entries[0], present);
      assert forall f :: f in entries[1..] ==> f in entries;
      PlanNonePresent(entries[1..], present);
    }
  }

  datatype Outcome = NoInputs | Ran(jobs: seq<PrepJob>)

  /**
   `main`: nothing to do when the glob finds no `.wav` entry; otherwise every
   (entry, rate) pair whose output is missing, entry by entry and 16k before 44k.
   */
  function Main(listing: seq<string>, present: string -> bool): (r: Outcome)
    ensures r.NoInputs? <==> forall f :: f in listing ==> !EndsWith(f, ".wav") || Hidden(f)
    ensures r.Ran? ==> forall j :: j in r.jobs ==>
      && j.entry in listing && EndsWith(j.entry, ".wav") && !Hidden(j.entry)
      && (j.key, j.rate) in TargetRates && j.Input() == Join(InputDir, j.entry)
      && j.Output() == PreparedPath(j.entry, j.key) && !present(j.Output())
    ensures r.Ran? ==> forall f, t ::
      f in listing && EndsWith(f, ".wav") && !Hidden(f) && t in TargetRates && !present(PreparedPath(f, t.0))
      ==> JobFor(f, t) in r.jobs
  {
    var entries := Glob(listing, ".wav");
    if entries == [] then
      assert forall f :: f in listing && EndsWith(f, ".wav") && !Hidden(f) ==> f in entries;
      NoInputs
    else
      assert entries[0] in entries;
      Ran(Plan(entries, present))
  }

  /** Rerunning once every prepared file exists writes nothing. */
  lemma RerunSkips(listing: seq<string>, present: string -> bool)
    requires forall f, t :: f in listing && t in TargetRates ==> present(PreparedPath(f, t.0))
    ensures Main(listing, present).Ran? ==> Main(listing, present).jobs == []
  {
    var jobs := Plan(Glob(listing, ".wav"), present);
    if jobs != [] {
      assert jobs[0] in jobs;
    }
  }

  /** A decoded file: mono samples and their rate. */
  datatype Audio = Audio(samples: seq<int>, rate: int)

  /** `resample(samples, origRate, targetRate)` stands in for `librosa.resample`. */
  type Resampler = (seq<int>, int, int) -> seq<int>

  /**
   `resample_audio`: a file that does not decode (`loaded` is None) is logged
   and nothing is written; a file already at the target rate is written
   unchanged; any other is resampled. Either way the file is written at the
   target rate.
   */
  function ResampleAudio(loaded: Option<Audio>, target: int, resample: Resampler): (w: Option<Audio>)
    ensures w.None? <==> loaded.None?
    ensures w.Some? ==> w.value.rate == target
    ensures w.Some? && loaded.value.rate == target ==> w.value.samples == loaded.value.samples
    ensures w.Some? && loaded.value.rate != target ==>
      w.value.samples == resample(loaded.value.samples, loaded.value.rate, target)
  {
    match loaded
    case None => None
    case Some(a) =>
      if a.rate == target then Some(Audio(a.samples, a.rate))
      else Some(Audio(resample(a.samples, a.rate, target), target))
  }

  /** Preparing a prepared file again at the same rate copies it unchanged. */
  lemma ResampleIdempotent(loaded: Audio, target: int, resample: Resampler)
    ensures var w := ResampleAudio(Some(loaded), target, resample);
      ResampleAudio(w, target, resample) == w
  {
  }
}

=== FILE: rnnoise.dfy ===
/**
 The RNNoise method (methods/rnnoise/run.py): cut the signal into 480-sample
 frames, hand each to the denoiser, zero-pad the last partial frame, and fall
 back to the input samples of a frame whose processing raised.

 The denoiser is a function of the frames already handed to it and the new
 frame, returning None where `process_frame` raises.
 */
module Rnnoise {
  import opened Common
  import opened Strings
  import opened Paths
  import opened Batch
  import RnnoiseWrapper

  const FrameSize: nat := 480
  const ExpectedInputSr: int := 16000
  const SampleRateKey: string := "_16k"
  const InputSuffix: string := "_16k.wav"

  type Frame = RnnoiseWrapper.Frame

  /** `RNNOISE_FRAME_SIZE` agrees with the wrapper's `SAMPLES_PER_FRAME`. */
  lemma FrameSizeAgrees()
    ensures FrameSize == RnnoiseWrapper.SamplesPerFrame
  {
  }

  type Denoiser = (seq<Frame>, Frame) -> Option<Frame>

  /** Full frames plus one padded frame for a non-empty remainder. */
  function NumCalls(n: nat): nat {
    n / FrameSize + (if n % FrameSize > 0 then 1 else 0)
  }

  /** Frame `k` as handed to the denoiser: a slice of the signal, or the zero-padded tail. */
  function FrameAt(audio: seq<int>, k: nat): Frame
    requires k < NumCalls(|audio|)
  {
    if (k + 1) * FrameSize <= |audio| then audio[k * FrameSize..(k + 1) * FrameSize]
    else audio[k * FrameSize..] + Zeros(FrameSize - (|audio| - k * FrameSize))
  }

  /** Every frame the denoiser receives, in order. */
  function Frames(audio: seq<int>): (fs: seq<Frame>)
    ensures |fs| == NumCalls(|audio|)
  {
    seq(NumCalls(|audio|), k requires 0 <= k < NumCalls(|audio|) => FrameAt(audio, k))
  }

  /** The samples written for frame `k`: the denoised frame, or the frame itself when the call raised. */
  function FrameOut(d: Denoiser, audio: seq<int>, k: nat): Frame
    requires k < NumCalls(|audio|)
  {
    match d(Frames(audio)[..k], FrameAt(audio, k))
    case Some(f) => f
    case None => FrameAt(audio, k)
  }

  /** Sample `i` of the enhanced signal, read from the frame that covers it. */
  function Enhanced(d: Denoiser, audio: seq<int>, i: nat): int
    requires i < |audio|
  {
    FrameOut(d, audio, i / FrameSize)[i % FrameSize]
  }

  /** Index `i` lies in frame `i / 480` at offset `i % 480`, and that frame holds `audio[i]` there. */
  lemma FrameCovers(audio: seq<int>, i: nat)
    requires i < |audio|
    ensures i / FrameSize < NumCalls(|audio|)
    ensures FrameAt(audio, i / FrameSize)[i % FrameSize] == audio[i]
  {
  }

  /** Frames do not overlap: a sample lies in frame `k` only for `k == i / 480`. */
  lemma FrameUnique(i: nat, k: nat)
    requires k * FrameSize <= i < (k + 1) * FrameSize
    ensures k == i / FrameSize && i % FrameSize == i - k * FrameSize
  {
  }

  /** The padded tail: past the remainder, the last frame is zeros. */
  lemma TailPadding(audio: seq<int>, j: nat)
    requires |audio| % FrameSize > 0
    requires |audio| % FrameSize <= j < FrameSize
    ensures FrameAt(audio, |audio| / FrameSize)[j] == 0
  {
  }

  /** A denoiser that hands back its frame leaves every sample as it was. */
  lemma IdentityKeepsAudio(d: Denoiser, audio: seq<int>)
    requires forall h, f :: d(h, f) == Some(f)
    ensures forall i :: 0 <= i < |audio| ==> Enhanced(d, audio, i) == audio[i]
  {
    forall i | 0 <= i < |audio| ensures Enhanced(d, audio, i) == audio[i] {
      FrameCovers(audio, i);
    }
  }

  /** A frame whose processing raised keeps its input samples. */
  lemma FailedFrameKeepsAudio(d: Denoiser, audio: seq<int>, k: nat)
    requires k < NumCalls(|audio|)
    requires d(Frames(audio)[..k], FrameAt(audio, k)).None?
    ensures forall i :: k * FrameSize <= i < (k + 1) * FrameSize && i < |audio| ==> Enhanced(d, audio, i) == audio[i]
  {
    forall i | k * FrameSize <= i < (k + 1) * FrameSize && i < |audio| ensures Enhanced(d, audio, i) == audio[i] {
      FrameUnique(i, k);
      FrameCovers(audio, i);
    }
  }

  /**
   Every frame the script hands over is a float32 array of shape `(480,)`, so
   a live wrapper processes it without raising.
   */
  lemma FramesPassWrapperGuards(w: RnnoiseWrapper.Wrapper, lib: RnnoiseWrapper.Library, audio: seq<int>, k: nat)
    requires RnnoiseWrapper.Live(w) && k < NumCalls(|audio|)
    ensures RnnoiseWrapper.Consistent(RnnoiseWrapper.NdArray(RnnoiseWrapper.Float32, [FrameSize], Frames(audio)[k]))
    ensures RnnoiseWrapper.ProcessFrame(w, lib, RnnoiseWrapper.NdArray(RnnoiseWrapper.Float32, [FrameSize], Frames(audio)[k])).result
         == Success(lib.process(w.history, Frames(audio)[k]))
  {
    assert RnnoiseWrapper.Product([FrameSize]) == FrameSize * RnnoiseWrapper.Product([]);
  }

  /** The output so far: the first `upto` samples are final. */
  predicate Done(d: Denoiser, audio: seq<int>, out: seq<int>, upto: nat) {
    && |out| == |audio|
    && forall i :: 0 <= i < upto && i < |audio| ==> out[i] == Enhanced(d, audio, i)
  }

  /** Writing frame `k`'s samples extends the finished prefix to the end of that frame. */
  lemma WriteFrameStep(d: Denoiser, audio: seq<int>, k: nat, out: seq<int>, next: seq<int>, n: nat)
    requires k < NumCalls(|audio|) && n <= FrameSize
    requires k * FrameSize + n == if (k + 1) * FrameSize <= |audio| then (k + 1) * FrameSize else |audio|
    requires Done(d, audio, out, k * FrameSize)
    requires next == Write(out, k * FrameSize, FrameOut(d, audio, k)[..n])
    ensures Done(d, audio, next, (k + 1) * FrameSize)
  {
    forall i | k * FrameSize <= i < (k + 1) * FrameSize && i < |audio|
      ensures next[i] == Enhanced(d, audio, i)
    {
      FrameUnique(i, k);
    }
  }

  /** The frames handed over so far, one more. */
  lemma FramesPrefix(audio: seq<int>, k: nat)
    requires k < NumCalls(|audio|)
    ensures Frames(audio)[..k + 1] == Frames(audio)[..k] + [FrameAt(audio, k)]
  {
  }

  /**
   One frame of `process_audio_rnnoise`: hand frame `k` to the denoiser and
   write the first `n` samples of what comes back, or of the frame itself
   when the call raises.
   */
  method DenoiseFrame(d: Denoiser, audio: seq<int>, k: nat, frame: Frame, calls: seq<Frame>, out: seq<int>, n: nat)
    returns (next: seq<int>)
    requires k < NumCalls(|audio|) && n <= FrameSize
    requires k * FrameSize + n == if (k + 1) * FrameSize <= |audio| then (k + 1) * FrameSize else |audio|
    requires frame == FrameAt(audio, k) && calls == Frames(audio)[..k]
    requires Done(d, audio, out, k * FrameSize)
    ensures Done(d, audio, next, (k + 1) * FrameSize)
  {
    var start := k * FrameSize;
    match d(calls, frame) {
      case Some(denoised) => next := Write(out, start, denoised[..n]);
      case None => next := Write(out, start, frame[..n]);
    }
    WriteFrameStep(d, audio, k, out, next, n);
  }

  /**
   `process_audio_rnnoise`: a non-float32 signal raises `TypeError` before any
   frame is handed over; otherwise every frame is handed over once, in order,
   and each output sample comes from the frame covering it.
   */
  method ProcessAudioRnnoise(d: Denoiser, dtype: RnnoiseWrapper.DType, audio: seq<int>)
    returns (r: Result<seq<int>, RnnoiseWrapper.Error>, calls: seq<Frame>)
    ensures dtype != RnnoiseWrapper.Float32 <==> r.Failure?
    ensures r.Failure? ==> r.error == RnnoiseWrapper.TypeError && calls == []
    ensures r.Success? ==> calls == Frames(audio)
    ensures r.Success? ==> |r.value| == |audio|
    ensures r.Success? ==> forall i :: 0 <= i < |audio| ==> r.value[i] == Enhanced(d, audio, i)
  {
    calls := [];
    if dtype != RnnoiseWrapper.Float32 {
      return Failure(RnnoiseWrapper.TypeError), calls;
    }
    var numFrames := |audio| / FrameSize;
    var out := Zeros(|audio|);
    var i := 0;
    while i < numFrames
      invariant 0 <= i <= numFrames
      invariant calls == Frames(audio)[..i]
      invariant Done(d, audio, out, i * FrameSize)
    {
      var start := i * FrameSize;
      var frame: Frame := audio[start..start + FrameSize];
      assert frame == FrameAt(audio, i);
      var next := DenoiseFrame(d, audio, i, frame, calls, out, FrameSize);
      FramesPrefix(audio, i);
      out, calls := next, calls + [frame];
      i := i + 1;
    }
    var remaining := |audio| % FrameSize;
    if remaining > 0 {
      var lastStart := numFrames * FrameSize;
      var lastFrame: Frame := audio[lastStart..] + Zeros(FrameSize - remaining);
      assert lastFrame == FrameAt(audio, numFrames);
      var next := DenoiseFrame(d, audio, numFrames, lastFrame, calls, out, remaining);
      FramesPrefix(audio, numFrames);
      out, calls := next, calls + [lastFrame];
    }
    assert calls == Frames(audio);
    return Success(out), calls;
  }

  /**
   `process_file` on decoded mono audio, which `soundfile` returns as float32:
   skipped unless the rate is 16 kHz, otherwise every sample is enhanced.
   */
  method ProcessFile(d: Denoiser, sr: int, audio: seq<int>) returns (r: Option<seq<int>>)
    ensures sr != ExpectedInputSr <==> r.None?
    ensures r.Some? ==> |r.value| == |audio| && forall i :: 0 <= i < |audio| ==> r.value[i] == Enhanced(d, audio, i)
  {
    if sr != ExpectedInputSr {
      return None;
    }
    var res, _ := ProcessAudioRnnoise(d, RnnoiseWrapper.Float32, audio);
    r := Some(res.value);
  }

  /** `"_model"` when the weights file was found, `"_default"` for the built-in model. */
  function ModelTag(modelFound: bool): string {
    if modelFound then "_model" else "_default"
  }

  /** `_rnnoise{model_tag}_enhanced`. */
  function EnhancedTag(modelFound: bool): (t: string)
    ensures modelFound ==> t == "_rnnoise_model_enhanced"
    ensures !modelFound ==> t == "_rnnoise_default_enhanced"
  {
    "_rnnoise" + ModelTag(modelFound) + "_enhanced"
  }

  /** Every `_16k` in the input name becomes `_rnnoise_model_enhanced` or `_rnnoise_default_enhanced`. */
  function OutputName(name: string, modelFound: bool): string {
    ReplaceAll(name, SampleRateKey, EnhancedTag(modelFound))
  }


  /**
   Whether constructing the wrapper succeeds: with the weights file, the
   model must load and `rnnoise_init` accept it; without it,
   `rnnoise_create` must return a state.
   */
  function InitSucceeds(lib: RnnoiseWrapper.Library, weightsPath: string, fileExists: string -> bool): (ok: bool)
    requires weightsPath != ""
    ensures fileExists(weightsPath) ==>
      (ok <==> lib.modelFromFilename(weightsPath).Some? && lib.init(lib.modelFromFilename(weightsPath).value) == 0)
    ensures !fileExists(weightsPath) ==> (ok <==> lib.create)
  {
    var modelToUse := if fileExists(weightsPath) then Some(weightsPath) else None;
    RnnoiseWrapper.Construct(lib, modelToUse, fileExists).error.None?
  }

  /**
   How a run ends: no inputs; the wrapper could not be constructed; or the
   batch loop ran, followed by the explicit `denoiser.destroy()`, whose
   object and library calls `closed` records.
   */
  datatype Outcome =
    | NoInputs
    | InitFailed
    | Ran(modelFound: bool, jobs: seq<Job>, closed: RnnoiseWrapper.Step)

  /** The wrapper the script constructs: from the weights file when it exists, the built-in model otherwise. */
  function Constructed(lib: RnnoiseWrapper.Library, weightsPath: string, fileExists: string -> bool): RnnoiseWrapper.Built {
    RnnoiseWrapper.Construct(lib, if fileExists(weightsPath) then Some(weightsPath) else None, fileExists)
  }

  /**
   `main`: find the `*_16k.wav` inputs, pick the weights file if it exists,
   construct the wrapper, run the batch loop (skipping an input whose output
   exists when its turn comes; `writes(f)` says whether processing `f` wrote
   its output), then destroy the wrapper. Frames handed to the wrapper in
   between only extend its history, which `destroy` does not look at.
   */
  function Main(lib: RnnoiseWrapper.Library, weightsPath: string, fileExists: string -> bool,
                listing: seq<string>, outDir: string, present: string -> bool, writes: string -> bool): (r: Outcome)
    requires weightsPath != ""
    ensures r.NoInputs? <==> NoCandidates(listing, "_16k.wav")
    ensures r.InitFailed? <==> !r.NoInputs? && !InitSucceeds(lib, weightsPath, fileExists)
    ensures r.Ran? ==> (r.modelFound <==> fileExists(weightsPath))
    ensures r.Ran? ==> forall j :: j in r.jobs ==>
      && j.input in listing && EndsWith(j.input, "_16k.wav") && !Hidden(j.input)
      && j.output == Join(outDir, OutputName(j.input, r.modelFound)) && !present(j.output)
    ensures r.Ran? ==> forall f ::
      (f in listing && EndsWith(f, "_16k.wav") && !Hidden(f) && !present(Join(outDir, OutputName(f, r.modelFound)))
       && UniqueOutput(Glob(listing, "_16k.wav"), outDir, Renamer(SampleRateKey, EnhancedTag(r.modelFound)), f))
      ==> Job(f, Join(outDir, OutputName(f, r.modelFound))) in r.jobs
    ensures r.Ran? && (forall f :: f in listing ==> writes(f)) ==>
      forall i, k :: 0 <= i < k < |r.jobs| ==> r.jobs[i].output != r.jobs[k].output
    // the explicit `destroy()`: the loaded model is freed, or the library-created state destroyed ...
    ensures r.Ran? && r.modelFound ==>
      r.closed.calls == [RnnoiseWrapper.ModelFree(lib.modelFromFilename(weightsPath).value)]
    ensures r.Ran? && !r.modelFound ==> r.closed.calls == [RnnoiseWrapper.DestroyState]
    // ... and the collector's later `__del__` makes no call
    ensures r.Ran? ==> r.closed.obj.destroyed && RnnoiseWrapper.Del(r.closed.obj).calls == []
  {
    GlobEmpty(listing, InputSuffix);
    if Glob(listing, InputSuffix) == [] then NoInputs
    else
      var found := fileExists(weightsPath);
      var b := Constructed(lib, weightsPath, fileExists);
      if b.error.Some? then InitFailed
      else Ran(found, GlobRun(listing, InputSuffix, outDir, Renamer(SampleRateKey, EnhancedTag(found)), present, writes), RnnoiseWrapper.Destroy(b.obj))
  }

  /**
   On prepared inputs (`<stem>_16k.wav`, the stem holding no `_16k`) listed
   once each, distinct inputs get distinct outputs, so the loop runs every
   input whose output did not exist before the run, as a snapshot of the
   output directory would decide.
   */
  lemma PreparedRunIsPlan(lib: RnnoiseWrapper.Library, weightsPath: string, fileExists: string -> bool,
                          listing: seq<string>, outDir: string, present: string -> bool, writes: string -> bool)
    requires weightsPath != ""
    requires Sorting.Distinct(listing)
    requires forall f :: Candidate(listing, InputSuffix, f) ==>
      Sep !in f && !Contains(f[..|f| - |InputSuffix|], SampleRateKey)
    ensures var r := Main(lib, weightsPath, fileExists, listing, outDir, present, writes);
      r.Ran? ==> r.jobs == GlobPlan(listing, InputSuffix, outDir, Renamer(SampleRateKey, EnhancedTag(r.modelFound)), present)
  {
    var found := fileExists(weightsPath);
    RateKeysPlain();
    MainRuns(lib, weightsPath, fileExists, listing, outDir, present, writes);
    TagPlain(found);
    RenamedRunIsPlan(listing, InputSuffix, SampleRateKey, EnhancedTag(found), outDir, present, writes);
  }

  /** A run's jobs are the batch loop's over the glob, named by whether the weights file exists. */
  lemma MainRuns(lib: RnnoiseWrapper.Library, weightsPath: string, fileExists: string -> bool,
                 listing: seq<string>, outDir: string, present: string -> bool, writes: string -> bool)
    requires weightsPath != ""
    ensures var r := Main(lib, weightsPath, fileExists, listing, outDir, present, writes);
      r.Ran? ==> (r.modelFound == fileExists(weightsPath)
                  && r.jobs == GlobRun(listing, InputSuffix, outDir, Renamer(SampleRateKey, EnhancedTag(fileExists(weightsPath))), present, writes))
  {
  }

  /** Neither tag holds a path separator. */
  lemma TagPlain(modelFound: bool)
    ensures Sep !in EnhancedTag(modelFound)
  {
  }
}

=== FILE: rnnoise_wrapper.dfy ===
/**
 The RNNoise CFFI wrapper (methods/rnnoise/rnnoise_cffi_wrapper.py) as a state
 machine. The C library is a record of functions; every call into it is
 recorded in a log of events, so that "freed once" and "no library call
 before the guards" become statements about that log.

 `Construct` is the constructor as written; `ConstructCorrected` clears the
 model reference after freeing it on an `rnnoise_init` failure, which is what
 keeps the later `__del__` from freeing the same model again.
 */
module RnnoiseWrapper {
  import opened Common

  const FrameSizeMs: int := 10
  const RnnoiseSampleRate: int := 48000
  /** `SAMPLES_PER_FRAME`. */
  const SamplesPerFrame: int := (RnnoiseSampleRate / 1000) * FrameSizeMs

  lemma SamplesPerFrameIs480()
    ensures SamplesPerFrame == 480
  {
  }

  type Frame = s: seq<int> | |s| == SamplesPerFrame witness seq(480, _ => 0)

  datatype DType = Float32 | Float64 | Int16 | Int32

  /**
   What a caller hands to `process_frame`: a numpy array (flat data, C order)
   or anything else, which may still carry a `dtype` attribute (a numpy
   scalar, a tensor) or not (a list).
   */
  datatype Value = NdArray(dtype: DType, shape: seq<nat>, data: seq<int>) | NotArray(hasDtype: bool)

  function Product(shape: seq<nat>): nat {
    if shape == [] then 1 else shape[0] * Product(shape[1..])
  }

  /** A numpy array holds as many values as its shape says. */
  predicate Consistent(v: Value) {
    v.NdArray? ==> |v.data| == Product(v.shape)
  }

  /** `RNNoiseCFFIError`, `TypeError`, `ValueError`, and the `AttributeError` a missing `dtype` raises. */
  datatype Error = WrapperError | TypeError | ValueError | AttributeError

  /** An opaque pointer returned by the library. */
  type Handle = nat

  /** One call into the C library. */
  datatype CCall =
    | ModelFromFilename(path: string)
    | GetSize
    | Init(model: Handle)
    | Create
    | ProcessFrameCall
    | DestroyState
    | ModelFree(model: Handle)

  /**
   The library's behaviour: `rnnoise_model_from_filename` (None for NULL),
   `rnnoise_init`'s return code, whether `rnnoise_create` returns a state,
   and `rnnoise_process_frame` as a function of the frames the state has
   already seen and the new frame, giving the voice probability and the
   denoised frame.
   */
  datatype Library = Library(
    modelFromFilename: string -> Option<Handle>,
    init: Handle -> int,
    create: bool,
    process: (seq<Frame>, Frame) -> (real, Frame))

  /**
   The fields of an `RNNoiseCFFI` object: `_model`, whether `_state` is a
   non-null pointer, `_destroyed`, `_state_created_internally`, and the
   frames the C state has processed.
   */
  datatype Wrapper = Wrapper(model: Option<Handle>, state: bool, destroyed: bool,
                             createdInternally: bool, history: seq<Frame>)

  /** The object at the point `__init__` stops, the calls it made, and the exception it raised, if any. */
  datatype Built = Built(obj: Wrapper, calls: seq<CCall>, error: Option<Error>)

  /** The fields as `__init__` sets them before looking at the model path. */
  const Blank: Wrapper := Wrapper(None, false, false, false, [])

  /** A usable object: not destroyed and holding a state pointer. */
  predicate Live(w: Wrapper) {
    !w.destroyed && w.state
  }

  /** `if model_path:` — an absent or empty path selects the built-in model. */
  predicate GivenPath(modelPath: Option<string>) {
    modelPath.Some? && modelPath.value != ""
  }

  /**
   The constructor, shared by both versions; `clearOnFail` says whether the
   model reference is dropped after it is freed on an `rnnoise_init` failure.
   */
  function ConstructWith(lib: Library, modelPath: Option<string>, fileExists: string -> bool, clearOnFail: bool): Built {
    if GivenPath(modelPath) then
      var path := modelPath.value;
      if !fileExists(path) then Built(Blank, [], Some(WrapperError))
      else
        match lib.modelFromFilename(path)
        case None => Built(Blank, [ModelFromFilename(path)], Some(WrapperError))
        case Some(h) =>
          var calls := [ModelFromFilename(path), GetSize, Init(h)];
          if lib.init(h) != 0 then
            var kept := if clearOnFail then None else Some(h);
            Built(Wrapper(kept, true, false, false, []), calls + [ModelFree(h)], Some(WrapperError))
          else
            Built(Wrapper(Some(h), true, false, false, []), calls, None)
    else if lib.create then
      Built(Wrapper(None, true, false, true, []), [Create], None)
    else
      Built(Blank, [Create], Some(WrapperError))
  }

  /** The model file loads, but `rnnoise_init` rejects the model. */
  predicate LoadsButFailsInit(lib: Library, path: string) {
    lib.modelFromFilename(path).Some? && lib.init(lib.modelFromFilename(path).value) != 0
  }

  /** The guarantees both constructors give. */
  predicate ConstructSpec(lib: Library, modelPath: Option<string>, fileExists: string -> bool, b: Built) {
    // a missing model file raises before any library call
    && (GivenPath(modelPath) && !fileExists(modelPath.value) ==> b.error == Some(WrapperError) && b.calls == [])
    // success leaves a usable object
    && (b.error.None? ==> Live(b.obj) && b.obj.history == [])
    && (b.error.Some? ==> b.error == Some(WrapperError) && !b.obj.destroyed)
    // with a model file: load, size, init; the state lives in a Python buffer
    && (GivenPath(modelPath) && b.error.None? ==>
          && b.obj.model.Some? && !b.obj.createdInternally && lib.init(b.obj.model.value) == 0
          && b.calls == [ModelFromFilename(modelPath.value), GetSize, Init(b.obj.model.value)])
    // a failing `rnnoise_init` frees the model it was given
    && (GivenPath(modelPath) && fileExists(modelPath.value) && LoadsButFailsInit(lib, modelPath.value) ==>
          var h := lib.modelFromFilename(modelPath.value).value;
          b.error.Some? && b.calls == [ModelFromFilename(modelPath.value), GetSize, Init(h), ModelFree(h)])
    // without one: a library-created state, or an error if creation fails
    && (!GivenPath(modelPath) ==> b.calls == [Create] && (b.error.None? <==> lib.create))
    && (!GivenPath(modelPath) && b.error.None? ==> b.obj.createdInternally && b.obj.model.None?)
  }

  /** `RNNoiseCFFI.__init__` as written: the freed model stays in `_model`. */
  function Construct(lib: Library, modelPath: Option<string>, fileExists: string -> bool): (b: Built)
    ensures ConstructSpec(lib, modelPath, fileExists, b)
    ensures b.error.Some? && b.obj.model.Some? ==> ModelFree(b.obj.model.value) in b.calls
  {
    ConstructWith(lib, modelPath, fileExists, false)
  }

  /** `__init__` with `self._model = None` after the clean-up free. */
  function ConstructCorrected(lib: Library, modelPath: Option<string>, fileExists: string -> bool): (b: Built)
    ensures ConstructSpec(lib, modelPath, fileExists, b)
    ensures b.obj.model.Some? ==> forall c :: c in b.calls ==> !c.ModelFree?
  {
    ConstructWith(lib, modelPath, fileExists, true)
  }

  /** The effect of `process_frame` on the object, the calls it makes, and what it returns or raises. */
  datatype FrameStep = FrameStep(obj: Wrapper, calls: seq<CCall>, result: Result<(real, Frame), Error>)

  /**
   `process_frame`: the destroyed check, then the type check, then the shape
   check, and only then one `rnnoise_process_frame` call on a fresh copy.
   `readsDtype` says whether building the `TypeError` message reads
   `frame_float32.dtype`, as the source does: for a value without that
   attribute the read itself raises `AttributeError` first.
   */
  function ProcessFrameWith(w: Wrapper, lib: Library, v: Value, readsDtype: bool): (s: FrameStep)
    requires Consistent(v)
    ensures v.NdArray? && v.shape == [SamplesPerFrame] ==> |v.data| == SamplesPerFrame
    ensures s.result.Failure? ==> s.obj == w && s.calls == []
    ensures s.result.Success? <==> !w.destroyed && v.NdArray? && v.dtype == Float32 && v.shape == [SamplesPerFrame]
    ensures s.result.Success? ==>
      && s.calls == [ProcessFrameCall]
      && s.result.value == lib.process(w.history, v.data)
      && s.obj == w.(history := w.history + [v.data])
  {
    assert v.NdArray? && |v.shape| == 1 ==> Product(v.shape) == v.shape[0] * Product(v.shape[1..]);
    if w.destroyed then FrameStep(w, [], Failure(WrapperError))
    else if v.NotArray? || v.dtype != Float32 then
      FrameStep(w, [], Failure(if readsDtype && v.NotArray? && !v.hasDtype then AttributeError else TypeError))
    else if v.shape != [SamplesPerFrame] then FrameStep(w, [], Failure(ValueError))
    else
      var frame: Frame := v.data;
      FrameStep(w.(history := w.history + [frame]), [ProcessFrameCall], Success(lib.process(w.history, frame)))
  }

  /** `process_frame` as written: the `TypeError` message reads `.dtype`. */
  function ProcessFrame(w: Wrapper, lib: Library, v: Value): (s: FrameStep)
    requires Consistent(v)
    ensures v.NdArray? && v.shape == [SamplesPerFrame] ==> |v.data| == SamplesPerFrame
    ensures w.destroyed ==> s == FrameStep(w, [], Failure(WrapperError))
    ensures !w.destroyed && v.NotArray? && !v.hasDtype ==> s == FrameStep(w, [], Failure(AttributeError))
    ensures !w.destroyed && (v == NotArray(true) || (v.NdArray? && v.dtype != Float32)) ==>
      s == FrameStep(w, [], Failure(TypeError))
    ensures !w.destroyed && v.NdArray? && v.dtype == Float32 && v.shape != [SamplesPerFrame] ==>
      s == FrameStep(w, [], Failure(ValueError))
    ensures s.result.Success? <==> !w.destroyed && v.NdArray? && v.dtype == Float32 && v.shape == [SamplesPerFrame]
    ensures s.result.Success? ==>
      && s.calls == [ProcessFrameCall]
      && s.result.value == lib.process(w.history, v.data)
      && s.obj == w.(history := w.history + [v.data])
  {
    ProcessFrameWith(w, lib, v, true)
  }

  /** `process_frame` with the message built without `.dtype`: every non-float32 value raises `TypeError`. */
  function ProcessFrameCorrected(w: Wrapper, lib: Library, v: Value): (s: FrameStep)
    requires Consistent(v)
    ensures v.NdArray? && v.shape == [SamplesPerFrame] ==> |v.data| == SamplesPerFrame
    ensures w.destroyed ==> s == FrameStep(w, [], Failure(WrapperError))
    ensures !w.destroyed && (v.NotArray? || v.dtype != Float32) ==> s == FrameStep(w, [], Failure(TypeError))
    ensures !w.destroyed && v.NdArray? && v.dtype == Float32 && v.shape != [SamplesPerFrame] ==>
      s == FrameStep(w, [], Failure(ValueError))
    ensures s.result.Success? <==> !w.destroyed && v.NdArray? && v.dtype == Float32 && v.shape == [SamplesPerFrame]
    ensures s.result.Success? ==>
      && s.calls == [ProcessFrameCall]
      && s.result.value == lib.process(w.history, v.data)
      && s.obj == w.(history := w.history + [v.data])
  {
    ProcessFrameWith(w, lib, v, false)
  }

  /**
   The two versions differ only in the exception a live object raises for a
   value without `dtype`: `AttributeError` as written, `TypeError` as meant.
   The object and the library calls are the same for every value.
   */
  lemma AsWrittenAttributeError(w: Wrapper, lib: Library, v: Value)
    requires Consistent(v)
    ensures ProcessFrame(w, lib, v).obj == ProcessFrameCorrected(w, lib, v).obj
    ensures ProcessFrame(w, lib, v).calls == ProcessFrameCorrected(w, lib, v).calls
    ensures ProcessFrame(w, lib, v).result != ProcessFrameCorrected(w, lib, v).result <==>
      !w.destroyed && v == NotArray(false)
    ensures !w.destroyed && v == NotArray(false) ==>
      ProcessFrame(w, lib, v).result == Failure(AttributeError)
      && ProcessFrameCorrected(w, lib, v).result == Failure(TypeError)
  {
  }

  /** An object and the library calls made while reaching it. */
  datatype Step = Step(obj: Wrapper, calls: seq<CCall>)

  /**
   `destroy`: nothing on a destroyed object; otherwise `rnnoise_destroy` for a
   library-created state, `rnnoise_model_free` for a loaded model, and both
   references cleared.
   */
  function Destroy(w: Wrapper): (s: Step)
    ensures w.destroyed ==> s == Step(w, [])
    ensures !w.destroyed ==> s.obj.destroyed && !s.obj.state && s.obj.model.None?
    ensures !w.destroyed ==> (DestroyState in s.calls <==> w.createdInternally && w.state)
    ensures !w.destroyed ==> (w.model.Some? <==> exists h :: ModelFree(h) in s.calls)
    ensures !w.destroyed ==> forall c :: c in s.calls ==> c == DestroyState || (w.model.Some? && c == ModelFree(w.model.value))
  {
    if w.destroyed then Step(w, [])
    else
      var first := if w.createdInternally && w.state then [DestroyState] else [];
      var second := if w.model.Some? then [ModelFree(w.model.value)] else [];
      Step(w.(model := None, state := false, destroyed := true), first + second)
  }

  /** `__del__`: destroy an object that is not destroyed yet (including one whose `__init__` raised). */
  function Del(w: Wrapper): (s: Step)
    ensures w.destroyed ==> s.calls == []
    ensures s.obj.destroyed
  {
    if !w.destroyed then Destroy(w) else Step(w, [])
  }

  lemma DestroyIdempotent(w: Wrapper)
    ensures Destroy(Destroy(w).obj) == Step(Destroy(w).obj, [])
    ensures Del(Destroy(w).obj).calls == []
  {
  }

  /** What a user of the object does between construction and collection. */
  datatype Op = Process(v: Value) | DestroyOp

  predicate ConsistentOps(ops: seq<Op>) {
    forall k :: 0 <= k < |ops| && ops[k].Process? ==> Consistent(ops[k].v)
  }

  /** One operation on the object; what `process_frame` returns or raises is not kept. */
  function Apply(w: Wrapper, lib: Library, op: Op): Step
    requires op.Process? ==> Consistent(op.v)
  {
    match op
    case Process(v) => var f := ProcessFrameCorrected(w, lib, v); Step(f.obj, f.calls)
    case DestroyOp => Destroy(w)
  }

  function RunOps(w: Wrapper, lib: Library, ops: seq<Op>): Step
    requires ConsistentOps(ops)
    decreases |ops|
  {
    if ops == [] then Step(w, [])
    else
      var s := Apply(w, lib, ops[0]);
      var rest := RunOps(s.obj, lib, ops[1..]);
      Step(rest.obj, s.calls + rest.calls)
  }

  /**
   Every library call of an object's life: construction, then (if it
   succeeded) the operations, then the collector's `__del__`.
   */
  function Lifetime(lib: Library, b: Built, ops: seq<Op>): seq<CCall>
    requires ConsistentOps(ops)
  {
    if b.error.Some? then b.calls + Del(b.obj).calls
    else
      var run := RunOps(b.obj, lib, ops);
      b.calls + run.calls + Del(run.obj).calls
  }

  /** The number of calls in `log` that satisfy `p`. */
  function Count(log: seq<CCall>, p: CCall -> bool): nat {
    if log == [] then 0 else (if p(log[0]) then 1 else 0) + Count(log[1..], p)
  }

  lemma {:induction false} CountConcat(a: seq<CCall>, b: seq<CCall>, p: CCall -> bool)
    ensures Count(a + b, p) == Count(a, p) + Count(b, p)
    decreases |a|
  {
    if a == [] {
      assert a + b == b;
    } else {
      assert (a + b)[1..] == a[1..] + b;
      CountConcat(a[1..], b, p);
    }
  }

  lemma {:induction false} NoneCounted(log: seq<CCall>, p: CCall -> bool)
    requires forall k :: 0 <= k < |log| ==> !p(log[k])
    ensures Count(log, p) == 0
    decreases |log|
  {
    if log != [] {
      NoneCounted(log[1..], p);
    }
  }

  predicate IsFree(c: CCall) { c.ModelFree? }
  predicate IsStateDestroy(c: CCall) { c.DestroyState? }

  /** The number of `rnnoise_model_free` calls in a log. */
  function Frees(log: seq<CCall>): nat { Count(log, IsFree) }

  /** The number of `rnnoise_destroy` calls in a log. */
  function StateDestroys(log: seq<CCall>): nat { Count(log, IsStateDestroy) }

  /**
   The resource invariant: at most one free of the model and one destroy of
   the state so far, none of either while the object still holds the
   reference, and a destroyed object holds neither.
   */
  predicate Sound(w: Wrapper, log: seq<CCall>) {
    && Frees(log) <= 1 && StateDestroys(log) <= 1
    && (w.model.Some? ==> Frees(log) == 0)
    && (w.state && w.createdInternally ==> StateDestroys(log) == 0)
    && (w.destroyed ==> w.model.None? && !w.state)
  }

  lemma DestroySound(w: Wrapper, log: seq<CCall>)
    requires Sound(w, log)
    ensures Sound(Destroy(w).obj, log + Destroy(w).calls)
  {
    var s := Destroy(w);
    CountConcat(log, s.calls, IsFree);
    CountConcat(log, s.calls, IsStateDestroy);
    if !w.destroyed {
      var first := if w.createdInternally && w.state then [DestroyState] else [];
      var second := if w.model.Some? then [ModelFree(w.model.value)] else [];
      assert s.calls == first + second;
      CountConcat(first, second, IsFree);
      CountConcat(first, second, IsStateDestroy);
    }
  }

  lemma ProcessSound(w: Wrapper, lib: Library, v: Value, log: seq<CCall>)
    requires Consistent(v) && Sound(w, log)
    ensures Sound(ProcessFrameCorrected(w, lib, v).obj, log + ProcessFrameCorrected(w, lib, v).calls)
  {
    var f := ProcessFrameCorrected(w, lib, v);
    CountConcat(log, f.calls, IsFree);
    CountConcat(log, f.calls, IsStateDestroy);
    assert Frees(f.calls) == 0 && StateDestroys(f.calls) == 0 by {
      assert f.calls == [] || f.calls == [ProcessFrameCall];
    }
  }

  lemma ConsistentTail(ops: seq<Op>)
    requires ops != [] && ConsistentOps(ops)
    ensures ConsistentOps(ops[1..]) && (ops[0].Process? ==> Consistent(ops[0].v))
  {
    forall k | 0 <= k < |ops[1..]| && ops[1..][k].Process? ensures Consistent(ops[1..][k].v) {
      assert ops[1..][k] == ops[k + 1];
    }
  }

  lemma {:induction false} RunOpsSound(w: Wrapper, lib: Library, ops: seq<Op>, log: seq<CCall>)
    requires ConsistentOps(ops)
    requires Sound(w, log)
    ensures Sound(RunOps(w, lib, ops).obj, log + RunOps(w, lib, ops).calls)
    decreases |ops|
  {
    if ops != [] {
      ConsistentTail(ops);
      var s := Apply(w, lib, ops[0]);
      if ops[0].Process? {
        ProcessSound(w, lib, ops[0].v, log);
      } else {
        DestroySound(w, log);
      }
      RunOpsSound(s.obj, lib, ops[1..], log + s.calls);
      var rest := RunOps(s.obj, lib, ops[1..]);
      assert RunOps(w, lib, ops) == Step(rest.obj, s.calls + rest.calls);
      assert log + s.calls + rest.calls == log + (s.calls + rest.calls);
    } else {
      assert log + [] == log;
    }
  }

  /**
   With the corrected constructor, an object's whole life frees its model at
   most once and destroys its state at most once, whatever the caller does.
   */
  lemma CorrectedFreesOnce(lib: Library, modelPath: Option<string>, fileExists: string -> bool, ops: seq<Op>)
    requires ConsistentOps(ops)
    ensures Frees(Lifetime(lib, ConstructCorrected(lib, modelPath, fileExists), ops)) <= 1
    ensures StateDestroys(Lifetime(lib, ConstructCorrected(lib, modelPath, fileExists), ops)) <= 1
  {
    var b := ConstructCorrected(lib, modelPath, fileExists);
    BuiltSound(lib, modelPath, fileExists);
    if b.error.Some? {
      var d := Del(b.obj);
      if !b.obj.destroyed {
        DestroySound(b.obj, b.calls);
      }
    } else {
      RunOpsSound(b.obj, lib, ops, b.calls);
      var run := RunOps(b.obj, lib, ops);
      if !run.obj.destroyed {
        DestroySound(run.obj, b.calls + run.calls);
      } else {
        assert b.calls + run.calls + Del(run.obj).calls == b.calls + run.calls;
      }
    }
  }

  /** The corrected constructor leaves the object in the resource invariant. */
  lemma BuiltSound(lib: Library, modelPath: Option<string>, fileExists: string -> bool)
    ensures Sound(ConstructCorrected(lib, modelPath, fileExists).obj, ConstructCorrected(lib, modelPath, fileExists).calls)
  {
    var b := ConstructCorrected(lib, modelPath, fileExists);
    if GivenPath(modelPath) && fileExists(modelPath.value) && lib.modelFromFilename(modelPath.value).Some? {
      var h := lib.modelFromFilename(modelPath.value).value;
      if lib.init(h) != 0 {
        InitFailSound(modelPath.value, h);
      } else {
        NoneCounted(b.calls, IsFree);
        NoneCounted(b.calls, IsStateDestroy);
      }
    } else {
      NoneCounted(b.calls, IsFree);
      NoneCounted(b.calls, IsStateDestroy);
    }
  }

  /** After a failed `rnnoise_init` the model has been freed once and the corrected object no longer holds it. */
  lemma InitFailSound(path: string, h: Handle)
    ensures Sound(Wrapper(None, true, false, false, []), [ModelFromFilename(path), GetSize, Init(h), ModelFree(h)])
  {
    var calls := [ModelFromFilename(path), GetSize, Init(h)];
    NoneCounted(calls, IsFree);
    NoneCounted(calls, IsStateDestroy);
    CountConcat(calls, [ModelFree(h)], IsFree);
    CountConcat(calls, [ModelFree(h)], IsStateDestroy);
    assert calls + [ModelFree(h)] == [ModelFromFilename(path), GetSize, Init(h), ModelFree(h)];
  }

  /**
   The constructor as written, on a model file that loads but whose
   `rnnoise_init` fails: the object is collected after the exception and its
   `__del__` frees the same model a second time.
   */
  lemma AsWrittenFreesTwice(lib: Library, path: string, fileExists: string -> bool, h: Handle)
    requires path != "" && fileExists(path)
    requires lib.modelFromFilename(path) == Some(h) && lib.init(h) != 0
    ensures Construct(lib, Some(path), fileExists).error.Some?
    ensures Lifetime(lib, Construct(lib, Some(path), fileExists), [])
         == [ModelFromFilename(path), GetSize, Init(h), ModelFree(h), ModelFree(h)]
    ensures Frees(Lifetime(lib, Construct(lib, Some(path), fileExists), [])) == 2
  {
    var b := Construct(lib, Some(path), fileExists);
    var built := [ModelFromFilename(path), GetSize, Init(h), ModelFree(h)];
    assert b == Built(Wrapper(Some(h), true, false, false, []), built, Some(WrapperError));
    assert Del(b.obj).calls == [ModelFree(h)];
    assert built + [ModelFree(h)] == [ModelFromFilename(path), GetSize, Init(h), ModelFree(h), ModelFree(h)];
    FreedTwice(path, h);
  }

  lemma FreedTwice(path: string, h: Handle)
    ensures Frees([ModelFromFilename(path), GetSize, Init(h), ModelFree(h), ModelFree(h)]) == 2
  {
    var first := [ModelFromFilename(path), GetSize, Init(h)];
    var frees := [ModelFree(h), ModelFree(h)];
    assert Frees(frees) == 2 by {
      assert frees == [ModelFree(h)] + [ModelFree(h)];
      CountConcat([ModelFree(h)], [ModelFree(h)], IsFree);
    }
    NoneCounted(first, IsFree);
    CountConcat(first, frees, IsFree);
    assert first + frees == [ModelFromFilename(path), GetSize, Init(h), ModelFree(h), ModelFree(h)];
  }
}

=== FILE: round_trips.dfy ===
/**
 The naming contract between the scripts: an original `x.wav` is prepared
 as `x_16k.wav` and `x_44k.wav`, each method names its output after its
 input, and the summary files every name back under the base `x`, so an
 output lands in the row of the original it was made from.
 */
module RoundTrips {
  import opened Common
  import opened Strings
  import opened Paths
  import opened SummaryConfig
  import opened SummaryFind
  import Preparation
  import Batch
  import Dtln
  import Rnnoise
  import VoiceFixer
  import Supervoice

  /** The stem of a name the matcher maps back to itself: no rate key anywhere in it. */
  predicate RateFree(x: string) {
    !Contains(x, "_16k") && !Contains(x, "_44k")
  }

  lemma EndsWithAppended(x: string, s: string)
    ensures EndsWith(x + s, s)
  {
    assert (x + s)[|x + s| - |s|..] == s;
  }

  /** The conditions under which a stem and an extension form a pattern that cannot overlap itself. */
  predicate Separable(q: string, ext: string) {
    |q| > 0 && |ext| > 0 && ext[0] !in q && q[0] !in ext
  }

  /** Removing a trailing `q + ext` that does not occur earlier. */
  lemma SuffixRemoved(x: string, q: string, ext: string)
    requires Separable(q, ext) && !Contains(x, q + ext)
    ensures ReplaceAll(x + q + ext, q + ext, "") == x
  {
    SplitUnbordered(q, ext);
    ReplaceSuffix(x, q + ext);
    assert x + q + ext == x + (q + ext);
  }

  /** Without `key`, a text has no `key + ext` either. */
  lemma KeyFree(x: string, key: string, ext: string)
    requires !Contains(x, key)
    ensures !Contains(x, key + ext)
  {
    if Contains(x, key + ext) {
      assert [] + key + ext == key + ext;
      InfixContains(x, [], key, ext);
    }
  }

  /** A text that does not contain `p` does not end with it. */
  lemma NotEndsWith(x: string, p: string)
    requires !Contains(x, p)
    ensures !EndsWith(x, p)
  {
    EndingContained(x, p);
  }

  lemma EndingContained(x: string, p: string)
    ensures EndsWith(x, p) ==> Contains(x, p)
  {
    if EndsWith(x, p) {
      EndsWithContains(x, p);
    }
  }

  /** The base an output named `x + q + ".wav"` is matched to: the name less the suffix and a rate key, which is `x`. */
  lemma MatchedBase(x: string, q: string)
    requires Separable(q, ".wav") && !Contains(x, q + ".wav") && RateFree(x)
    ensures EndsWith(x + q + ".wav", q + ".wav")
    ensures StripRate(ReplaceAll(x + q + ".wav", q + ".wav", "")) == x
  {
    assert x + q + ".wav" == x + (q + ".wav");
    EndsWithAppended(x, q + ".wav");
    SuffixRemoved(x, q, ".wav");
    NotEndsWith(x, "_16k");
    NotEndsWith(x, "_44k");
  }

  // The prepared originals.

  /** `x + q + ext` contains `q + ext`, and removing it leaves `x`. */
  lemma FiledPart(x: string, q: string, ext: string)
    requires Separable(q, ext) && !Contains(x, q + ext)
    ensures Contains(x + (q + ext), q + ext)
    ensures ReplaceAll(x + (q + ext), q + ext, "") == x
  {
    EndsWithAppended(x, q + ext);
    EndsWithContains(x + (q + ext), q + ext);
    SplitUnbordered(q, ext);
    ReplaceSuffix(x, q + ext);
  }

  /** `x_16k.wav` is filed as the 16k original of `x`. */
  lemma Prepared16Filed(x: string)
    requires !Contains(x, "_16k")
    ensures Classify(x + "_16k.wav") == Original16(x)
  {
    KeyFree(x, "_16k", ".wav");
    FiledPart(x, "_16k", ".wav");
    assert "_16k" + ".wav" == "_16k.wav";
  }

  /** `x_44k.wav` is filed as the 44k original of `x`. */
  lemma Prepared44Filed(x: string)
    requires RateFree(x)
    ensures Classify(x + "_44k.wav") == Original44(x)
  {
    No16In44(x);
    KeyFree(x, "_44k", ".wav");
    FiledPart(x, "_44k", ".wav");
    assert "_44k" + ".wav" == "_44k.wav";
  }

  /** A 44k name holds no `_16k.wav`. */
  lemma No16In44(x: string)
    requires !Contains(x, "_16k")
    ensures !Contains(x + "_44k.wav", "_16k.wav")
  {
    KeyFree(x, "_16k", ".wav");
    RateNamesApart();
    NotContainsConcat(x, "_44k.wav", "_16k" + ".wav");
  }

  /** The 44k ending neither is nor overlaps into a 16k ending. */
  lemma RateNamesApart()
    ensures "_16k" + ".wav" == "_16k.wav"
    ensures !Contains("_44k.wav", "_16k.wav") && NoStraddle("_44k.wav", "_16k.wav")
  {
    RateNamesDiffer();
    assert "_16k.wav"[1..] == "16k.wav";
    HeadOnlyAtStart("_44k.wav", "_16k.wav");
  }

  lemma RateNamesDiffer()
    ensures !Contains("_44k.wav", "_16k.wav")
  {
    ContainsShort("_44k.wav", "_16k.wav");
    assert "_44k.wav"[1] != "_16k.wav"[1];
  }

  /**
   Both prepared copies of `x.wav` are filed under `x`: the 16k one as the
   16k original and the 44k one as the 44k original, so they share a row.
   */
  lemma PreparedFiledTogether(x: string)
    requires PlainStem(x) && RateFree(x)
    ensures Classify(Preparation.OutputName(x + ".wav", "16k")) == Original16(x)
    ensures Classify(Preparation.OutputName(x + ".wav", "44k")) == Original44(x)
  {
    Preparation.PreparedNames(x);
    Prepared16Filed(x);
    Prepared44Filed(x);
  }

  // The methods' outputs.

  /** An output named `x` plus a method's own suffix `q.wav` is matched to `x`, with that method's header text. */
  lemma MatchOwnSuffix(m: string, x: string, q: string)
    requires m in ExpectedSuffix && ExpectedSuffix[m] == q + ".wav" && Separable(q, ".wav")
    requires !Contains(x, q + ".wav") && RateFree(x)
    ensures Match(m, x + q + ".wav") == Some(Hit(x, ConfigText(m, x + q + ".wav")))
  {
    MatchedBase(x, q);
  }

  lemma DtlnSuffix()
    ensures ExpectedSuffix["dtln"] == Dtln.EnhancedTag + ".wav" && Separable(Dtln.EnhancedTag, ".wav")
  {
  }

  /**
   A dtln output of the prepared `x_16k.wav` is `x_dtln_enhanced.wav`, and
   the summary matches it to `x` with the extractor's header text.
   */
  lemma DtlnRoundTrip(x: string)
    requires RateFree(x) && !Contains(x, ExpectedSuffix["dtln"])
    ensures Dtln.OutputName(x + "_16k" + ".wav") == x + Dtln.EnhancedTag + ".wav"
    ensures Match("dtln", x + Dtln.EnhancedTag + ".wav") == Some(Hit(x, DtlnConfig(x + Dtln.EnhancedTag + ".wav")))
  {
    Dtln.OutputNameOfPrepared(x);
    DtlnSuffix();
    MatchOwnSuffix("dtln", x, Dtln.EnhancedTag);
  }

  /** That header is the default model's unless `x` itself ends the way a model name would be read from. */
  lemma DtlnHeader(x: string)
    requires !Contains(x + "_dtln", "_dtln_")
    ensures DtlnConfig(x + Dtln.EnhancedTag + ".wav") == DtlnDefault
  {
    DtlnDefaultConfig(x);
    assert x + Dtln.EnhancedTag + ".wav" == x + "_dtln_enhanced.wav";
  }

  lemma RnnoiseModelSuffix()
    ensures ExpectedSuffix["rnnoise"] == Rnnoise.EnhancedTag(true) + ".wav"
    ensures Separable(Rnnoise.EnhancedTag(true), ".wav")
  {
  }

  lemma RnnoiseDefaultSuffixIsTag()
    ensures RnnoiseDefaultSuffix == Rnnoise.EnhancedTag(false) + ".wav"
    ensures Separable(Rnnoise.EnhancedTag(false), ".wav")
  {
  }

  /**
   An rnnoise output of the prepared `x_16k.wav`, with the weights file or
   the built-in model, is matched to `x` with the fixed header text.
   */
  lemma RnnoiseRoundTrip(x: string, modelFound: bool)
    requires RateFree(x) && !Contains(x, Rnnoise.EnhancedTag(modelFound) + ".wav")
    ensures Rnnoise.OutputName(x + "_16k" + ".wav", modelFound) == x + Rnnoise.EnhancedTag(modelFound) + ".wav"
    ensures Match("rnnoise", x + Rnnoise.EnhancedTag(modelFound) + ".wav") == Some(Hit(x, RnnoiseConfig))
  {
    Batch.RateKeysPlain();
    Batch.RenamedAtEnd(x, "_16k", Rnnoise.EnhancedTag(modelFound));
    if modelFound {
      RnnoiseModelMatched(x);
    } else {
      RnnoiseDefaultMatched(x);
    }
  }

  lemma RnnoiseModelMatched(x: string)
    requires RateFree(x) && !Contains(x, Rnnoise.EnhancedTag(true) + ".wav")
    ensures Match("rnnoise", x + Rnnoise.EnhancedTag(true) + ".wav") == Some(Hit(x, RnnoiseConfig))
  {
    RnnoiseModelSuffix();
    MatchOwnSuffix("rnnoise", x, Rnnoise.EnhancedTag(true));
  }

  /** The built-in model's name fails the method's own suffix and is matched by the second one. */
  lemma RnnoiseDefaultMatched(x: string)
    requires RateFree(x) && !Contains(x, Rnnoise.EnhancedTag(false) + ".wav")
    ensures Match("rnnoise", x + Rnnoise.EnhancedTag(false) + ".wav") == Some(Hit(x, RnnoiseConfig))
  {
    RnnoiseDefaultSuffixIsTag();
    DefaultIsNotModel(x + Rnnoise.EnhancedTag(false) + ".wav");
    MatchedBase(x, Rnnoise.EnhancedTag(false));
  }

  /** A name ending with the default-model suffix does not end with the weights-file suffix. */
  lemma DefaultIsNotModel(s: string)
    requires EndsWith(s, RnnoiseDefaultSuffix)
    ensures !EndsWith(s, ExpectedSuffix["rnnoise"])
  {
    var p := ExpectedSuffix["rnnoise"];
    assert |p| == 27 && p[0] == '_';
    assert s[|s| - |p|] == RnnoiseDefaultSuffix[2] == 'n';
    assert s[|s| - |p|..][0] == s[|s| - |p|];
  }

  lemma VoiceFixerSuffixes()
    ensures ExpectedSuffix["voice_fixer_mode_1"] == VoiceFixer.EnhancedTag("mode1") + ".wav"
    ensures Separable(VoiceFixer.EnhancedTag("mode1"), ".wav")
    ensures ExpectedSuffix["voice_fixer_mode_0"] == VoiceFixer.EnhancedTag("") + ".wav"
    ensures Separable(VoiceFixer.EnhancedTag(""), ".wav")
  {
  }

  /**
   A VoiceFixer output of the prepared `x_44k.wav` is matched to `x`: with
   the script's tag in the mode-1 column, without a tag in the mode-0 one.
   */
  lemma VoiceFixerRoundTrip(x: string, tag: string)
    requires tag in {"mode1", ""}
    requires RateFree(x) && !Contains(x, VoiceFixer.EnhancedTag(tag) + ".wav")
    ensures VoiceFixer.OutputName(x + "_44k" + ".wav", tag) == x + VoiceFixer.EnhancedTag(tag) + ".wav"
    ensures Match(if tag == "mode1" then "voice_fixer_mode_1" else "voice_fixer_mode_0",
                  x + VoiceFixer.EnhancedTag(tag) + ".wav")
         == Some(Hit(x, if tag == "mode1" then "Mode: 1 (With Preprocessing)" else "Mode: 0 (Original)"))
  {
    Batch.RateKeysPlain();
    Batch.RenamedAtEnd(x, "_44k", VoiceFixer.EnhancedTag(tag));
    VoiceFixerSuffixes();
    if tag == "mode1" {
      MatchOwnSuffix("voice_fixer_mode_1", x, VoiceFixer.EnhancedTag(tag));
    } else {
      MatchOwnSuffix("voice_fixer_mode_0", x, VoiceFixer.EnhancedTag(tag));
    }
  }

  /** A Supervoice output keeps the rate key in its name; the matcher strips it and finds `x`. */
  lemma SupervoiceRoundTrip(x: string)
    requires Sep !in x && RateFree(x) && !Contains(x, Supervoice.Suffix)
    ensures Supervoice.OutputName(x + "_44k.wav") == x + "_44k" + Supervoice.Suffix
    ensures Match("supervoice_flow", x + "_44k" + Supervoice.Suffix) == Some(Hit(x, "Config: Default (torch.hub, steps=8)"))
  {
    Supervoice.OutputNameOfPrepared(x);
    SupervoiceMatched(x);
  }

  lemma SupervoiceSuffix()
    ensures Supervoice.Suffix == ExpectedSuffix["supervoice_flow"] == "_supervoiceenhance" + ".wav"
    ensures Separable("_supervoiceenhance", ".wav")
  {
  }

  lemma SupervoiceMatched(x: string)
    requires RateFree(x) && !Contains(x, Supervoice.Suffix)
    ensures Match("supervoice_flow", x + "_44k" + Supervoice.Suffix) == Some(Hit(x, "Config: Default (torch.hub, steps=8)"))
  {
    SupervoiceSuffix();
    var q := "_supervoiceenhance";
    KeyAfterStem(x, "_44k", q);
    MatchRateSuffix("supervoice_flow", x, "_44k", q);
    SuffixSplit(x + "_44k", q, ".wav", Supervoice.Suffix);
    SupervoiceConfig(x + "_44k" + Supervoice.Suffix);
  }

  lemma SupervoiceConfig(name: string)
    ensures ConfigText("supervoice_flow", name) == "Config: Default (torch.hub, steps=8)"
  {
  }

  /** An output named by the stem, a rate key and the method's suffix is matched to the stem. */
  lemma MatchRateSuffix(m: string, x: string, key: string, q: string)
    requires m in ExpectedSuffix && ExpectedSuffix[m] == q + ".wav" && Separable(q, ".wav")
    requires key in {"_16k", "_44k"} && !Contains(x + key, q + ".wav") && RateFree(x)
    ensures Match(m, x + key + q + ".wav") == Some(Hit(x, ConfigText(m, x + key + q + ".wav")))
  {
    var y := x + key;
    EndsWithAppended(y, q + ".wav");
    assert y + q + ".wav" == y + (q + ".wav");
    SuffixRemoved(y, q, ".wav");
    RateStripped(x, key);
  }

  /** One rate key appended to a text without rate keys is what `StripRate` removes. */
  lemma RateStripped(x: string, key: string)
    requires key in {"_16k", "_44k"} && RateFree(x)
    ensures StripRate(x + key) == x
  {
    EndsWithAppended(x, key);
    assert (x + key)[..|x|] == x;
  }

  /** A rate key appended to `x` cannot complete a `q.wav` that `x` lacks. */
  lemma KeyAfterStem(x: string, key: string, q: string)
    requires |key| == 4 && key[0] !in ".wav" && !Contains(x, q + ".wav")
    ensures !Contains(x + key, q + ".wav")
  {
    ContainsShort(key, q + ".wav");
    ShortNoStraddle(key, q, ".wav");
    NotContainsConcat(x, key, q + ".wav");
  }

  /**
   An original whose stem already ends in a rate key loses its outputs:
   `y_44k.wav` is prepared as `y_44k_16k.wav` and filed under `y_44k`, but
   its dtln output has the rate key stripped and is matched to `y`.
   */
  lemma RateStemMismatch(y: string)
    requires RateFree(y) && !Contains(y, ExpectedSuffix["dtln"])
    ensures Classify(y + "_44k" + "_16k.wav") == Original16(y + "_44k")
    ensures Dtln.OutputName(y + "_44k" + "_16k" + ".wav") == y + "_44k" + Dtln.EnhancedTag + ".wav"
    ensures Match("dtln", y + "_44k" + Dtln.EnhancedTag + ".wav").value.base == y != y + "_44k"
  {
    KeyNotRepeated(y);
    Prepared16Filed(y + "_44k");
    Dtln.OutputNameOfPrepared(y + "_44k");
    RateStemMatched(y);
  }

  /**
   Where that output ends up: dropped as an orphan when no recording `y.wav`
   gave a base `y`, and otherwise stored as y's dtln output, replacing any
   earlier one, while the entry `y_44k` it came from is left alone.
   */
  lemma RateStemRecorded(s: Scan, y: string, path: string)
    requires RateFree(y) && !Contains(y, ExpectedSuffix["dtln"]) && WellFormed(s.results)
    requires Basename(path) == y + "_44k" + Dtln.EnhancedTag + ".wav"
    ensures y !in s.results.entries ==> RecordEnhanced(s, "dtln", path) == s
    ensures y in s.results.entries ==>
      RecordEnhanced(s, "dtln", path).results.entries[y].methods == s.results.entries[y].methods["dtln" := path]
    ensures y + "_44k" in s.results.entries ==>
      RecordEnhanced(s, "dtln", path).results.entries[y + "_44k"] == s.results.entries[y + "_44k"]
  {
    RateStemMatched(y);
    assert y != y + "_44k" by {
      assert |y + "_44k"| == |y| + 4;
    }
    if y in s.results.entries {
      RecordedStored(s, "dtln", path);
    } else {
      OrphanIgnored(s, "dtln", path);
    }
  }

  lemma KeyNotRepeated(y: string)
    requires !Contains(y, "_16k")
    ensures !Contains(y + "_44k", "_16k")
  {
    ContainsShort("_44k", "_16k");
    assert "_16k"[1..] == "16k";
    HeadOnlyAtStart("_44k", "_16k");
    NotContainsConcat(y, "_44k", "_16k");
  }

  lemma RateStemMatched(y: string)
    requires RateFree(y) && !Contains(y, ExpectedSuffix["dtln"])
    ensures Match("dtln", y + "_44k" + Dtln.EnhancedTag + ".wav").Some?
    ensures Match("dtln", y + "_44k" + Dtln.EnhancedTag + ".wav").value.base == y
  {
    DtlnSuffix();
    var q := Dtln.EnhancedTag;
    KeyAfterStem(y, "_44k", q);
    EndsWithAppended(y + "_44k", q + ".wav");
    assert y + "_44k" + q + ".wav" == (y + "_44k") + (q + ".wav");
    SuffixRemoved(y + "_44k", q, ".wav");
    RateStripped(y, "_44k");
  }
}

=== FILE: sorting.dfy ===
/**
 Python's `sorted` on strings: lexicographic order on code points, a shorter
 prefix first. Insertion sort stands in for Timsort; on strings both give
 the one sorted arrangement of the input.
 */
module Sorting {

  /** `a <= b` for Python strings. */
  predicate LessEq(a: string, b: string)
    decreases |a|
  {
    a == [] || (b != [] && (a[0] < b[0] || (a[0] == b[0] && LessEq(a[1..], b[1..]))))
  }

  lemma {:induction false} LessEqTotal(a: string, b: string)
    ensures LessEq(a, b) || LessEq(b, a)
    decreases |a|
  {
    if a != [] && b != [] && a[0] == b[0] {
      LessEqTotal(a[1..], b[1..]);
    }
  }

  lemma {:induction false} LessEqReflexive(a: string)
    ensures LessEq(a, a)
    decreases |a|
  {
    if a != [] {
      LessEqReflexive(a[1..]);
    }
  }

  lemma {:induction false} LessEqAntisymmetric(a: string, b: string)
    requires LessEq(a, b) && LessEq(b, a)
    ensures a == b
    decreases |a|
  {
    if a != [] {
      LessEqAntisymmetric(a[1..], b[1..]);
      assert a == [a[0]] + a[1..] && b == [b[0]] + b[1..];
    }
  }

  lemma {:induction false} LessEqTransitive(a: string, b: string, c: string)
    requires LessEq(a, b) && LessEq(b, c)
    ensures LessEq(a, c)
    decreases |a|
  {
    if a != [] && a[0] == b[0] && b[0] == c[0] {
      LessEqTransitive(a[1..], b[1..], c[1..]);
    }
  }

  /** Every element is at most every later one. */
  predicate Sorted(s: seq<string>) {
    forall i, j :: 0 <= i < j < |s| ==> LessEq(s[i], s[j])
  }

  /** Insert `x` into a sorted sequence before the first element above it. */
  function Insert(x: string, s: seq<string>): (r: seq<string>)
    requires Sorted(s)
    ensures Sorted(r)
    ensures multiset(r) == multiset(s) + multiset{x}
  {
    if s == [] then [x]
    else if LessEq(x, s[0]) then
      BelowAll(x, s);
      ConsSorted(x, s);
      [x] + s
    else
      LessEqTotal(x, s[0]);
      var rest := Insert(x, s[1..]);
      InsertAbove(s[0], x, s[1..], rest);
      ConsSorted(s[0], rest);
      assert s == [s[0]] + s[1..];
      [s[0]] + rest
  }

  /** Below the first element of a sorted sequence is below all of it. */
  lemma BelowAll(x: string, s: seq<string>)
    requires Sorted(s) && s != [] && LessEq(x, s[0])
    ensures forall j :: 0 <= j < |s| ==> LessEq(x, s[j])
  {
    forall j | 0 < j < |s| ensures LessEq(x, s[j]) {
      LessEqTransitive(x, s[0], s[j]);
    }
  }

  /** An element at most every later one, put in front of a sorted sequence, keeps it sorted. */
  lemma ConsSorted(h: string, t: seq<string>)
    requires Sorted(t) && forall j :: 0 <= j < |t| ==> LessEq(h, t[j])
    ensures Sorted([h] + t)
  {
    var r := [h] + t;
    forall i, j | 0 <= i < j < |r| ensures LessEq(r[i], r[j]) {
      assert r[j] == t[j - 1];
      if i > 0 {
        assert r[i] == t[i - 1];
      }
    }
  }

  /** A lower bound of `t` and of `x` bounds every element of `t` with `x` inserted. */
  lemma InsertAbove(h: string, x: string, t: seq<string>, rest: seq<string>)
    requires LessEq(h, x) && forall j :: 0 <= j < |t| ==> LessEq(h, t[j])
    requires multiset(rest) == multiset(t) + multiset{x}
    ensures forall j :: 0 <= j < |rest| ==> LessEq(h, rest[j])
  {
    forall j | 0 <= j < |rest| ensures LessEq(h, rest[j]) {
      assert rest[j] in multiset(rest);
      if rest[j] != x {
        assert rest[j] in multiset(t);
        var k :| 0 <= k < |t| && t[k] == rest[j];
      }
    }
  }

  /** `sorted(s)`: a sorted permutation of `s`. */
  function Sort(s: seq<string>): (r: seq<string>)
    ensures Sorted(r)
    ensures multiset(r) == multiset(s)
  {
    if s == [] then []
    else
      assert s == [s[0]] + s[1..];
      Insert(s[0], Sort(s[1..]))
  }

  /** Sorting keeps exactly the elements it was given. */
  lemma SortSameElements(s: seq<string>)
    ensures forall x :: x in Sort(s) <==> x in s
  {
    forall x ensures x in Sort(s) <==> x in s {
      assert x in Sort(s) <==> x in multiset(Sort(s));
      assert x in s <==> x in multiset(s);
    }
  }

  /** Sorting fixes the result: two sorted permutations of the same elements are equal. */
  lemma {:induction false} SortedUnique(a: seq<string>, b: seq<string>)
    requires Sorted(a) && Sorted(b) && multiset(a) == multiset(b)
    ensures a == b
    decreases |a|
  {
    if a != [] {
      SameHead(a, b);
      SameTail(a, b);
      assert Sorted(a[1..]) && Sorted(b[1..]);
      SortedUnique(a[1..], b[1..]);
      assert a == [a[0]] + a[1..] && b == [b[0]] + b[1..];
    }
  }

  /** Two sorted permutations start with the same element. */
  lemma SameHead(a: seq<string>, b: seq<string>)
    requires a != [] && Sorted(a) && Sorted(b) && multiset(a) == multiset(b)
    ensures b != [] && a[0] == b[0]
  {
    assert a[0] in multiset(b) && |b| == |multiset(b)|;
    var i :| 0 <= i < |b| && b[i] == a[0];
    assert b[0] in multiset(a);
    var j :| 0 <= j < |a| && a[j] == b[0];
    assert LessEq(b[0], a[0]) by { if i == 0 { LessEqReflexive(a[0]); } }
    assert LessEq(a[0], b[0]) by { if j == 0 { LessEqReflexive(a[0]); } }
    LessEqAntisymmetric(a[0], b[0]);
  }

  lemma SameTail(a: seq<string>, b: seq<string>)
    requires a != [] && b != [] && a[0] == b[0] && multiset(a) == multiset(b)
    ensures multiset(a[1..]) == multiset(b[1..])
  {
    assert a == [a[0]] + a[1..] && b == [b[0]] + b[1..];
    assert multiset(a) == multiset{a[0]} + multiset(a[1..]);
    assert multiset(b) == multiset{b[0]} + multiset(b[1..]);
    assert multiset(a[1..]) == multiset(a) - multiset{a[0]};
    assert multiset(b[1..]) == multiset(b) - multiset{b[0]};
  }

  /** No element occurs twice. */
  ghost predicate Distinct(s: seq<string>) {
    forall i, j :: 0 <= i < j < |s| ==> s[i] != s[j]
  }

  lemma DistinctCons(s: seq<string>)
    requires s != []
    ensures Distinct(s) <==> s[0] !in s[1..] && Distinct(s[1..])
  {
    if s[0] in s[1..] {
      var k :| 0 <= k < |s[1..]| && s[1..][k] == s[0];
      assert s[k + 1] == s[0];
    }
    if s[0] !in s[1..] && Distinct(s[1..]) {
      forall i, j | 0 <= i < j < |s| ensures s[i] != s[j] {
        if i == 0 {
          assert s[j] == s[1..][j - 1];
        } else {
          assert s[i] == s[1..][i - 1] && s[j] == s[1..][j - 1];
        }
      }
    }
    if Distinct(s) {
      forall i, j | 0 <= i < j < |s[1..]| ensures s[1..][i] != s[1..][j] {
        assert s[1..][i] == s[i + 1] && s[1..][j] == s[j + 1];
      }
    }
  }

  /** No repetition means every element is counted at most once. */
  lemma {:induction false} DistinctCount(s: seq<string>)
    ensures Distinct(s) <==> forall x :: multiset(s)[x] <= 1
    decreases |s|
  {
    if s != [] {
      DistinctCount(s[1..]);
      DistinctCons(s);
      assert s == [s[0]] + s[1..];
      assert multiset(s) == multiset{s[0]} + multiset(s[1..]);
      if !Distinct(s) {
        if s[0] in s[1..] {
          assert multiset(s)[s[0]] >= 2;
        } else {
          var x :| multiset(s[1..])[x] > 1;
          assert multiset(s)[x] > 1;
        }
      }
    }
  }

  /** Sorting keeps a sequence free of repetitions. */
  lemma SortKeepsDistinct(s: seq<string>)
    requires Distinct(s)
    ensures Distinct(Sort(s))
  {
    DistinctCount(s);
    DistinctCount(Sort(s));
  }

  /** Without repeated elements the sorted sequence is strictly increasing. */
  lemma SortedDistinct(s: seq<string>)
    requires Sorted(s)
    requires Distinct(s)
    ensures forall i, j :: 0 <= i < j < |s| ==> LessEq(s[i], s[j]) && !LessEq(s[j], s[i])
  {
    forall i, j | 0 <= i < j < |s|
      ensures !LessEq(s[j], s[i])
    {
      if LessEq(s[j], s[i]) {
        LessEqAntisymmetric(s[i], s[j]);
      }
    }
  }
}

=== FILE: spectrogram.dfy ===
/**
 Spectrogram generation for a directory tree (utils/spectrogram.py,
 `generate_spectrograms_for_directory`): which files get an image, where the
 image goes, and the progress count. The walk is a given sequence of
 directories; drawing the image (`create_spectrogram`) is left out, and a
 failure there is caught and only logged, so every attempt counts alike.
 */
module Spectrogram {
  import opened Strings
  import opened Paths

  const ImageSuffix: string := "_spectrogram.png"

  /** One step of `os.walk`: the directory relative to the walked root (`""` for the root itself) and its file names. */
  datatype WalkDir = WalkDir(rel: string, files: seq<string>)

  /** `[f for f in files if f.endswith('.wav')]`: case-sensitive, hidden files included. */
  function WavNames(files: seq<string>): (r: seq<string>)
    ensures forall f :: f in r <==> f in files && EndsWith(f, ".wav")
    ensures |r| <= |files|
  {
    if files == [] then []
    else
      var rest := WavNames(files[1..]);
      if EndsWith(files[0], ".wav") then [files[0]] + rest else rest
  }

  /** `total_files`: the `.wav` names over the whole walk. */
  function Total(walk: seq<WalkDir>): nat {
    if walk == [] then 0 else Total(walk[..|walk| - 1]) + |WavNames(walk[|walk| - 1].files)|
  }

  /** The `root` `os.walk` reports for a directory. */
  function Root(audioDir: string, rel: string): string {
    if rel == "" then audioDir else Join(audioDir, rel)
  }

  /** `os.path.join(output_dir, rel_path.replace('.wav', '_spectrogram.png'))`. */
  function ImagePath(outDir: string, relPath: string): string {
    Join(outDir, ReplaceAll(relPath, ".wav", ImageSuffix))
  }

  /** One call of `create_spectrogram`: the audio read and the image written. */
  datatype Attempt = Attempt(audio: string, image: string)

  /** The paths of one attempt: the file under its walk root, the image under the same relative path in `outDir`. */
  function AttemptFor(audioDir: string, outDir: string, rel: string, name: string): Attempt {
    Attempt(Join(Root(audioDir, rel), name), ImagePath(outDir, Join(rel, name)))
  }

  /** A `.wav` file of the walk: the directory relative to the root and the file name. */
  type WavFile = (string, string)

  /** `f` is a `.wav` name listed in directory `d`. */
  predicate Listed(d: WalkDir, f: WavFile) {
    f.0 == d.rel && f.1 in d.files && EndsWith(f.1, ".wav")
  }

  /** The `.wav` files of one directory, in listing order. */
  function DirFiles(d: WalkDir): (r: seq<WavFile>)
    ensures |r| == |WavNames(d.files)|
    ensures forall k :: 0 <= k < |r| ==> r[k] == (d.rel, WavNames(d.files)[k])
    ensures forall f :: f in r <==> Listed(d, f)
  {
    var wavs := WavNames(d.files);
    var r := seq(|wavs|, k requires 0 <= k < |wavs| => (d.rel, wavs[k]));
    assert forall f :: Listed(d, f) ==> f in r by {
      forall f | Listed(d, f) ensures f in r {
        assert f.1 in wavs;
        var k :| 0 <= k < |wavs| && wavs[k] == f.1;
        assert r[k] == f;
      }
    }
    r
  }

  /** The `.wav` files of the whole walk, directory after directory. */
  function Files(walk: seq<WalkDir>): seq<WavFile> {
    if walk == [] then [] else Files(walk[..|walk| - 1]) + DirFiles(walk[|walk| - 1])
  }

  /** One file per `.wav` name: `processed_count` ends equal to `total_files`. */
  lemma {:induction false} FilesCount(walk: seq<WalkDir>)
    ensures |Files(walk)| == Total(walk)
    decreases |walk|
  {
    if walk != [] {
      FilesCount(walk[..|walk| - 1]);
    }
  }

  /**
   Exactly the `.wav` names are processed: a file belongs to the list when
   some directory of the walk lists it under a `.wav` name.
   */
  lemma {:induction false} FilesExactly(walk: seq<WalkDir>, f: WavFile)
    ensures f in Files(walk) <==> exists i :: 0 <= i < |walk| && Listed(walk[i], f)
    decreases |walk|
  {
    if walk != [] {
      var init := walk[..|walk| - 1];
      var last := |walk| - 1;
      FilesExactly(init, f);
      var head := Files(init);
      var tail := DirFiles(walk[last]);
      assert Files(walk) == head + tail;
      if f in head {
        var i :| 0 <= i < |init| && Listed(init[i], f);
        assert init[i] == walk[i];
        assert 0 <= i < |walk| && Listed(walk[i], f);
      } else if f in tail {
        assert Listed(walk[last], f);
      }
      if exists i :: 0 <= i < |walk| && Listed(walk[i], f) {
        var i :| 0 <= i < |walk| && Listed(walk[i], f);
        if i < last {
          assert init[i] == walk[i];
          assert f in head;
        } else {
          assert f in tail;
        }
      }
    }
  }

  /** The `k`-th attempt is the `create_spectrogram` call for the `k`-th file. */
  predicate AttemptsFor(audioDir: string, outDir: string, attempts: seq<Attempt>, files: seq<WavFile>) {
    |attempts| == |files| &&
    forall k :: 0 <= k < |files| ==> attempts[k] == AttemptFor(audioDir, outDir, files[k].0, files[k].1)
  }

  /** Attempts for consecutive runs of files concatenate. */
  lemma AttemptsForAppend(audioDir: string, outDir: string, a1: seq<Attempt>, f1: seq<WavFile>, a2: seq<Attempt>, f2: seq<WavFile>)
    requires AttemptsFor(audioDir, outDir, a1, f1) && AttemptsFor(audioDir, outDir, a2, f2)
    ensures AttemptsFor(audioDir, outDir, a1 + a2, f1 + f2)
  {
    forall k | 0 <= k < |f1 + f2|
      ensures (a1 + a2)[k] == AttemptFor(audioDir, outDir, (f1 + f2)[k].0, (f1 + f2)[k].1)
    {
      if k < |f1| {
        assert (a1 + a2)[k] == a1[k] && (f1 + f2)[k] == f1[k];
      } else {
        assert (a1 + a2)[k] == a2[k - |f1|] && (f1 + f2)[k] == f2[k - |f1|];
      }
    }
  }

  /**
   The body of the walk loop for one directory: every `.wav` name in
   listing order, each attempt counted.
   */
  method GenerateForDir(audioDir: string, outDir: string, d: WalkDir) returns (count: nat, attempts: seq<Attempt>)
    ensures AttemptsFor(audioDir, outDir, attempts, DirFiles(d))
    ensures count == |attempts| == |WavNames(d.files)|
  {
    var wavs := WavNames(d.files);
    ghost var dirFiles := DirFiles(d);
    count := 0;
    attempts := [];
    var j := 0;
    while j < |wavs|
      invariant 0 <= j <= |wavs|
      invariant AttemptsFor(audioDir, outDir, attempts, dirFiles[..j])
      invariant count == |attempts|
    {
      count := count + 1;
      var attempt := AttemptFor(audioDir, outDir, d.rel, wavs[j]);
      assert dirFiles[j] == (d.rel, wavs[j]);
      AttemptsForAppend(audioDir, outDir, attempts, dirFiles[..j], [attempt], [dirFiles[j]]);
      attempts := attempts + [attempt];
      assert dirFiles[..j + 1] == dirFiles[..j] + [dirFiles[j]];
      j := j + 1;
    }
    assert dirFiles[..|wavs|] == dirFiles;
  }

  /**
   `generate_spectrograms_for_directory`: count the `.wav` names; with none,
   return before creating anything; otherwise attempt every one in walk
   order, counting each attempt whether or not it fails.
   */
  method GenerateForDirectory(audioDir: string, outDir: string, walk: seq<WalkDir>)
    returns (total: nat, processed: nat, attempts: seq<Attempt>)
    ensures total == Total(walk)
    ensures total == 0 ==> attempts == [] && processed == 0
    ensures AttemptsFor(audioDir, outDir, attempts, Files(walk))
    ensures processed == total == |attempts|
  {
    FilesCount(walk);
    total := Total(walk);
    if total == 0 {
      return total, 0, [];
    }
    processed := 0;
    attempts := [];
    var i := 0;
    while i < |walk|
      invariant 0 <= i <= |walk|
      invariant AttemptsFor(audioDir, outDir, attempts, Files(walk[..i]))
      invariant processed == |attempts|
    {
      var count, more := GenerateForDir(audioDir, outDir, walk[i]);
      AttemptsForAppend(audioDir, outDir, attempts, Files(walk[..i]), more, DirFiles(walk[i]));
      assert walk[..i + 1][..i] == walk[..i];
      attempts := attempts + more;
      processed := processed + count;
      i := i + 1;
    }
    assert walk[..|walk|] == walk;
  }
}

=== FILE: strings.dfy ===
/**
 Text primitives the scripts rely on, over `string` (= `seq<char>`):
 Python's `p in s`, `s.endswith(p)`, `s.replace(old, new)` and ASCII
 `s.lower()`. `ReplaceAll` follows CPython: it scans left to right, replaces
 the leftmost occurrence, resumes after it, and so replaces every
 non-overlapping occurrence.
 */
module Strings {

  predicate StartsWith(s: string, p: string) {
    |p| <= |s| && s[..|p|] == p
  }

  predicate EndsWith(s: string, p: string) {
    |p| <= |s| && s[|s| - |p|..] == p
  }

  /** `p` occurs in `s` at position `i`. */
  predicate OccursAt(s: string, p: string, i: int) {
    0 <= i && i + |p| <= |s| && s[i..i + |p|] == p
  }

  /** Python's `p in s`, scanning from the left. */
  predicate Contains(s: string, p: string)
    decreases |s|
  {
    StartsWith(s, p) || (s != [] && Contains(s[1..], p))
  }

  /** Python's `s.replace(pat, rep)` for a non-empty `pat`. */
  function ReplaceAll(s: string, pat: string, rep: string): (r: string)
    requires |pat| > 0
    ensures !Contains(s, pat) ==> r == s
    ensures rep == [] ==> |r| <= |s|
    decreases |s|
  {
    if StartsWith(s, pat) then rep + ReplaceAll(s[|pat|..], pat, rep)
    else if s == [] then []
    else [s[0]] + ReplaceAll(s[1..], pat, rep)
  }

  /** ASCII lower-casing of one character (Python's `str.lower` on ASCII). */
  function LowerChar(c: char): (d: char)
    ensures 'A' <= c <= 'Z' ==> 'a' <= d <= 'z'
    ensures !('A' <= c <= 'Z') ==> d == c
  {
    if 'A' <= c <= 'Z' then (c as int - 'A' as int + 'a' as int) as char else c
  }

  function Lower(s: string): (r: string)
    ensures |r| == |s|
    ensures forall i :: 0 <= i < |s| ==> r[i] == LowerChar(s[i])
  {
    seq(|s|, i requires 0 <= i < |s| => LowerChar(s[i]))
  }

  /**
   No suffix of `p` that is shorter than `p` is also a prefix of `b`
   (as far as `b` reaches): an occurrence of `p` in `a + b` cannot start
   inside `a` and end inside `b`.
   */
  predicate NoStraddleFrom(b: string, p: string, d: nat)
    decreases |p| - d
  {
    d >= |p| || ((|p| - d > |b| || b[..|p| - d] != p[d..]) && NoStraddleFrom(b, p, d + 1))
  }

  predicate NoStraddle(b: string, p: string) {
    NoStraddleFrom(b, p, 1)
  }

  /** The same, seen from the left part: no suffix of `a` is a proper prefix of `p`. */
  predicate NoStraddleLeftFrom(a: string, p: string, d: nat)
    decreases |p| - d
  {
    d >= |p| || ((d > |a| || a[|a| - d..] != p[..d]) && NoStraddleLeftFrom(a, p, d + 1))
  }

  predicate NoStraddleLeft(a: string, p: string) {
    NoStraddleLeftFrom(a, p, 1)
  }

  /** `p` has no border: an occurrence of `p` cannot overlap another one. */
  predicate Unbordered(p: string) {
    NoStraddle(p, p)
  }

  lemma {:induction false} NoStraddleFromAt(b: string, p: string, d: nat, e: nat)
    requires NoStraddleFrom(b, p, d)
    requires d <= e < |p| && |p| - e <= |b|
    ensures b[..|p| - e] != p[e..]
    decreases e - d
  {
    if d < e {
      NoStraddleFromAt(b, p, d + 1, e);
    }
  }

  lemma {:induction false} NoStraddleLeftFromAt(a: string, p: string, d: nat, e: nat)
    requires NoStraddleLeftFrom(a, p, d)
    requires d <= e < |p| && e <= |a|
    ensures a[|a| - e..] != p[..e]
    decreases e - d
  {
    if d < e {
      NoStraddleLeftFromAt(a, p, d + 1, e);
    }
  }

  /** An occurrence at any position makes `Contains` true. */
  lemma {:induction false} OccursContains(s: string, p: string, i: int)
    requires OccursAt(s, p, i)
    ensures Contains(s, p)
    decreases i
  {
    if i > 0 {
      assert OccursAt(s[1..], p, i - 1) by {
        assert s[1..][i - 1..i - 1 + |p|] == s[i..i + |p|];
      }
      OccursContains(s[1..], p, i - 1);
    } else {
      assert StartsWith(s, p);
    }
  }

  /** `Contains` has a witness position. */
  lemma {:induction false} ContainsOccurs(s: string, p: string) returns (i: nat)
    requires Contains(s, p)
    ensures OccursAt(s, p, i)
    decreases |s|
  {
    if StartsWith(s, p) {
      i := 0;
    } else {
      var j := ContainsOccurs(s[1..], p);
      i := j + 1;
      assert s[i..i + |p|] == s[1..][j..j + |p|];
    }
  }

  lemma EndsWithContains(s: string, p: string)
    requires EndsWith(s, p)
    ensures Contains(s, p)
  {
    OccursContains(s, p, |s| - |p|);
  }

  /** An occurrence that lies inside the left part is an occurrence in it. */
  lemma NotContainsPrefix(t: string, u: string, p: string, k: nat)
    requires !Contains(t, p) && k + |p| <= |t|
    ensures !OccursAt(t + u, p, k)
  {
    if OccursAt(t + u, p, k) {
      assert (t + u)[k..k + |p|] == t[k..k + |p|];
      OccursContains(t, p, k);
    }
  }

  /** A string containing `u + q + v` contains `q`. */
  lemma InfixContains(s: string, u: string, q: string, v: string)
    requires Contains(s, u + q + v)
    ensures Contains(s, q)
  {
    var w := u + q + v;
    var i := ContainsOccurs(s, w);
    forall k | 0 <= k < |q| ensures s[i + |u| + k] == q[k] {
      assert s[i..i + |w|][|u| + k] == w[|u| + k];
    }
    assert s[i + |u|..i + |u| + |q|] == q;
    OccursContains(s, q, i + |u|);
  }

  /**
   Occurrences in a concatenation: if `p` occurs in neither part and cannot
   straddle the seam, it does not occur in `a + b`.
   */
  lemma {:induction false} NotContainsConcat(a: string, b: string, p: string)
    requires |p| > 0
    requires !Contains(a, p) && !Contains(b, p)
    requires NoStraddle(b, p) || NoStraddleLeft(a, p)
    ensures !Contains(a + b, p)
    decreases |a|
  {
    if a == [] {
      assert a + b == b;
    } else {
      assert (a + b)[1..] == a[1..] + b;
      assert !Contains(a[1..], p);
      if NoStraddleLeft(a, p) {
        NoStraddleLeftShrinks(a, p);
      }
      NotContainsConcat(a[1..], b, p);
      if |a| < |p| {
        SeamBlocksStart(a, b, p);
      }
    }
  }

  /** A short non-empty left part plus a seam no occurrence can straddle: `p` does not start `a + b`. */
  lemma SeamBlocksStart(a: string, b: string, p: string)
    requires 0 < |a| < |p|
    requires NoStraddle(b, p) || NoStraddleLeft(a, p)
    ensures !StartsWith(a + b, p)
  {
    if StartsWith(a + b, p) {
      var d := |a|;
      assert a == p[..d] by { assert (a + b)[..d] == a; }
      assert b[..|p| - d] == p[d..] by {
        forall k | 0 <= k < |p| - d ensures b[k] == p[d + k] {
          assert (a + b)[d + k] == b[k];
        }
      }
      if NoStraddle(b, p) {
        NoStraddleFromAt(b, p, 1, d);
      } else {
        NoStraddleLeftFromAt(a, p, 1, d);
      }
    }
  }

  lemma {:induction false} NoStraddleLeftShrinks(a: string, p: string)
    requires a != [] && NoStraddleLeft(a, p)
    ensures NoStraddleLeft(a[1..], p)
  {
    forall d | 1 <= d < |p| && d <= |a| - 1
      ensures a[1..][|a| - 1 - d..] != p[..d]
    {
      NoStraddleLeftFromAt(a, p, 1, d);
      assert a[1..][|a| - 1 - d..] == a[|a| - d..];
    }
    NoStraddleLeftAll(a[1..], p, 1);
  }

  lemma {:induction false} NoStraddleLeftAll(a: string, p: string, d: nat)
    requires forall e :: d <= e < |p| && e <= |a| ==> a[|a| - e..] != p[..e]
    ensures NoStraddleLeftFrom(a, p, d)
    decreases |p| - d
  {
    if d < |p| {
      NoStraddleLeftAll(a, p, d + 1);
    }
  }

  /**
   `replace` distributes over a seam that no occurrence can straddle, when the
   left part holds no occurrence.
   */
  lemma {:induction false} ReplaceAllConcat(a: string, b: string, p: string, r: string)
    requires |p| > 0
    requires !Contains(a, p)
    requires NoStraddle(b, p) || NoStraddleLeft(a, p)
    ensures ReplaceAll(a + b, p, r) == a + ReplaceAll(b, p, r)
    decreases |a|
  {
    if a == [] {
      assert a + b == b;
    } else {
      assert (a + b)[1..] == a[1..] + b;
      assert !Contains(a[1..], p);
      if NoStraddleLeft(a, p) {
        NoStraddleLeftShrinks(a, p);
      }
      ReplaceAllConcat(a[1..], b, p, r);
      NoStartAtSeam(a, b, p);
      ReplaceSkips(a + b, p, r);
      ConsAppend(a, b);
      ConsAppend(a, ReplaceAll(b, p, r));
    }
  }

  /** A left part without `p` that `p` cannot straddle out of does not start an occurrence. */
  lemma NoStartAtSeam(a: string, b: string, p: string)
    requires 0 < |a| && |p| > 0 && !Contains(a, p)
    requires NoStraddle(b, p) || NoStraddleLeft(a, p)
    ensures !StartsWith(a + b, p)
  {
    if |a| < |p| {
      SeamBlocksStart(a, b, p);
    } else {
      assert (a + b)[..|p|] == a[..|p|];
    }
  }

  /** Where `p` does not start, `replace` keeps the first character. */
  lemma ReplaceSkips(s: string, p: string, r: string)
    requires s != [] && |p| > 0 && !StartsWith(s, p)
    ensures ReplaceAll(s, p, r) == [s[0]] + ReplaceAll(s[1..], p, r)
  {
  }

  lemma ConsAppend(a: string, t: string)
    requires a != []
    ensures (a + t)[0] == a[0] && (a + t)[1..] == a[1..] + t && [a[0]] + (a[1..] + t) == a + t
  {
  }

  /**
   Replacing the only occurrence: when `a` holds no `p` and `p + c` cannot be
   entered from `a`, `(a + p + c).replace(p, r)` is `a + r + c.replace(p, r)`.
   */
  lemma ReplaceAllAt(a: string, p: string, c: string, r: string)
    requires |p| > 0
    requires !Contains(a, p)
    requires Unbordered(p) || NoStraddleLeft(a, p)
    ensures ReplaceAll(a + p + c, p, r) == a + r + ReplaceAll(c, p, r)
  {
    if Unbordered(p) {
      forall e | 1 <= e < |p| && |p| - e <= |p + c|
        ensures (p + c)[..|p| - e] != p[e..]
      {
        NoStraddleFromAt(p, p, 1, e);
        assert (p + c)[..|p| - e] == p[..|p| - e];
      }
      NoStraddleAll(p + c, p, 1);
    }
    assert a + p + c == a + (p + c);
    ReplaceAllConcat(a, p + c, p, r);
    assert StartsWith(p + c, p);
    assert (p + c)[|p|..] == c;
  }

  lemma {:induction false} NoStraddleAll(b: string, p: string, d: nat)
    requires forall e :: d <= e < |p| && |p| - e <= |b| ==> b[..|p| - e] != p[e..]
    ensures NoStraddleFrom(b, p, d)
    decreases |p| - d
  {
    if d < |p| {
      NoStraddleAll(b, p, d + 1);
    }
  }

  /**
   Character-level tests that imply the predicates above and that the verifier
   can decide on string literals.
   */
  predicate SeamSafe(b: string, p: string) {
    |b| > 0 &&
    forall d :: 1 <= d < |p| && p[d] == b[0] ==> d + 1 < |p| && (|b| < 2 || p[d + 1] != b[1])
  }

  predicate LeftSeamSafe(a: string, p: string) {
    |a| > 0 && forall k :: 0 <= k < |p| - 1 ==> p[k] != a[|a| - 1]
  }

  lemma SeamSafeNoStraddle(b: string, p: string)
    requires SeamSafe(b, p)
    ensures NoStraddle(b, p)
  {
    forall e | 1 <= e < |p| && |p| - e <= |b|
      ensures b[..|p| - e] != p[e..]
    {
      assert b[..|p| - e][0] == b[0] && p[e..][0] == p[e];
      if e + 1 < |p| {
        assert b[..|p| - e][1] == b[1] && p[e..][1] == p[e + 1];
      }
    }
    NoStraddleAll(b, p, 1);
  }

  /** A pattern whose later characters never repeat the first character of `b` is seam-safe against it. */
  lemma HeadOnlyAtStart(b: string, p: string)
    requires |b| > 0 && |p| > 0 && b[0] !in p[1..]
    ensures SeamSafe(b, p) && NoStraddle(b, p)
  {
    forall d | 1 <= d < |p|
      ensures p[d] != b[0]
    {
      assert p[d] == p[1..][d - 1];
    }
    SeamSafeNoStraddle(b, p);
  }

  /**
   A pattern made of a stem and an extension cannot overlap itself when
   neither part holds the other's first character: a border longer than the
   extension would put the extension's first character inside the stem, a
   shorter one the stem's first character inside the extension.
   */
  lemma SplitUnbordered(q: string, ext: string)
    requires |q| > 0 && |ext| > 0 && ext[0] !in q && q[0] !in ext
    ensures Unbordered(q + ext)
  {
    var p := q + ext;
    forall e | 1 <= e < |p| && |p| - e <= |p|
      ensures p[..|p| - e] != p[e..]
    {
      var k := |p| - e;
      if k > |ext| {
        assert p[e..][k - |ext|] == ext[0];
        assert p[..k][k - |ext|] == q[k - |ext|];
      } else {
        assert p[e..][0] == ext[e - |q|];
        assert p[..k][0] == q[0];
      }
    }
    NoStraddleAll(p, p, 1);
  }

  /** No prefix of `b` is a proper suffix of `q + ext` when `b` fits in `ext` and starts with a character `ext` lacks. */
  lemma ShortNoStraddle(b: string, q: string, ext: string)
    requires 0 < |b| <= |ext| && b[0] !in ext
    ensures NoStraddle(b, q + ext)
  {
    var p := q + ext;
    forall e | 1 <= e < |p| && |p| - e <= |b|
      ensures b[..|p| - e] != p[e..]
    {
      assert p[e..][0] == ext[e - |q|];
      assert b[..|p| - e][0] == b[0];
    }
    NoStraddleAll(b, p, 1);
  }

  lemma LeftSeamSafeNoStraddle(a: string, p: string)
    requires LeftSeamSafe(a, p)
    ensures NoStraddleLeft(a, p)
  {
    forall e | 1 <= e < |p| && e <= |a|
      ensures a[|a| - e..] != p[..e]
    {
      assert a[|a| - e..][e - 1] == a[|a| - 1];
    }
    NoStraddleLeftAll(a, p, 1);
  }

  /** A string that lacks the first character of `p` does not contain `p`. */
  lemma {:induction false} AbsentHead(s: string, p: string)
    requires |p| > 0 && p[0] !in s
    ensures !Contains(s, p)
    decreases |s|
  {
    if s != [] {
      AbsentHead(s[1..], p);
    }
  }

  /** A string that lacks some character of `p` does not contain `p`. */
  lemma {:induction false} AbsentChar(s: string, p: string, k: nat)
    requires k < |p| && p[k] !in s
    ensures !Contains(s, p)
    decreases |s|
  {
    if s != [] {
      if |p| <= |s| {
        assert s[..|p|][k] == s[k] && s[k] in s;
      }
      assert forall c :: c in s[1..] ==> c in s;
      AbsentChar(s[1..], p, k);
    }
  }

  /** A string no longer than `p` contains `p` only by being `p`. */
  lemma ContainsShort(s: string, p: string)
    requires |s| <= |p|
    ensures Contains(s, p) <==> s == p
  {
    if s != [] && Contains(s[1..], p) {
      var i := ContainsOccurs(s[1..], p);
    }
  }

  /** `p in s` holds exactly when `p` occurs at some position of `s` (`s.find(p) != -1`). */
  lemma ContainsIff(s: string, p: string)
    ensures Contains(s, p) <==> exists i :: OccursAt(s, p, i)
  {
    forall i | OccursAt(s, p, i) ensures Contains(s, p) {
      OccursContains(s, p, i);
    }
    if Contains(s, p) {
      var i := ContainsOccurs(s, p);
    }
  }

  /**
   Replacing a pattern that occurs exactly once, with no occurrence on either
   side and no overlap of the pattern with itself.
   */
  lemma ReplaceSole(a: string, p: string, c: string, r: string)
    requires |p| > 0 && Unbordered(p)
    requires !Contains(a, p) && !Contains(c, p)
    ensures ReplaceAll(a + p + c, p, r) == a + r + c
  {
    ReplaceAllAt(a, p, c, r);
  }

  /** Removing a trailing pattern with `replace(p, "")`. */
  lemma ReplaceSuffix(a: string, p: string)
    requires |p| > 0 && Unbordered(p)
    requires !Contains(a, p)
    ensures ReplaceAll(a + p, p, "") == a
  {
    assert !Contains([], p);
    ReplaceSole(a, p, [], "");
    assert a + p + [] == a + p;
  }

  /** A character in neither the text nor the replacement is not in the result. */
  lemma {:induction false} ReplaceAllAvoids(s: string, pat: string, rep: string, c: char)
    requires |pat| > 0 && c !in s && c !in rep
    ensures c !in ReplaceAll(s, pat, rep)
    decreases |s|
  {
    if StartsWith(s, pat) {
      assert forall x :: x in s[|pat|..] ==> x in s;
      ReplaceAllAvoids(s[|pat|..], pat, rep, c);
    } else if s != [] {
      assert forall x :: x in s[1..] ==> x in s;
      ReplaceAllAvoids(s[1..], pat, rep, c);
    }
  }

  /** Replacing with a non-empty text never empties a non-empty string. */
  lemma ReplaceAllNonEmpty(s: string, pat: string, rep: string)
    requires |pat| > 0 && s != [] && rep != []
    ensures ReplaceAll(s, pat, rep) != []
  {
  }

  /** Deleting a pattern that occurs removes at least one whole copy of it. */
  lemma {:induction false} ReplaceAllShortens(s: string, pat: string)
    requires |pat| > 0 && Contains(s, pat)
    ensures |ReplaceAll(s, pat, "")| <= |s| - |pat|
    decreases |s|
  {
    if !StartsWith(s, pat) {
      ReplaceAllShortens(s[1..], pat);
    }
  }

  /** A doubled occurrence between pattern-free parts is replaced twice. */
  lemma ReplaceTwice(a: string, p: string, c: string, r: string)
    requires |p| > 0 && Unbordered(p)
    requires !Contains(a, p) && !Contains(c, p)
    ensures ReplaceAll(a + p + p + c, p, r) == a + r + r + c
  {
    ReplaceLeading(p, c, r);
    ReplaceAllAt(a, p, p + c, r);
    assert a + p + p + c == a + p + (p + c);
    assert a + r + (r + c) == a + r + r + c;
  }

  /** A leading occurrence followed by pattern-free text is replaced once. */
  lemma ReplaceLeading(p: string, c: string, r: string)
    requires |p| > 0 && Unbordered(p) && !Contains(c, p)
    ensures ReplaceAll(p + c, p, r) == r + c
  {
    ReplaceSole([], p, c, r);
    assert [] + p + c == p + c && [] + r + c == r + c;
  }
}

=== FILE: summary_config.dfy ===
/**
 The summary page's per-method configuration (summary.py, `METHOD_CONFIG`
 and `METHOD_INPUT_RATE_KEY`): the suffix each method's outputs carry, the
 configuration text shown in its header, and which original rate it
 prefers. The dtln extractor's regular expression is modelled with Python's
 `re.match` semantics.
 */
module SummaryConfig {
  import opened Common
  import opened Strings

  /** `expected_suffix` per configured method; the keys are the `METHOD_CONFIG` keys. */
  const ExpectedSuffix: map<string, string> := map[
    "voice_fixer_mode_0" := "_vf_enhanced.wav",
    "voice_fixer_mode_1" := "_vf_mode1_enhanced.wav",
    "dtln" := "_dtln_enhanced.wav",
    "rnnoise" := "_rnnoise_model_enhanced.wav",
    "supervoice_flow" := "_supervoiceenhance.wav"
  ]

  /** The second suffix the matcher accepts for `rnnoise` only. */
  const RnnoiseDefaultSuffix: string := "_rnnoise_default_enhanced.wav"

  const DtlnDefault: string := "Model: DTLN_norm_500h.h5 (Default)"
  const RnnoiseConfig: string := "Model: Default"

  /** `METHOD_INPUT_RATE_KEY`: the voice-fixer entries are keyed `voice_fixer_0/1`, not by directory name. */
  const InputRateKey: map<string, string> := map[
    "voice_fixer_0" := "_44k",
    "voice_fixer_1" := "_44k",
    "dtln" := "_16k",
    "rnnoise" := "_16k",
    "supervoice_flow" := "_44k",
    "rnnoise_default" := "_16k"
  ]

  /** `METHOD_INPUT_RATE_KEY.get(m) == '_44k'`. */
  predicate Prefers44k(m: string) {
    m in InputRateKey && InputRateKey[m] == "_44k"
  }

  /**
   Of the configured methods only `supervoice_flow` prefers the 44k
   original: the voice-fixer directories are not keys of the rate table.
   */
  lemma OnlySupervoicePrefers44k(m: string)
    requires m in ExpectedSuffix
    ensures Prefers44k(m) <==> m == "supervoice_flow"
  {
  }

  /** Every configured suffix ends with `.wav`. */
  lemma SuffixesAreWav(m: string)
    requires m in ExpectedSuffix
    ensures EndsWith(ExpectedSuffix[m], ".wav")
  {
  }

  // The dtln extractor: re.match(r'.*_dtln_(.*?)_enhanced\.wav', fname).

  const Tag: string := "_dtln_"
  const Tail: string := "_enhanced.wav"

  /** How far the leading `.*` can reach: `.` does not match a newline. */
  function GreedyLimit(s: string): (n: nat)
    ensures n <= |s|
    ensures forall k :: 0 <= k < n ==> s[k] != '\n'
    ensures n < |s| ==> s[n] == '\n'
  {
    if s == [] || s[0] == '\n' then 0 else 1 + GreedyLimit(s[1..])
  }

  /**
   The lazy group `(.*?)` starting at `start`: the first position `j` from
   which `_enhanced.wav` follows, looking no further than the first newline.
   */
  function LazyEnd(s: string, j: nat): (r: Option<nat>)
    requires j <= |s|
    ensures r.Some? ==> j <= r.value && OccursAt(s, Tail, r.value)
    ensures r.Some? ==> forall k :: j <= k < r.value ==> s[k] != '\n' && !OccursAt(s, Tail, k)
    ensures r.None? ==> forall k :: j <= k && OccursAt(s, Tail, k) ==> '\n' in s[j..k]
    decreases |s| - j
  {
    if j + |Tail| > |s| then None
    else if OccursAt(s, Tail, j) then Some(j)
    else if s[j] == '\n' then None
    else LazyEnd(s, j + 1)
  }

  /** The match with `.*` consuming exactly `s[..i]`, if the rest of the pattern fits there. */
  function MatchAt(s: string, i: nat): (r: Option<string>)
    requires i <= |s|
    ensures r.Some? ==> OccursAt(s, Tag, i)
  {
    if OccursAt(s, Tag, i) then
      match LazyEnd(s, i + |Tag|)
      case Some(j) => Some(s[i + |Tag|..j])
      case None => None
    else None
  }

  /**
   Backtracking the greedy `.*`: the longest prefix, at most `i` long, after
   which the rest of the pattern matches.
   */
  function MatchFrom(s: string, i: int): (r: Option<nat>)
    requires i <= |s|
    ensures r.Some? ==> r.value <= i && MatchAt(s, r.value).Some?
    ensures r.Some? ==> forall n :: r.value < n <= i ==> MatchAt(s, n).None?
    ensures r.None? ==> forall k :: 0 <= k <= i ==> MatchAt(s, k).None?
    decreases i + 1
  {
    if i < 0 then None
    else if MatchAt(s, i).Some? then Some(i)
    else MatchFrom(s, i - 1)
  }

  /** `re.match(...)`: the group of the match, if any. */
  function Group(s: string): Option<string> {
    match MatchFrom(s, GreedyLimit(s))
    case Some(i) => MatchAt(s, i)
    case None => None
  }

  /** The dtln `config_extraction`: `Model: <group>` on a match, the default text otherwise. */
  function DtlnConfig(fname: string): (c: string)
    ensures Group(fname).None? ==> c == DtlnDefault
    ensures Group(fname).Some? ==> c == "Model: " + Group(fname).value
  {
    match Group(fname)
    case Some(g) => "Model: " + g
    case None => DtlnDefault
  }

  /**
   The condition of `DtlnDefaultConfig` in terms of the base: appending
   `_dtln` creates a `_dtln_` exactly when the base already holds one or
   ends in `_dtln`, because only the leading `_` of the appended part can
   close an occurrence that starts in the base.
   */
  lemma DtlnTagCondition(b: string)
    ensures Contains(b + "_dtln", Tag) <==> Contains(b, Tag) || EndsWith(b, "_dtln")
  {
    if Contains(b, Tag) || EndsWith(b, "_dtln") {
      TagKept(b);
    } else {
      TagNotCreated(b);
    }
  }

  /** A `_dtln_` in the base, or one the appended `_dtln` completes, is in the extended name. */
  lemma TagKept(b: string)
    requires Contains(b, Tag) || EndsWith(b, "_dtln")
    ensures Contains(b + "_dtln", Tag)
  {
    if Contains(b, Tag) {
      var i := ContainsOccurs(b, Tag);
      OccursExtended(b, "_dtln", i);
    } else {
      TagAtSeam(b);
    }
  }

  /** An occurrence in the base survives appending. */
  lemma OccursExtended(b: string, c: string, i: nat)
    requires OccursAt(b, Tag, i)
    ensures Contains(b + c, Tag)
  {
    assert (b + c)[i..i + |Tag|] == b[i..i + |Tag|];
    OccursContains(b + c, Tag, i);
  }

  /** A base ending in `_dtln` meets the appended `_` in a `_dtln_`. */
  lemma TagAtSeam(b: string)
    requires EndsWith(b, "_dtln")
    ensures Contains(b + "_dtln", Tag)
  {
    var s := b + "_dtln";
    assert s[|b| - 5..|b| + 1] == b[|b| - 5..] + "_";
    OccursContains(s, Tag, |b| - 5);
  }

  /** Otherwise appending `_dtln` creates no `_dtln_`: only its leading `_` could close one. */
  lemma TagNotCreated(b: string)
    requires !Contains(b, Tag) && !EndsWith(b, "_dtln")
    ensures !Contains(b + "_dtln", Tag)
  {
    var s := b + "_dtln";
    ContainsIff(s, Tag);
    forall i | OccursAt(s, Tag, i)
      ensures i + |Tag| <= |b|
    {
      if i + |Tag| > |b| {
        ClosingSeam(b, i);
      }
    }
    forall i | 0 <= i && i + |Tag| <= |b|
      ensures !OccursAt(s, Tag, i)
    {
      NotContainsPrefix(b, "_dtln", Tag, i);
    }
  }

  /** An occurrence of `_dtln_` reaching past the base ends at the appended `_`, so the base ends in `_dtln`. */
  lemma ClosingSeam(b: string, i: int)
    requires OccursAt(b + "_dtln", Tag, i) && i + |Tag| > |b|
    ensures EndsWith(b, "_dtln")
  {
    var s := b + "_dtln";
    assert s[i + 5] == '_' by {
      assert s[i..i + 6][5] == s[i + 5];
    }
    assert i + 5 == |b|;
    assert b[|b| - 5..] == s[i..i + 5] == s[i..i + 6][..5];
    assert Tag[..5] == "_dtln";
  }

  /**
   `b_dtln_enhanced.wav` shows the default model when `_dtln_` occurs only
   where the suffix puts it. Requiring only that `b` holds no `_dtln_` is not
   enough: see `DtlnTagInBase`.
   */
  lemma DtlnDefaultConfig(b: string)
    requires !Contains(b + "_dtln", Tag)
    ensures DtlnConfig(b + "_dtln_enhanced.wav") == DtlnDefault
  {
    var s := b + "_dtln_enhanced.wav";
    forall k | 0 <= k <= GreedyLimit(s)
      ensures MatchAt(s, k).None?
    {
      NoMatchAt(b, k);
    }
  }

  lemma NoMatchAt(b: string, k: nat)
    requires !Contains(b + "_dtln", Tag)
    requires k <= |b| + 18
    ensures MatchAt(b + "_dtln_enhanced.wav", k).None?
  {
    if k < |b| {
      TagNotInBase(b, k);
    } else {
      NoMatchPastBase(b, k);
    }
  }

  /**
   From the start of the dtln suffix on nothing matches: the only `_dtln_`
   there is followed by too little text for `_enhanced.wav`.
   */
  lemma NoMatchPastBase(b: string, k: nat)
    requires |b| <= k <= |b| + 18
    ensures MatchAt(b + "_dtln_enhanced.wav", k).None?
  {
    if k > |b| {
      TagOnlyAtBase(b, k);
    } else {
      var s := b + "_dtln_enhanced.wav";
      var r := LazyEnd(s, k + |Tag|);
      assert r.None?;
    }
  }

  /** An occurrence inside the base would be one in `b + "_dtln"`. */
  lemma TagNotInBase(b: string, k: nat)
    requires !Contains(b + "_dtln", Tag)
    requires k < |b|
    ensures !OccursAt(b + "_dtln_enhanced.wav", Tag, k)
  {
    DtlnSuffixSplits();
    SuffixSplit(b, "_dtln", "_enhanced.wav", "_dtln_enhanced.wav");
    NotContainsPrefix(b + "_dtln", "_enhanced.wav", Tag, k);
  }

  lemma DtlnSuffixSplits()
    ensures "_dtln" + "_enhanced.wav" == "_dtln_enhanced.wav"
  {
  }

  lemma SuffixSplit(b: string, u: string, v: string, w: string)
    requires u + v == w
    ensures b + w == (b + u) + v
  {
  }

  /** Past the start of the dtln suffix no `_dtln_` begins. */
  lemma TagOnlyAtBase(b: string, k: nat)
    requires |b| < k
    ensures !OccursAt(b + "_dtln_enhanced.wav", Tag, k)
  {
    var w := "_dtln_enhanced.wav";
    var s := b + w;
    if k + 6 <= |s| {
      var d := k - |b|;
      assert s[k] == w[d];
      DtlnSuffixChars();
      if d == 5 {
        assert s[k + 1] == w[6];
        assert s[k..k + 6][1] == s[k + 1];
      } else if d < 5 {
        assert w[d] == w[1..5][d - 1];
        assert s[k..k + 6][0] == s[k];
      } else {
        assert w[d] == w[6..][d - 6];
        assert s[k..k + 6][0] == s[k];
      }
    }
  }

  /** Where the dtln suffix has underscores, and the first two characters of the tag. */
  lemma DtlnSuffixChars()
    ensures var w := "_dtln_enhanced.wav";
      && |w| == 18 && '_' !in w[1..5] && w[5] == '_' && w[6] == 'e' && '_' !in w[6..]
    ensures |Tag| == 6 && Tag[0] == '_' && Tag[1] == 'd'
  {
    var w := "_dtln_enhanced.wav";
    assert w[1..5] == "dtln";
    assert w[6..] == "enhanced.wav";
  }

  /** Without a newline the leading `.*` can take the whole name. */
  lemma {:induction false} NoNewlineLimit(s: string)
    requires '\n' !in s
    ensures GreedyLimit(s) == |s|
  {
    if s != [] {
      assert forall c :: c in s[1..] ==> c in s;
      NoNewlineLimit(s[1..]);
    }
  }

  /** When the pattern matches with `.*` taking exactly `s[..i]` and at no longer prefix, that match is the one. */
  lemma GroupAt(s: string, i: nat)
    requires '\n' !in s && i <= |s|
    requires MatchAt(s, i).Some?
    requires forall k :: i < k <= |s| ==> MatchAt(s, k).None?
    ensures Group(s) == MatchAt(s, i)
  {
    NoNewlineLimit(s);
  }

  /**
   The lazy group ends at the first `_enhanced.wav`: when no underscore or
   newline comes before position `e`, that is `e`.
   */
  lemma LazyFirst(s: string, j: nat, e: nat)
    requires j <= e && OccursAt(s, Tail, e)
    requires forall k :: j <= k < e ==> s[k] != '_' && s[k] != '\n'
    ensures LazyEnd(s, j) == Some(e)
  {
    var r := LazyEnd(s, j);
    assert r.Some? by {
      forall i | 0 <= i < e - j
        ensures s[j..e][i] != '\n'
      {
        assert s[j..e][i] == s[j + i];
      }
    }
    assert r.value >= e by {
      assert Tail[0] == '_';
      assert s[r.value..r.value + |Tail|][0] == s[r.value];
    }
  }

  /**
   The extractor reads a model name out of a dtln output whose base ends in
   `_dtln`: `x_dtln_dtln_enhanced.wav` shows `Model: dtln`.
   */
  lemma DtlnTagInBase()
    ensures !Contains("x_dtln", Tag)
    ensures DtlnConfig("x_dtln" + "_dtln_enhanced.wav") == "Model: dtln"
  {
    ContainsShort("x_dtln", Tag);
    var b := "x_dtln";
    var s := b + "_dtln_enhanced.wav";
    NoMatchPastOne(b);
    DtlnMatchAtOne(b);
    NoNewlineInName(b);
    GroupAt(s, 1);
  }

  lemma NoMatchPastOne(b: string)
    requires b == "x_dtln"
    ensures forall k :: 1 < k <= |b + "_dtln_enhanced.wav"| ==> MatchAt(b + "_dtln_enhanced.wav", k).None?
  {
    var s := b + "_dtln_enhanced.wav";
    forall k | 1 < k <= |s| ensures MatchAt(s, k).None? {
      NoLaterMatch(b, k);
    }
  }

  lemma NoNewlineInName(b: string)
    requires b == "x_dtln"
    ensures '\n' !in b + "_dtln_enhanced.wav"
  {
  }

  lemma NoLaterMatch(b: string, k: nat)
    requires b == "x_dtln" && 1 < k <= |b| + 18
    ensures MatchAt(b + "_dtln_enhanced.wav", k).None?
  {
    if k < |b| {
      var s := b + "_dtln_enhanced.wav";
      assert s[k] == b[k] != '_';
      assert s[k..k + 6][0] == s[k];
    } else {
      NoMatchPastBase(b, k);
    }
  }

  /** In `x_dtln_dtln_enhanced.wav` the group after the first `_dtln_` is `dtln`. */
  lemma DtlnMatchAtOne(b: string)
    requires b == "x_dtln"
    ensures MatchAt(b + "_dtln_enhanced.wav", 1) == Some("dtln")
  {
    var s := b + "_dtln_enhanced.wav";
    assert OccursAt(s, Tag, 1) && OccursAt(s, Tail, 11) && s[7..11] == "dtln";
    LazyFirst(s, 7, 11);
  }

  /**
   `config_extraction(fname)` of a configured method: fixed texts for the
   voice-fixer modes, rnnoise and Supervoice, the extractor above for dtln.
   */
  function ConfigText(m: string, fname: string): (c: string)
    requires m in ExpectedSuffix
    ensures c != ""
    ensures m == "dtln" ==> c == DtlnConfig(fname)
    ensures m != "dtln" ==> c in {"Mode: 0 (Original)", "Mode: 1 (With Preprocessing)", RnnoiseConfig,
                                 "Config: Default (torch.hub, steps=8)"}
  {
    if m == "voice_fixer_mode_0" then "Mode: 0 (Original)"
    else if m == "voice_fixer_mode_1" then "Mode: 1 (With Preprocessing)"
    else if m == "dtln" then DtlnConfig(fname)
    else if m == "rnnoise" then RnnoiseConfig
    else "Config: Default (torch.hub, steps=8)"
  }
}

=== FILE: summary_find.dfy ===
/**
 `find_files` of the summary script (summary.py): file the prepared
 originals under their base names, match each active method's outputs back
 to those bases, capture each method's configuration text from its first
 recorded file, and list the active methods in sorted order. Directory
 listings are given; `results` keeps the insertion order of a Python dict.
 */
module SummaryFind {
  import opened Common
  import opened Strings
  import opened Paths
  import opened Sorting
  import opened SummaryConfig

  const PreparedDir: string := "assets/prepared"
  const MethodsDir: string := "methods"
  const NoConfig: string := "Config N/A"

  /** How a prepared name is filed. */
  datatype Prepared = Original16(base: string) | Original44(base: string) | Unexpected

  /** The `_16k.wav` test wins; every occurrence of the key is removed from the name. */
  function Classify(basename: string): (r: Prepared)
    ensures r.Original16? <==> Contains(basename, "_16k.wav")
    ensures r.Original44? <==> !Contains(basename, "_16k.wav") && Contains(basename, "_44k.wav")
    ensures r.Unexpected? <==> !Contains(basename, "_16k.wav") && !Contains(basename, "_44k.wav")
    ensures !r.Unexpected? ==> |r.base| <= |basename| - |"_16k.wav"|
  {
    if Contains(basename, "_16k.wav") then
      ReplaceAllShortens(basename, "_16k.wav");
      Original16(ReplaceAll(basename, "_16k.wav", ""))
    else if Contains(basename, "_44k.wav") then
      ReplaceAllShortens(basename, "_44k.wav");
      Original44(ReplaceAll(basename, "_44k.wav", ""))
    else Unexpected
  }

  /** One base's record: the two originals and the path found per method. */
  datatype Entry = Entry(original16: Option<string>, original44: Option<string>, methods: map<string, string>)

  /** The `results` dict: its keys in insertion order and its entries. */
  datatype Results = Results(order: seq<string>, entries: map<string, Entry>)

  ghost predicate WellFormed(r: Results) {
    && (forall k :: k in r.entries <==> k in r.order)
    && Distinct(r.order)
  }

  /** Python truthiness of an optional path: present and not empty. */
  predicate Truthy(o: Option<string>) {
    o.Some? && o.value != ""
  }

  /** `v['original_16k'] or v['original_44k']`. */
  predicate HasOriginal(e: Entry) {
    Truthy(e.original16) || Truthy(e.original44)
  }

  /** Every entry has at least one original. */
  ghost predicate AllHaveOriginals(r: Results) {
    forall k :: k in r.entries ==> HasOriginal(r.entries[k])
  }

  /** Every recorded method is one of `methods`. */
  ghost predicate MethodsWithin(r: Results, methods: set<string>) {
    forall k :: k in r.entries ==> r.entries[k].methods.Keys <= methods
  }

  /** `results[base]` on the defaultdict: the entry, created empty on first use. */
  function Touch(r: Results, base: string): (t: Results)
    requires WellFormed(r)
    ensures WellFormed(t) && base in t.entries
    ensures forall k :: k in r.entries ==> k in t.entries && t.entries[k] == r.entries[k]
    ensures forall k :: k in t.entries ==> k in r.entries || k == base
    ensures base !in r.entries ==> t.entries[base] == Entry(None, None, map[])
  {
    if base in r.entries then r
    else Results(r.order + [base], r.entries[base := Entry(None, None, map[])])
  }

  /** One prepared file: filed under its base as the 16k or 44k original, or skipped. */
  function AddPrepared(r: Results, path: string): (t: Results)
    requires WellFormed(r)
    ensures WellFormed(t)
    ensures AllHaveOriginals(r) ==> AllHaveOriginals(t)
    ensures forall k :: k in t.entries <==> k in r.entries || Some(k) == BaseOf(Classify(Basename(path)))
    ensures MethodsWithin(r, {}) ==> MethodsWithin(t, {})
  {
    match Classify(Basename(path))
    case Original16(b) =>
      NamedNonEmpty(path, "_16k.wav");
      FileOriginal(r, b, path, true)
    case Original44(b) =>
      NamedNonEmpty(path, "_44k.wav");
      FileOriginal(r, b, path, false)
    case Unexpected => r
  }

  /** `results[base]['original_16k' or 'original_44k'] = path`. */
  function FileOriginal(r: Results, base: string, path: string, is16: bool): (t: Results)
    requires WellFormed(r) && path != []
    ensures WellFormed(t)
    ensures forall k :: k in t.entries <==> k in r.entries || k == base
    ensures AllHaveOriginals(r) ==> AllHaveOriginals(t)
    ensures MethodsWithin(r, {}) ==> MethodsWithin(t, {})
  {
    var u := Touch(r, base);
    var e := u.entries[base];
    Results(u.order, u.entries[base := if is16 then e.(original16 := Some(path)) else e.(original44 := Some(path))])
  }

  /** Filing a prepared glob path keeps every stored path a glob path. */
  lemma AddPreparedFromGlob(r: Results, path: string)
    requires WellFormed(r) && PathsFromGlobs(r) && IsPreparedPath(path)
    ensures PathsFromGlobs(AddPrepared(r, path))
  {
    match Classify(Basename(path))
    case Original16(b) =>
      NamedNonEmpty(path, "_16k.wav");
      FileOriginalFromGlob(r, b, path, true);
    case Original44(b) =>
      NamedNonEmpty(path, "_44k.wav");
      FileOriginalFromGlob(r, b, path, false);
    case Unexpected =>
  }

  lemma FileOriginalFromGlob(r: Results, base: string, path: string, is16: bool)
    requires WellFormed(r) && path != [] && PathsFromGlobs(r) && IsPreparedPath(path)
    ensures PathsFromGlobs(FileOriginal(r, base, path, is16))
  {
    var t := FileOriginal(r, base, path, is16);
    forall k | k in t.entries
      ensures t.entries[k].original16.Some? ==> IsPreparedPath(t.entries[k].original16.value)
      ensures t.entries[k].original44.Some? ==> IsPreparedPath(t.entries[k].original44.value)
      ensures forall m :: m in t.entries[k].methods ==> IsOutputPath(m, t.entries[k].methods[m])
    {
      if k != base {
        assert t.entries[k] == r.entries[k];
      }
    }
  }

  /** A path whose name contains a non-empty key is not empty. */
  lemma NamedNonEmpty(path: string, key: string)
    requires key != [] && Contains(Basename(path), key)
    ensures path != []
  {
    var i := ContainsOccurs(Basename(path), key);
    assert EndsWith(path, Basename(path));
  }

  /** The base a prepared name is filed under; an unexpected name has none (no key is `[]` then). */
  function BaseOf(c: Prepared): Option<string> {
    if c.Unexpected? then None else Some(c.base)
  }

  /** A path the prepared glob yields: a name joined to the prepared directory. */
  ghost predicate IsPreparedPath(p: string) {
    Basename(p) != [] && p == Join(PreparedDir, Basename(p))
  }

  /** A path the glob of method `m`'s output directory yields. */
  ghost predicate IsOutputPath(m: string, p: string) {
    Basename(p) != [] && p == Join(OutputDir(m), Basename(p))
  }

  /** Every stored path came from the globs: originals from the prepared directory, outputs from their method's. */
  ghost predicate PathsFromGlobs(r: Results) {
    forall k :: k in r.entries ==>
      && (r.entries[k].original16.Some? ==> IsPreparedPath(r.entries[k].original16.value))
      && (r.entries[k].original44.Some? ==> IsPreparedPath(r.entries[k].original44.value))
      && (forall m :: m in r.entries[k].methods ==> IsOutputPath(m, r.entries[k].methods[m]))
  }

  /** The first loop of `find_files`, over the prepared paths in glob order. */
  function ScanPrepared(r: Results, paths: seq<string>): (t: Results)
    requires WellFormed(r)
    ensures WellFormed(t)
    decreases |paths|
  {
    if paths == [] then r else ScanPrepared(AddPrepared(r, paths[0]), paths[1..])
  }

  /** Filing originals never leaves an entry without one. */
  lemma {:induction false} PreparedHaveOriginals(r: Results, paths: seq<string>)
    requires WellFormed(r) && AllHaveOriginals(r)
    ensures AllHaveOriginals(ScanPrepared(r, paths))
    decreases |paths|
  {
    if paths != [] {
      PreparedHaveOriginals(AddPrepared(r, paths[0]), paths[1..]);
    }
  }

  /** The keys after the first loop: the earlier ones and the base of every expected name. */
  lemma {:induction false} PreparedKeys(r: Results, paths: seq<string>, k: string)
    requires WellFormed(r)
    ensures k in ScanPrepared(r, paths).entries <==>
      k in r.entries || exists p :: p in paths && BaseOf(Classify(Basename(p))) == Some(k)
    decreases |paths|
  {
    if paths != [] {
      PreparedKeys(AddPrepared(r, paths[0]), paths[1..], k);
      assert forall p :: p in paths <==> p == paths[0] || p in paths[1..];
    }
  }

  /** Filing prepared glob paths keeps every stored path a glob path. */
  lemma {:induction false} PreparedFromGlob(r: Results, paths: seq<string>)
    requires WellFormed(r) && PathsFromGlobs(r)
    requires forall p :: p in paths ==> IsPreparedPath(p)
    ensures PathsFromGlobs(ScanPrepared(r, paths))
    decreases |paths|
  {
    if paths != [] {
      assert paths[0] in paths;
      assert forall p :: p in paths[1..] ==> p in paths;
      AddPreparedFromGlob(r, paths[0]);
      PreparedFromGlob(AddPrepared(r, paths[0]), paths[1..]);
    }
  }

  /** The first loop records no method output. */
  lemma {:induction false} PreparedNoMethods(r: Results, paths: seq<string>)
    requires WellFormed(r) && MethodsWithin(r, {})
    ensures MethodsWithin(ScanPrepared(r, paths), {})
    decreases |paths|
  {
    if paths != [] {
      PreparedNoMethods(AddPrepared(r, paths[0]), paths[1..]);
    }
  }

  /** What a matched output gives: the base it belongs to and the configuration text. */
  datatype Hit = Hit(base: string, config: string)

  /** Drop one trailing `_16k` or `_44k`. */
  function StripRate(t: string): (r: string)
    ensures |r| <= |t|
    ensures (EndsWith(t, "_16k") || EndsWith(t, "_44k")) ==> t == r + t[|r|..] && |t| - |r| == 4
    ensures !(EndsWith(t, "_16k") || EndsWith(t, "_44k")) ==> r == t
  {
    if EndsWith(t, "_16k") then t[..|t| - 4]
    else if EndsWith(t, "_44k") then t[..|t| - 4]
    else t
  }

  /**
   The matcher for one output name: the method's own suffix first, then for
   `rnnoise` only the default-model suffix; the suffix is removed with
   `replace` (every occurrence) and then one rate key.
   */
  function Match(m: string, name: string): (h: Option<Hit>)
    requires m in ExpectedSuffix
    ensures h.Some? <==> EndsWith(name, ExpectedSuffix[m]) || (m == "rnnoise" && EndsWith(name, RnnoiseDefaultSuffix))
    ensures h.Some? ==> h.value.config != ""
    ensures EndsWith(name, ExpectedSuffix[m]) ==> h.value.config == ConfigText(m, name)
    ensures h.Some? && !EndsWith(name, ExpectedSuffix[m]) ==> h.value.config == RnnoiseConfig
  {
    var suffix := ExpectedSuffix[m];
    if EndsWith(name, suffix) then
      Some(Hit(StripRate(ReplaceAll(name, suffix, "")), ConfigText(m, name)))
    else if m == "rnnoise" && EndsWith(name, RnnoiseDefaultSuffix) then
      Some(Hit(StripRate(ReplaceAll(name, RnnoiseDefaultSuffix, "")), RnnoiseConfig))
    else None
  }

  /** The state of the second loop: results, configuration texts, and the per-method capture flag. */
  datatype Scan = Scan(results: Results, configs: map<string, string>, found: bool)

  /** The base a method output is recorded under, if it matches one that exists. */
  function Recorded(r: Results, m: string, path: string): (h: Option<Hit>)
    requires m in ExpectedSuffix
    ensures h.Some? ==> h.value.base in r.entries && h.value.config != ""
  {
    var h := Match(m, Basename(path));
    if h.Some? && h.value.base in r.entries then h else None
  }

  /** `results[base][method] = relative_path` for an existing base. */
  function Store(r: Results, base: string, m: string, path: string): (t: Results)
    requires WellFormed(r) && base in r.entries
    ensures WellFormed(t) && t.order == r.order && t.entries.Keys == r.entries.Keys
    ensures forall k :: k in r.entries && k != base ==> t.entries[k] == r.entries[k]
    ensures t.entries[base] == r.entries[base].(methods := r.entries[base].methods[m := path])
    ensures PathsFromGlobs(r) && IsOutputPath(m, path) ==> PathsFromGlobs(t)
  {
    var e := r.entries[base];
    Results(r.order, r.entries[base := e.(methods := e.methods[m := path])])
  }

  /**
   One output of method `m`: a matching name whose base exists is recorded
   for that base; the first such file sets the configuration text.
   */
  function RecordEnhanced(s: Scan, m: string, path: string): (t: Scan)
    requires m in ExpectedSuffix && WellFormed(s.results)
    ensures WellFormed(t.results) && t.results.order == s.results.order
    ensures t.results.entries.Keys == s.results.entries.Keys
    ensures forall k :: k in s.results.entries ==>
      && t.results.entries[k].original16 == s.results.entries[k].original16
      && t.results.entries[k].original44 == s.results.entries[k].original44
    ensures forall k :: k in s.results.entries ==> t.results.entries[k].methods.Keys <= s.results.entries[k].methods.Keys + {m}
    ensures t.configs - {m} == s.configs - {m} && s.configs.Keys <= t.configs.Keys <= s.configs.Keys + {m}
    ensures Recorded(s.results, m, path).None? ==> t == s
    ensures PathsFromGlobs(s.results) && IsOutputPath(m, path) ==> PathsFromGlobs(t.results)
  {
    match Recorded(s.results, m, path)
    case None => s
    case Some(hit) =>
      var capture := !s.found && hit.config != "";
      Scan(Store(s.results, hit.base, m, path), Capture(s.configs, capture, m, hit.config), s.found || capture)
  }

  /** `method_configs[method] = config_text` when `capture` holds. */
  function Capture(configs: map<string, string>, capture: bool, m: string, text: string): (c: map<string, string>)
    ensures c - {m} == configs - {m} && configs.Keys <= c.Keys <= configs.Keys + {m}
    ensures capture ==> m in c && c[m] == text
    ensures !capture ==> c == configs
  {
    if capture then configs[m := text] else configs
  }

  /** The inner loop over one method's outputs. */
  function ScanMethod(s: Scan, m: string, paths: seq<string>): (t: Scan)
    requires m in ExpectedSuffix && WellFormed(s.results)
    ensures WellFormed(t.results) && t.results.order == s.results.order
    ensures t.results.entries.Keys == s.results.entries.Keys
    ensures forall k :: k in s.results.entries ==>
      && t.results.entries[k].original16 == s.results.entries[k].original16
      && t.results.entries[k].original44 == s.results.entries[k].original44
    ensures forall k :: k in s.results.entries ==> t.results.entries[k].methods.Keys <= s.results.entries[k].methods.Keys + {m}
    ensures t.configs - {m} == s.configs - {m} && s.configs.Keys <= t.configs.Keys <= s.configs.Keys + {m}
    decreases |paths|
  {
    if paths == [] then s
    else ScanMethod(RecordEnhanced(s, m, paths[0]), m, paths[1..])
  }

  /** Recording outputs of `m` from its glob keeps every stored path a glob path. */
  lemma {:induction false} ScanMethodFromGlob(s: Scan, m: string, paths: seq<string>)
    requires m in ExpectedSuffix && WellFormed(s.results) && PathsFromGlobs(s.results)
    requires forall p :: p in paths ==> IsOutputPath(m, p)
    ensures PathsFromGlobs(ScanMethod(s, m, paths).results)
    decreases |paths|
  {
    if paths != [] {
      assert paths[0] in paths;
      assert forall p :: p in paths[1..] ==> p in paths;
      ScanMethodFromGlob(RecordEnhanced(s, m, paths[0]), m, paths[1..]);
    }
  }

  /** The text of the first output of `m` that is recorded, if any. */
  function FirstRecorded(r: Results, m: string, paths: seq<string>): Option<string>
    requires m in ExpectedSuffix
  {
    if paths == [] then None
    else match Recorded(r, m, paths[0])
      case Some(hit) => Some(hit.config)
      case None => FirstRecorded(r, m, paths[1..])
  }

  /** Once the flag is set, the configuration texts no longer change. */
  lemma {:induction false} FoundKeepsConfig(s: Scan, m: string, paths: seq<string>)
    requires m in ExpectedSuffix && WellFormed(s.results) && s.found
    ensures ScanMethod(s, m, paths).configs == s.configs
    decreases |paths|
  {
    if paths != [] {
      FoundKeepsConfig(RecordEnhanced(s, m, paths[0]), m, paths[1..]);
    }
  }

  /**
   First-config capture: a method's text stays as it was until its first
   recorded output, is taken from that output, and is not overwritten.
   */
  lemma {:induction false} ConfigCapture(r: Results, configs: map<string, string>, m: string, paths: seq<string>)
    requires m in ExpectedSuffix && WellFormed(r)
    ensures ScanMethod(Scan(r, configs, false), m, paths).configs ==
      match FirstRecorded(r, m, paths)
      case Some(text) => configs[m := text]
      case None => configs
    decreases |paths|
  {
    if paths != [] {
      var s := Scan(r, configs, false);
      var t := RecordEnhanced(s, m, paths[0]);
      if Recorded(r, m, paths[0]).Some? {
        FoundKeepsConfig(t, m, paths[1..]);
      } else {
        ConfigCapture(r, configs, m, paths[1..]);
      }
    }
  }

  /**
   An output whose name does not match, or whose base has no original,
   changes nothing.
   */
  lemma OrphanIgnored(s: Scan, m: string, path: string)
    requires m in ExpectedSuffix && WellFormed(s.results)
    requires Match(m, Basename(path)).None? || Match(m, Basename(path)).value.base !in s.results.entries
    ensures RecordEnhanced(s, m, path) == s
  {
  }

  /** A recorded output is stored under its base for its method. */
  lemma RecordedStored(s: Scan, m: string, path: string)
    requires m in ExpectedSuffix && WellFormed(s.results)
    requires Recorded(s.results, m, path).Some?
    ensures var b := Recorded(s.results, m, path).value.base;
      RecordEnhanced(s, m, path).results.entries[b].methods == s.results.entries[b].methods[m := path]
  {
  }

  /** The glob paths of a directory's visible `.wav` entries. */
  function WavPaths(dir: string, listing: seq<string>): (r: seq<string>)
    ensures |r| == |Glob(listing, ".wav")|
    ensures forall k :: 0 <= k < |r| ==> r[k] == Join(dir, Glob(listing, ".wav")[k])
  {
    var names := Glob(listing, ".wav");
    seq(|names|, k requires 0 <= k < |names| => Join(dir, names[k]))
  }

  /** `os.path.join(METHODS_DIR, method, "output")`. */
  function OutputDir(m: string): string {
    Join(Join(MethodsDir, m), "output")
  }

  /** The loop over the active methods, each with its flag reset. */
  function ScanMethods(s: Scan, methods: seq<string>, outputs: string -> seq<string>): (t: Scan)
    requires forall m :: m in methods ==> m in ExpectedSuffix
    requires WellFormed(s.results)
    ensures WellFormed(t.results) && t.results.order == s.results.order
    ensures t.results.entries.Keys == s.results.entries.Keys
    ensures forall k :: k in s.results.entries ==>
      && t.results.entries[k].original16 == s.results.entries[k].original16
      && t.results.entries[k].original44 == s.results.entries[k].original44
    decreases |methods|
  {
    if methods == [] then s
    else
      var m := methods[0];
      var u := ScanMethod(Scan(s.results, s.configs, false), m, WavPaths(OutputDir(m), outputs(m)));
      ScanMethods(u, methods[1..], outputs)
  }

  /**
   Outputs are recorded and texts captured only for the scanned methods:
   with every scanned method in `known`, nothing outside `known` appears,
   and no configuration text is dropped.
   */
  lemma {:induction false} ScanMethodsWithin(s: Scan, methods: seq<string>, outputs: string -> seq<string>, known: set<string>)
    requires forall m :: m in methods ==> m in ExpectedSuffix && m in known
    requires WellFormed(s.results) && MethodsWithin(s.results, known) && s.configs.Keys <= known
    ensures MethodsWithin(ScanMethods(s, methods, outputs).results, known)
    ensures s.configs.Keys <= ScanMethods(s, methods, outputs).configs.Keys <= known
    decreases |methods|
  {
    if methods != [] {
      var m := methods[0];
      var u := ScanMethod(Scan(s.results, s.configs, false), m, WavPaths(OutputDir(m), outputs(m)));
      assert m in known;
      ScanMethodsWithin(u, methods[1..], outputs, known);
    }
  }

  /** Every glob path of a listing without separators in its names is that name joined to the directory. */
  lemma WavPathsJoined(dir: string, listing: seq<string>)
    requires forall f :: f in listing ==> Sep !in f
    ensures forall p :: p in WavPaths(dir, listing) ==> Basename(p) != [] && p == Join(dir, Basename(p))
  {
    var names := Glob(listing, ".wav");
    forall p | p in WavPaths(dir, listing) ensures Basename(p) != [] && p == Join(dir, Basename(p)) {
      var k :| 0 <= k < |names| && p == Join(dir, names[k]);
      assert names[k] in names;
      BasenameOfJoin(dir, names[k]);
    }
  }

  /** Scanning the active methods' globs keeps every stored path a glob path. */
  lemma {:induction false} ScanMethodsFromGlobs(s: Scan, methods: seq<string>, outputs: string -> seq<string>)
    requires forall m :: m in methods ==> m in ExpectedSuffix
    requires forall m, f :: f in outputs(m) ==> Sep !in f
    requires WellFormed(s.results) && PathsFromGlobs(s.results)
    ensures PathsFromGlobs(ScanMethods(s, methods, outputs).results)
    decreases |methods|
  {
    if methods != [] {
      var m := methods[0];
      var paths := WavPaths(OutputDir(m), outputs(m));
      WavPathsJoined(OutputDir(m), outputs(m));
      ScanMethodFromGlob(Scan(s.results, s.configs, false), m, paths);
      ScanMethodsFromGlobs(ScanMethod(Scan(s.results, s.configs, false), m, paths), methods[1..], outputs);
    }
  }

  /** The names in `s`, each once, in order of first appearance (the keys of a dict built from `s`). */
  function Dedup(s: seq<string>): (r: seq<string>)
    ensures forall x :: x in r <==> x in s
    ensures Distinct(r)
    decreases |s|
  {
    if s == [] then []
    else
      var d := Dedup(s[..|s| - 1]);
      assert forall x :: x in s <==> x in s[..|s| - 1] || x == s[|s| - 1];
      if s[|s| - 1] in d then d else d + [s[|s| - 1]]
  }

  /** The configured directories of a listing, in listing order. */
  function Filter(listing: seq<string>, isDir: string -> bool): (r: seq<string>)
    ensures forall m :: m in r <==> m in listing && isDir(m) && m in ExpectedSuffix
  {
    if listing == [] then []
    else
      var rest := Filter(listing[1..], isDir);
      assert forall m :: m in listing <==> m == listing[0] || m in listing[1..];
      if isDir(listing[0]) && listing[0] in ExpectedSuffix then [listing[0]] + rest else rest
  }

  /** `active_method_configs`: the configured method directories, each once, in listing order. */
  function ActiveList(listing: seq<string>, isDir: string -> bool): (r: seq<string>)
    ensures forall m :: m in r <==> m in listing && isDir(m) && m in ExpectedSuffix
    ensures Distinct(r)
  {
    Dedup(Filter(listing, isDir))
  }

  /** What `find_files` returns. */
  datatype Found = Found(results: Results, methods: seq<string>, configs: map<string, string>)

  /** `valid_results`: the entries with an original, in the same order. */
  function KeepWithOriginal(r: Results): (t: Results)
    requires WellFormed(r)
    ensures WellFormed(t) && AllHaveOriginals(t)
    ensures forall k :: k in t.entries <==> k in r.entries && HasOriginal(r.entries[k])
    ensures forall k :: k in t.entries ==> t.entries[k] == r.entries[k]
  {
    Results(FilterKeys(r.order, r.entries), map k | k in r.entries && HasOriginal(r.entries[k]) :: r.entries[k])
  }

  /** When every entry already has an original, the filter keeps all of them in order. */
  lemma KeepAll(r: Results)
    requires WellFormed(r) && AllHaveOriginals(r)
    ensures KeepWithOriginal(r) == r
  {
    FilterKeysAll(r.order, r.entries);
  }

  /** The keys of `order` whose entry has an original, in order. */
  function FilterKeys(order: seq<string>, entries: map<string, Entry>): (r: seq<string>)
    requires forall k :: k in order ==> k in entries
    requires Distinct(order)
    ensures forall k :: k in r <==> k in order && HasOriginal(entries[k])
    ensures Distinct(r)
  {
    if order == [] then []
    else
      DistinctCons(order);
      assert forall k :: k in order <==> k == order[0] || k in order[1..];
      var rest := FilterKeys(order[1..], entries);
      if HasOriginal(entries[order[0]]) then
        DistinctCons([order[0]] + rest);
        assert ([order[0]] + rest)[1..] == rest;
        [order[0]] + rest
      else rest
  }

  lemma {:induction false} FilterKeysAll(order: seq<string>, entries: map<string, Entry>)
    requires forall k :: k in order ==> k in entries && HasOriginal(entries[k])
    requires Distinct(order)
    ensures FilterKeys(order, entries) == order
    decreases |order|
  {
    if order != [] {
      var rest := order[1..];
      DistinctCons(order);
      assert order[0] in order;
      assert forall k :: k in rest ==> k in order;
      FilterKeysAll(rest, entries);
      assert HasOriginal(entries[order[0]]);
      assert FilterKeys(order, entries) == [order[0]] + FilterKeys(rest, entries);
      assert order == [order[0]] + rest;
    }
  }

  /**
   `find_files`: originals from the prepared directory listing, outputs of
   every active method, and the active methods in sorted order.
   */
  function FindFiles(methodListing: seq<string>, isDir: string -> bool, preparedListing: seq<string>,
                     outputs: string -> seq<string>): (f: Found)
    ensures WellFormed(f.results) && AllHaveOriginals(f.results)
    ensures Sorted(f.methods) && Distinct(f.methods)
    ensures forall m :: m in f.methods <==> m in methodListing && isDir(m) && m in ExpectedSuffix
  {
    var active := ActiveList(methodListing, isDir);
    var scanned := Scanned(active, preparedListing, outputs);
    var methods := Sort(active);
    SortKeepsDistinct(active);
    assert forall m :: m in methods <==> m in active by {
      forall m ensures m in methods <==> m in active {
        assert m in methods <==> m in multiset(methods);
        assert m in active <==> m in multiset(active);
      }
    }
    Found(KeepWithOriginal(scanned.results), methods, scanned.configs)
  }

  /** The state after both loops of `find_files`. */
  function Scanned(active: seq<string>, preparedListing: seq<string>, outputs: string -> seq<string>): (s: Scan)
    requires forall m :: m in active ==> m in ExpectedSuffix
    ensures WellFormed(s.results)
  {
    var configs := map m | m in active :: NoConfig;
    var originals := ScanPrepared(Results([], map[]), WavPaths(PreparedDir, preparedListing));
    ScanMethods(Scan(originals, configs, false), active, outputs)
  }

  /**
   The entries `find_files` returns: one per base of an expected prepared
   name, each with an original.
   */
  lemma FindFilesKeys(methodListing: seq<string>, isDir: string -> bool, preparedListing: seq<string>,
                      outputs: string -> seq<string>, k: string)
    ensures k in FindFiles(methodListing, isDir, preparedListing, outputs).results.entries <==>
      exists p :: p in WavPaths(PreparedDir, preparedListing) && BaseOf(Classify(Basename(p))) == Some(k)
  {
    var active := ActiveList(methodListing, isDir);
    var configs := map m | m in active :: NoConfig;
    var paths := WavPaths(PreparedDir, preparedListing);
    var empty := Results([], map[]);
    var originals := ScanPrepared(empty, paths);
    PreparedHaveOriginals(empty, paths);
    PreparedKeys(empty, paths, k);
    var start := Scan(originals, configs, false);
    var scanned := ScanMethods(start, active, outputs);
    assert AllHaveOriginals(scanned.results);
    KeepAll(scanned.results);
  }

  /** `find_files` returns a configuration text for every active method and no other. */
  lemma FindFilesConfigs(methodListing: seq<string>, isDir: string -> bool, preparedListing: seq<string>,
                         outputs: string -> seq<string>)
    ensures var f := FindFiles(methodListing, isDir, preparedListing, outputs);
      f.configs.Keys == (set m | m in f.methods)
  {
    var f := FindFiles(methodListing, isDir, preparedListing, outputs);
    var active := ActiveList(methodListing, isDir);
    var known := set m | m in active;
    var configs := map m | m in active :: NoConfig;
    var paths := WavPaths(PreparedDir, preparedListing);
    var empty := Results([], map[]);
    var originals := ScanPrepared(empty, paths);
    PreparedNoMethods(empty, paths);
    var start := Scan(originals, configs, false);
    ScanMethodsWithin(start, active, outputs, known);
    assert configs.Keys == known;
    assert f.configs == ScanMethods(start, active, outputs).configs;
    SameMembers(active, f.methods);
  }

  /** Two lists with the same members have the same set of members. */
  lemma SameMembers(a: seq<string>, b: seq<string>)
    requires forall m :: m in a <==> m in b
    ensures (set m | m in a) == (set m | m in b)
  {
  }

  /** `find_files` records outputs only for active methods. */
  lemma FindFilesMethods(methodListing: seq<string>, isDir: string -> bool, preparedListing: seq<string>,
                         outputs: string -> seq<string>)
    ensures var f := FindFiles(methodListing, isDir, preparedListing, outputs);
      MethodsWithin(f.results, set m | m in f.methods)
  {
    var f := FindFiles(methodListing, isDir, preparedListing, outputs);
    var active := ActiveList(methodListing, isDir);
    var known := set m | m in active;
    var configs := map m | m in active :: NoConfig;
    var paths := WavPaths(PreparedDir, preparedListing);
    var empty := Results([], map[]);
    var originals := ScanPrepared(empty, paths);
    PreparedHaveOriginals(empty, paths);
    PreparedNoMethods(empty, paths);
    var scanned := ScanMethods(Scan(originals, configs, false), active, outputs);
    ScanMethodsWithin(Scan(originals, configs, false), active, outputs, known);
    assert AllHaveOriginals(scanned.results);
    KeepAll(scanned.results);
    SameMembers(active, f.methods);
  }

  /** Every path on the summary page comes from a glob: originals from the prepared directory, outputs from their method's. */
  lemma FindFilesPaths(methodListing: seq<string>, isDir: string -> bool, preparedListing: seq<string>,
                       outputs: string -> seq<string>)
    requires forall f :: f in preparedListing ==> Sep !in f
    requires forall m, f :: f in outputs(m) ==> Sep !in f
    ensures PathsFromGlobs(FindFiles(methodListing, isDir, preparedListing, outputs).results)
  {
    var active := ActiveList(methodListing, isDir);
    var configs := map m | m in active :: NoConfig;
    var paths := WavPaths(PreparedDir, preparedListing);
    var empty := Results([], map[]);
    WavPathsJoined(PreparedDir, preparedListing);
    PreparedFromGlob(empty, paths);
    var originals := ScanPrepared(empty, paths);
    ScanMethodsFromGlobs(Scan(originals, configs, false), active, outputs);
  }
}

=== FILE: summary_js.dfy ===
/**
 The comparison page's script (static/summary.js): the method filter
 toggled by the header buttons, which columns it shows, click-to-seek on a
 spectrogram, the `m:ss` hover label and the playback cursor. Times and
 pixel offsets are reals; the DOM, event wiring and animation frames are
 left out.
 */
module SummaryScript {
  import opened Common

  /** The filter: the `activeMethods` set and the methods whose button carries the `active` class. */
  datatype Filter = Filter(active: set<string>, buttons: set<string>)

  const Initial: Filter := Filter({}, {})

  /** The button state agrees with the set. */
  predicate Consistent(f: Filter) {
    f.active == f.buttons
  }

  /** `toggleMethod(m)`: the button's class decides whether `m` is removed or added. */
  function Toggle(f: Filter, m: string): (g: Filter)
    ensures Consistent(f) ==> Consistent(g)
    ensures Consistent(f) ==> (m in g.active <==> m !in f.active)
    ensures forall n :: n != m ==> (n in g.active <==> n in f.active) && (n in g.buttons <==> n in f.buttons)
  {
    if m in f.buttons then Filter(f.active - {m}, f.buttons - {m})
    else Filter(f.active + {m}, f.buttons + {m})
  }

  /** Toggling the same method twice restores both the set and the buttons. */
  lemma ToggleTwice(f: Filter, m: string)
    requires Consistent(f)
    ensures Toggle(Toggle(f, m), m) == f
  {
  }

  /** The filter after a sequence of button clicks from the page's initial state. */
  function Clicks(ms: seq<string>): (f: Filter)
    ensures Consistent(f)
  {
    if ms == [] then Initial else Toggle(Clicks(ms[..|ms| - 1]), ms[|ms| - 1])
  }

  /** A method is selected exactly when its button was clicked an odd number of times. */
  lemma {:induction false} ClicksParity(ms: seq<string>, m: string)
    ensures m in Clicks(ms).active <==> multiset(ms)[m] % 2 == 1
    decreases |ms|
  {
    if ms != [] {
      var init := ms[..|ms| - 1];
      ClicksParity(init, m);
      assert ms == init + [ms[|ms| - 1]];
      assert multiset(ms) == multiset(init) + multiset{ms[|ms| - 1]};
    }
  }

  /**
   Whether an element with the given `data-method` is displayed: with no
   method selected everything is, otherwise the original and the selected
   methods are.
   */
  predicate Shown(active: set<string>, tag: string) {
    active == {} || tag == "original" || tag in active
  }

  /** The original column is never hidden, and an empty selection hides nothing. */
  lemma OriginalAlwaysShown(active: set<string>, tag: string)
    ensures Shown(active, "original")
    ensures active == {} ==> Shown(active, tag)
    ensures active != {} && tag != "original" ==> (Shown(active, tag) <==> tag in active)
  {
  }

  /**
   After clicking one method's button on the fresh page, exactly the
   original and that method are shown; clicking it again shows everything.
   */
  lemma SelectOne(m: string, tag: string)
    ensures Shown(Clicks([m]).active, tag) <==> tag == "original" || tag == m
    ensures Shown(Clicks([m, m]).active, tag)
  {
    assert [m, m][..1] == [m];
    ToggleTwice(Initial, m);
  }

  /**
   The display of every `[data-method]` element after a toggle, in document
   order: with no method selected every element is shown; the original
   column always is; otherwise a method's element is shown exactly when
   that method is selected.
   */
  function Display(elements: seq<string>, f: Filter): (shown: seq<bool>)
    ensures |shown| == |elements|
    ensures f.active == {} ==> forall i :: 0 <= i < |shown| ==> shown[i]
    ensures forall i :: 0 <= i < |shown| && elements[i] == "original" ==> shown[i]
    ensures f.active != {} ==>
      forall i :: 0 <= i < |shown| && elements[i] != "original" ==> (shown[i] <==> elements[i] in f.active)
  {
    seq(|elements|, i requires 0 <= i < |elements| => Shown(f.active, elements[i]))
  }

  /** No method is selected exactly when every button was clicked an even number of times. */
  lemma NoneSelected(ms: seq<string>)
    ensures Clicks(ms).active == {} <==> forall m :: m in ms ==> multiset(ms)[m] % 2 == 0
  {
    if Clicks(ms).active != {} {
      var m :| m in Clicks(ms).active;
      ClicksParity(ms, m);
      assert m in multiset(ms);
    } else {
      forall m | m in ms
        ensures multiset(ms)[m] % 2 == 0
      {
        ClicksParity(ms, m);
      }
    }
  }

  /**
   After the clicks `ms` on the fresh page, element `i` is displayed exactly
   when it is the original, or every button was clicked an even number of
   times, or its own method's button was clicked an odd number of times.
   */
  lemma DisplayAfterClicks(elements: seq<string>, ms: seq<string>, i: int)
    requires 0 <= i < |elements|
    ensures Display(elements, Clicks(ms))[i] <==>
      elements[i] == "original"
      || (forall m :: m in ms ==> multiset(ms)[m] % 2 == 0)
      || multiset(ms)[elements[i]] % 2 == 1
  {
    NoneSelected(ms);
    ClicksParity(ms, elements[i]);
  }

  // Click-to-seek: progress = x / width, applied only within [0, 1].

  /** The seek a click at offset `x` makes: the new playback time and the cursor offset. */
  function Seek(x: real, width: real, duration: real): (r: Option<(real, real)>)
    ensures r.Some? ==> r.value.1 == x
    ensures width > 0.0 ==> (r.Some? <==> 0.0 <= x <= width)
    ensures width > 0.0 && duration >= 0.0 && r.Some? ==> 0.0 <= r.value.0 <= duration
    ensures width == 0.0 ==> r.None?
  {
    if width == 0.0 then None
    else
      var progress := x / width;
      if 0.0 <= progress <= 1.0 then
        assert width > 0.0 ==> 0.0 <= x <= width by {
          if width > 0.0 { Scale(progress, width); }
        }
        assert width > 0.0 && duration >= 0.0 ==> 0.0 <= progress * duration <= duration by {
          if duration >= 0.0 { Scale(progress, duration); }
        }
        Some((progress * duration, x))
      else
        assert width > 0.0 ==> !(0.0 <= x <= width) by {
          if width > 0.0 && 0.0 <= x <= width { Unscale(x, width); }
        }
        None
  }

  /** A fraction in [0, 1] of a non-negative amount lies between 0 and that amount. */
  lemma Scale(p: real, a: real)
    requires 0.0 <= p <= 1.0 && a >= 0.0
    ensures 0.0 <= p * a <= a
  {
    assert p * a <= 1.0 * a by {
      assert (1.0 - p) * a >= 0.0;
    }
  }

  lemma Unscale(x: real, w: real)
    requires w > 0.0 && 0.0 <= x <= w
    ensures 0.0 <= x / w <= 1.0
  {
    assert x / w * w == x;
  }

  // The hover label `m:ss`.

  /** Decimal digits of a natural number (`toString`). */
  function Decimal(n: nat): (s: string)
    ensures |s| >= 1
    ensures forall i :: 0 <= i < |s| ==> '0' <= s[i] <= '9'
    decreases n
  {
    if n < 10 then [Digit(n)] else Decimal(n / 10) + [Digit(n % 10)]
  }

  function Digit(d: nat): (c: char)
    requires d < 10
    ensures '0' <= c <= '9' && c as int - '0' as int == d
  {
    ('0' as int + d) as char
  }

  /** Reading the digits back. */
  function Value(s: string): int
    decreases |s|
  {
    if s == [] then 0 else Value(s[..|s| - 1]) * 10 + (s[|s| - 1] as int - '0' as int)
  }

  lemma {:induction false} DecimalValue(n: nat)
    ensures Value(Decimal(n)) == n
    decreases n
  {
    if n >= 10 {
      DecimalValue(n / 10);
      var s := Decimal(n);
      assert s[..|s| - 1] == Decimal(n / 10);
    }
  }

  /** `padStart(2, '0')`. */
  function Pad2(s: string): (r: string)
    ensures |s| >= 2 ==> r == s
    ensures |s| < 2 ==> |r| == 2 && r[2 - |s|..] == s
  {
    if |s| >= 2 then s else seq(2 - |s|, _ => '0') + s
  }

  /** The whole minutes and seconds of a non-negative time, as the label computes them. */
  function Clock(t: real): (ms: (int, int))
    requires t >= 0.0
  {
    var minutes := (t / 60.0).Floor;
    var seconds := (t - 60.0 * (t / 60.0).Floor as real).Floor;
    (minutes, seconds)
  }

  /** The label's fields are the whole seconds split into minutes and a remainder below 60. */
  lemma ClockSplits(t: real)
    requires t >= 0.0
    ensures Clock(t).0 >= 0 && 0 <= Clock(t).1 < 60
    ensures Clock(t).0 == t.Floor / 60 && Clock(t).1 == t.Floor % 60
  {
    var q := (t / 60.0).Floor;
    assert q as real <= t / 60.0 < q as real + 1.0;
    assert 60.0 * q as real <= t < 60.0 * q as real + 60.0;
    var rest := t - 60.0 * q as real;
    assert 0.0 <= rest < 60.0;
    var sec := rest.Floor;
    assert sec as real <= rest < sec as real + 1.0;
    assert t.Floor == 60 * q + sec by {
      assert (60 * q + sec) as real <= t < (60 * q + sec) as real + 1.0;
    }
  }

  /** The `m:ss` label for a non-negative time. */
  function Label(t: real): (s: string)
    requires t >= 0.0
  {
    ClockSplits(t);
    Decimal(Clock(t).0 as nat) + ":" + Pad2(Decimal(Clock(t).1 as nat))
  }

  /**
   The label ends in `:` and two digits holding the seconds below 60; the
   part before is the whole minutes.
   */
  lemma LabelReads(t: real)
    requires t >= 0.0
    ensures var s := Label(t); var n := |s|;
      && n >= 4 && s[n - 3] == ':'
      && Value(s[..n - 3]) == t.Floor / 60
      && Value(s[n - 2..]) == t.Floor % 60
  {
    ClockSplits(t);
    var (mins, secs) := Clock(t);
    var m := Decimal(mins as nat);
    var d := Decimal(secs as nat);
    var p := Pad2(d);
    DecimalValue(mins as nat);
    DecimalValue(secs as nat);
    assert |d| <= 2 by { if secs >= 10 { assert Decimal(secs as nat) == Decimal(secs / 10) + [Digit(secs % 10)]; } }
    assert |p| == 2;
    assert Value(p) == Value(d) by {
      if |d| == 1 {
        assert p[..1] == "0" && p[1] == d[0] && d[..0] == [];
      }
    }
    var s := Label(t);
    assert s == m + ":" + p;
    assert s[..|s| - 3] == m;
    assert s[|s| - 2..] == p;
  }

  /** What `mousemove` sets as the title: a label only when the hovered time lies within the clip. */
  function Hover(x: real, width: real, duration: real): (r: Option<string>)
    ensures r.Some? ==> width != 0.0 && 0.0 <= x / width * duration <= duration
    ensures r.Some? ==> r.value == Label(x / width * duration)
  {
    if width != 0.0 && 0.0 <= x / width * duration <= duration then Some(Label(x / width * duration))
    else None
  }

  /** Over a clip of positive length, the label is shown exactly for offsets within the image. */
  lemma HoverWithin(x: real, width: real, duration: real)
    requires width > 0.0 && duration > 0.0
    ensures Hover(x, width, duration).Some? <==> 0.0 <= x <= width
  {
    var t := x / width * duration;
    if 0.0 <= x <= width {
      Unscale(x, width);
      Scale(x / width, duration);
    } else if x < 0.0 {
      assert x / width < 0.0;
      assert t < 0.0;
    } else {
      assert x / width > 1.0 by {
        assert x / width * width == x;
      }
      assert t > duration by {
        assert (x / width - 1.0) * duration > 0.0;
      }
    }
  }

  /**
   `updateCursor`: nothing when the duration is unavailable (NaN, as `None`,
   or zero); otherwise the cursor offset for the current time.
   */
  function CursorOffset(duration: Option<real>, current: real, width: real): (r: Option<real>)
    ensures duration.None? || duration == Some(0.0) ==> r.None?
    ensures r.Some? ==> r.value == current / duration.value * width
  {
    match duration
    case None => None
    case Some(d) => if d == 0.0 then None else Some(current / d * width)
  }

  /** While playing within the clip, the cursor stays over the image. */
  lemma CursorWithin(d: real, current: real, width: real)
    requires d > 0.0 && 0.0 <= current <= d && width >= 0.0
    ensures CursorOffset(Some(d), current, width).Some?
    ensures 0.0 <= CursorOffset(Some(d), current, width).value <= width
  {
    var p := current / d;
    Unscale(current, d);
    Scale(p, width);
    assert CursorOffset(Some(d), current, width).Some?;
    assert CursorOffset(Some(d), current, width).value == p * width;
  }
}

=== FILE: summary_page.dfy ===
/**
 The summary page of summary.py (`generate_html` and `main`): which
 original each row plays, the cells per method, the spectrogram images the
 page links, and the method titles. The HTML text, the Jinja template and
 the file writes are left out; the page is its rows and headers.
 */
module SummaryPage {
  import opened Common
  import opened Strings
  import opened Paths
  import opened Sorting
  import opened SummaryConfig
  import opened SummaryFind
  import opened Spectrogram

  const SpectrogramsDir: string := "spectrograms"

  /** The prepared images' directory as the page spells it in its `replace`. */
  const PreparedImageDir: string := "spectrograms/prepared"

  /**
   The original a row plays: the 16k file by default, the 44k file when
   there is no 16k file or when some method recorded for the base prefers
   44k input. `None` or an empty path skips the row.
   */
  function PickOriginal(e: Entry): Option<string> {
    if !Truthy(e.original16) && Truthy(e.original44) then e.original44
    else if Truthy(e.original44) && exists m :: m in e.methods && Prefers44k(m) then e.original44
    else e.original16
  }

  /**
   With only configured methods recorded, the 44k original is played
   exactly when it exists and either the 16k one is missing or Supervoice
   has an output for the base; a row is shown exactly when an original exists.
   */
  lemma PickOriginalRule(e: Entry)
    requires e.methods.Keys <= ExpectedSuffix.Keys
    ensures PickOriginal(e) ==
      if Truthy(e.original44) && (!Truthy(e.original16) || "supervoice_flow" in e.methods) then e.original44
      else e.original16
    ensures Truthy(PickOriginal(e)) <==> HasOriginal(e)
  {
    if Truthy(e.original44) && Truthy(e.original16) {
      if "supervoice_flow" in e.methods {
        OnlySupervoicePrefers44k("supervoice_flow");
      } else {
        forall m | m in e.methods ensures !Prefers44k(m) {
          OnlySupervoicePrefers44k(m);
        }
      }
    }
  }

  /** One method column of a row: a player with its spectrogram, or the missing-file placeholder. */
  datatype Cell = Player(name: string, audio: string, image: string) | Missing(name: string)

  /** `os.path.join("spectrograms", method, basename(audio).replace(".wav", "_spectrogram.png"))`. */
  function MethodImage(m: string, audio: string): string {
    Join(Join(SpectrogramsDir, m), ReplaceAll(Basename(audio), ".wav", ImageSuffix))
  }

  /** The path of a prepared original with the prepared directory and `.wav` replaced. */
  function OriginalImage(path: string): string {
    ReplaceAll(ReplaceAll(path, PreparedDir, PreparedImageDir), ".wav", ImageSuffix)
  }

  /** The cells of one row, one per method in order; a player when the method recorded a non-empty path. */
  function Cells(e: Entry, methods: seq<string>): (cs: seq<Cell>)
    ensures |cs| == |methods|
    ensures forall i :: 0 <= i < |cs| ==> cs[i].name == methods[i]
    ensures forall i :: 0 <= i < |cs| ==> (cs[i].Player? <==> methods[i] in e.methods && e.methods[methods[i]] != "")
    ensures forall i :: 0 <= i < |cs| && cs[i].Player? ==> cs[i].audio == e.methods[methods[i]]
    ensures forall c :: c in cs && c.Player? ==> c.name in e.methods && c.audio == e.methods[c.name] && c.image == MethodImage(c.name, c.audio)
  {
    seq(|methods|, i requires 0 <= i < |methods| =>
      var m := methods[i];
      if m in e.methods && e.methods[m] != "" then Player(m, e.methods[m], MethodImage(m, e.methods[m]))
      else Missing(m))
  }

  /** One table row: the base name, the original played, its image, and the method cells. */
  datatype Row = Row(base: string, original: string, originalImage: string, cells: seq<Cell>)

  /** The rows for `keys` in order, skipping a base without an original to play. */
  function RowsOf(keys: seq<string>, r: Results, methods: seq<string>): (rows: seq<Row>)
    requires forall k :: k in keys ==> k in r.entries
    ensures |rows| <= |keys|
    ensures forall row :: row in rows ==>
      && row.base in keys && row.base in r.entries
      && Some(row.original) == PickOriginal(r.entries[row.base]) && row.original != ""
      && row.originalImage == OriginalImage(row.original) && row.cells == Cells(r.entries[row.base], methods)
  {
    if keys == [] then []
    else
      var rest := RowsOf(keys[1..], r, methods);
      assert forall k :: k in keys[1..] ==> k in keys;
      var e := r.entries[keys[0]];
      var o := PickOriginal(e);
      if Truthy(o) then [Row(keys[0], o.value, OriginalImage(o.value), Cells(e, methods))] + rest
      else rest
  }

  /** When every base has an original, every key gets its row, in the given order. */
  lemma {:induction false} RowsOfAll(keys: seq<string>, r: Results, methods: seq<string>)
    requires forall k :: k in keys ==> k in r.entries
    requires AllHaveOriginals(r) && MethodsWithin(r, ExpectedSuffix.Keys)
    ensures |RowsOf(keys, r, methods)| == |keys|
    ensures forall i :: 0 <= i < |keys| ==> RowsOf(keys, r, methods)[i].base == keys[i]
    decreases |keys|
  {
    if keys != [] {
      assert forall k :: k in keys[1..] ==> k in keys;
      PickOriginalRule(r.entries[keys[0]]);
      RowsOfAll(keys[1..], r, methods);
      var all := RowsOf(keys, r, methods);
      var rest := RowsOf(keys[1..], r, methods);
      assert |all| == |rest| + 1 && all[0].base == keys[0] && all[1..] == rest;
      BasesShift(all, rest, keys);
    }
  }

  /** Rows whose tail lines up with the tail of the keys line up with the keys. */
  lemma BasesShift(all: seq<Row>, rest: seq<Row>, keys: seq<string>)
    requires |keys| > 0 && |all| == |keys| && all[1..] == rest && all[0].base == keys[0]
    requires forall i :: 0 <= i < |keys| - 1 ==> rest[i].base == keys[1..][i]
    ensures forall i :: 0 <= i < |keys| ==> all[i].base == keys[i]
  {
    forall i | 1 <= i < |keys| ensures all[i].base == keys[i] {
      assert all[i] == rest[i - 1];
      assert keys[i] == keys[1..][i - 1];
    }
  }

  /** A column heading and its filter button: the method, its title and its configuration text. */
  datatype Header = Header(name: string, title: string, config: string)

  /** `method_configs.get(method, 'Config N/A')`. */
  function ConfigOf(configs: map<string, string>, m: string): string {
    if m in configs then configs[m] else NoConfig
  }

  /**
   The column headings, one per method in order: the configuration text is
   the method's captured one, and `Config N/A` exactly when none is known;
   the title is `SuperVoice` exactly for `supervoice_flow`, and otherwise
   the method name re-cased with `_` read as a space.
   */
  function Headers(methods: seq<string>, configs: map<string, string>): (hs: seq<Header>)
    ensures |hs| == |methods|
    ensures forall i :: 0 <= i < |hs| ==> hs[i].name == methods[i]
    ensures forall i :: 0 <= i < |hs| && methods[i] in configs ==> hs[i].config == configs[methods[i]]
    ensures forall i :: 0 <= i < |hs| ==>
      (hs[i].config == NoConfig <==> methods[i] !in configs || configs[methods[i]] == NoConfig)
    ensures forall i :: 0 <= i < |hs| ==> (hs[i].title == "SuperVoice" <==> methods[i] == "supervoice_flow")
    ensures forall i :: 0 <= i < |hs| && methods[i] != "supervoice_flow" ==>
      |hs[i].title| == |methods[i]| && Lower(hs[i].title) == Lower(Spaced(methods[i]))
  {
    assert forall i :: 0 <= i < |methods| ==> TitleOf(methods[i], MethodTitle(methods[i])) by {
      forall i | 0 <= i < |methods| {
        MethodTitleFacts(methods[i]);
      }
    }
    seq(|methods|, i requires 0 <= i < |methods| => Header(methods[i], MethodTitle(methods[i]), ConfigOf(configs, methods[i])))
  }

  /** The page's headers for what `find_files` returned: its methods, in order, each with its captured configuration. */
  lemma FindFilesHeaders(methodListing: seq<string>, isDir: string -> bool, preparedListing: seq<string>,
                         outputs: string -> seq<string>)
    ensures var f := FindFiles(methodListing, isDir, preparedListing, outputs);
      var hs := PageOf(f).headers;
      && |hs| == |f.methods|
      && (forall i :: 0 <= i < |hs| ==> hs[i].name == f.methods[i] && hs[i].name in f.configs && hs[i].config == f.configs[hs[i].name])
      && (forall i :: 0 <= i < |hs| ==> hs[i].name in methodListing && isDir(hs[i].name) && hs[i].name in ExpectedSuffix)
      && (forall m :: m in methodListing && isDir(m) && m in ExpectedSuffix ==> exists i :: 0 <= i < |hs| && hs[i].name == m)
      && (forall i, j :: 0 <= i < j < |hs| ==> hs[i].name != hs[j].name)
      && (forall i :: 0 <= i < |hs| ==> (hs[i].title == "SuperVoice" <==> hs[i].name == "supervoice_flow"))
  {
    var f := FindFiles(methodListing, isDir, preparedListing, outputs);
    FindFilesConfigs(methodListing, isDir, preparedListing, outputs);
    FoundHeaders(f);
  }

  /** The headers of a result whose every method has a captured configuration: the methods, in order, each with its own. */
  lemma FoundHeaders(f: Found)
    requires WellFormed(f.results)
    requires f.configs.Keys == (set m | m in f.methods)
    ensures var hs := PageOf(f).headers;
      && |hs| == |f.methods|
      && (forall i :: 0 <= i < |hs| ==> hs[i].name == f.methods[i] && hs[i].name in f.configs && hs[i].config == f.configs[hs[i].name])
      && (forall m :: m in f.methods <==> exists i :: 0 <= i < |hs| && hs[i].name == m)
      && (forall i :: 0 <= i < |hs| ==> (hs[i].title == "SuperVoice" <==> hs[i].name == "supervoice_flow"))
  {
    HeadersKnown(f.methods, f.configs);
    var hs := PageOf(f).headers;
    assert hs == Headers(f.methods, f.configs);
    forall m | m in f.methods
      ensures exists i :: 0 <= i < |hs| && hs[i].name == m
    {
      var i :| 0 <= i < |f.methods| && f.methods[i] == m;
      assert hs[i].name == m;
    }
  }

  /** When every method has a captured configuration, each heading carries its own. */
  lemma HeadersKnown(methods: seq<string>, configs: map<string, string>)
    requires configs.Keys == (set m | m in methods)
    ensures var hs := Headers(methods, configs);
      forall i :: 0 <= i < |hs| ==> hs[i].name in configs && hs[i].config == configs[hs[i].name]
  {
    var hs := Headers(methods, configs);
    forall i | 0 <= i < |hs|
      ensures hs[i].name in configs
    {
      assert methods[i] in (set m | m in methods);
    }
  }

  /** The page: headers in method order and rows in sorted base order. */
  datatype Page = Page(headers: seq<Header>, rows: seq<Row>)

  function PageOf(f: Found): Page
    requires WellFormed(f.results)
  {
    SortSameElements(f.results.order);
    Page(Headers(f.methods, f.configs), RowsOf(Sort(f.results.order), f.results, f.methods))
  }

  /** `main`: no page when nothing was found, otherwise the page of what `find_files` returned. */
  function Summary(f: Found): (p: Option<Page>)
    requires WellFormed(f.results)
    ensures p.None? <==> f.results.entries == map[]
  {
    if f.results.order == [] then
      assert f.results.entries == map[];
      None
    else
      assert f.results.order[0] in f.results.entries;
      Some(PageOf(f))
  }

  /** What `find_files` returns meets the conditions under which every base gets a row. */
  ghost predicate Complete(f: Found) {
    WellFormed(f.results) && AllHaveOriginals(f.results) && MethodsWithin(f.results, ExpectedSuffix.Keys)
  }

  lemma FindFilesComplete(methodListing: seq<string>, isDir: string -> bool, preparedListing: seq<string>,
                          outputs: string -> seq<string>)
    ensures Complete(FindFiles(methodListing, isDir, preparedListing, outputs))
  {
    FindFilesMethods(methodListing, isDir, preparedListing, outputs);
  }

  /** Every base gets its row, in sorted order. */
  lemma PageRowBases(f: Found)
    requires Complete(f)
    ensures |PageOf(f).rows| == |f.results.order|
    ensures forall i :: 0 <= i < |f.results.order| ==> PageOf(f).rows[i].base == Sort(f.results.order)[i]
  {
    var keys := Sort(f.results.order);
    SortSameElements(f.results.order);
    RowsOfAll(keys, f.results, f.methods);
    assert |multiset(keys)| == |multiset(f.results.order)|;
  }

  /**
   The page of a complete result: one header per method, and one row per
   base, in strictly increasing order of base names.
   */
  lemma PageRows(f: Found)
    requires Complete(f)
    ensures var p := PageOf(f);
      && |p.headers| == |f.methods|
      && |p.rows| == |f.results.order|
      && (forall i, j :: 0 <= i < j < |p.rows| ==> LessEq(p.rows[i].base, p.rows[j].base) && p.rows[i].base != p.rows[j].base)
      && (forall k :: k in f.results.entries <==> exists i :: 0 <= i < |p.rows| && p.rows[i].base == k)
  {
    var keys := Sort(f.results.order);
    SortKeepsDistinct(f.results.order);
    SortSameElements(f.results.order);
    PageRowBases(f);
    var rows := PageOf(f).rows;
    assert |rows| == |keys| by {
      assert |multiset(keys)| == |multiset(f.results.order)|;
    }
    RowsFollowKeys(rows, keys);
  }

  /** Rows whose bases are a strictly increasing key sequence, position by position. */
  lemma RowsFollowKeys(rows: seq<Row>, keys: seq<string>)
    requires |rows| == |keys| && Sorted(keys) && Distinct(keys)
    requires forall i :: 0 <= i < |keys| ==> rows[i].base == keys[i]
    ensures forall i, j :: 0 <= i < j < |rows| ==> LessEq(rows[i].base, rows[j].base) && rows[i].base != rows[j].base
    ensures forall k :: k in keys <==> exists i :: 0 <= i < |rows| && rows[i].base == k
  {
    forall k | k in keys ensures exists i :: 0 <= i < |rows| && rows[i].base == k {
      var i :| 0 <= i < |keys| && keys[i] == k;
      assert rows[i].base == k;
    }
  }

  /**
   A player links the image the spectrogram generator writes for its file:
   the generator, run on the method's output directory with images under
   `spectrograms/<method>`, reads that file and writes that image.
   */
  lemma MethodImageAgrees(m: string, f: string)
    requires f != [] && Sep !in f
    ensures var a := AttemptFor(OutputDir(m), Join(SpectrogramsDir, m), "", f);
      a.audio == Join(OutputDir(m), f) && a.image == MethodImage(m, Join(OutputDir(m), f))
  {
    BasenameOfJoin(OutputDir(m), f);
  }

  /**
   The original's image is the one the generator writes for the prepared
   directory, whose images go under `spectrograms/prepared`.
   */
  lemma OriginalImageAgrees(f: string)
    requires f != [] && Sep !in f
    ensures OriginalImage(Join(PreparedDir, f)) == AttemptFor(PreparedDir, Join(SpectrogramsDir, "prepared"), "", f).image
  {
    var img := ReplaceAll(f, ".wav", ImageSuffix);
    JoinBelow(PreparedDir, f);
    PreparedDirReplaced(f);
    ImageDirKeepsName(f);
    ReplaceAllAvoids(f, ".wav", ImageSuffix, Sep);
    ReplaceAllNonEmpty(f, ".wav", ImageSuffix);
    JoinBelow(PreparedImageDir, img);
    PreparedImageDirJoined();
  }

  /** Joining a name without separators below a directory that does not end in one inserts one `/`. */
  lemma JoinBelow(dir: string, name: string)
    requires dir != [] && dir[|dir| - 1] != Sep && name != [] && Sep !in name
    ensures Join(dir, name) == dir + ("/" + name) == (dir + "/") + name
  {
  }

  lemma PreparedImageDirJoined()
    ensures Join(SpectrogramsDir, "prepared") == PreparedImageDir
  {
  }

  /**
   Every image the page links is one the generator writes: a row's original
   image is the prepared directory's image for that file, and a player's
   image is its method directory's image for that output.
   */
  lemma PageImagesAgree(f: Found)
    requires WellFormed(f.results) && PathsFromGlobs(f.results)
    ensures forall row :: row in PageOf(f).rows ==>
      row.originalImage == AttemptFor(PreparedDir, Join(SpectrogramsDir, "prepared"), "", Basename(row.original)).image
    ensures forall row, c :: row in PageOf(f).rows && c in row.cells && c.Player? ==>
      AttemptFor(OutputDir(c.name), Join(SpectrogramsDir, c.name), "", Basename(c.audio)) == Attempt(c.audio, c.image)
  {
    var rows := PageOf(f).rows;
    forall row | row in rows
      ensures row.originalImage == AttemptFor(PreparedDir, Join(SpectrogramsDir, "prepared"), "", Basename(row.original)).image
    {
      PickedFromGlob(f.results.entries[row.base], row.original);
      OriginalImageAgrees(Basename(row.original));
    }
    forall row, c | row in rows && c in row.cells && c.Player?
      ensures AttemptFor(OutputDir(c.name), Join(SpectrogramsDir, c.name), "", Basename(c.audio)) == Attempt(c.audio, c.image)
    {
      var e := f.results.entries[row.base];
      assert IsOutputPath(c.name, e.methods[c.name]);
      MethodImageAgrees(c.name, Basename(c.audio));
    }
  }

  /** The original a row plays is one of its entry's prepared paths. */
  lemma PickedFromGlob(e: Entry, original: string)
    requires e.original16.Some? ==> IsPreparedPath(e.original16.value)
    requires e.original44.Some? ==> IsPreparedPath(e.original44.value)
    requires Some(original) == PickOriginal(e)
    ensures IsPreparedPath(original)
  {
  }

  /** The prepared directory occurs once, at the start of a prepared path. */
  lemma PreparedDirReplaced(f: string)
    requires Sep !in f
    ensures ReplaceAll(PreparedDir + ("/" + f), PreparedDir, PreparedImageDir) == PreparedImageDir + "/" + f
  {
    assert !Contains([], PreparedDir);
    assert NoStraddleLeft([], PreparedDir);
    ReplaceAllAt([], PreparedDir, "/" + f, PreparedImageDir);
    assert [] + PreparedDir + ("/" + f) == PreparedDir + ("/" + f);
    SlashNameLacksDir(f);
  }

  /** `/` followed by a name without separators does not contain the prepared directory, which has a `/` inside. */
  lemma SlashNameLacksDir(f: string)
    requires Sep !in f
    ensures !Contains("/" + f, PreparedDir)
  {
    var s := "/" + f;
    forall i ensures !OccursAt(s, PreparedDir, i) {
      if 0 <= i && i + |PreparedDir| <= |s| {
        if i == 0 {
          assert s[i..i + |PreparedDir|][0] == '/';
        } else {
          assert s[i..i + |PreparedDir|][6] == f[i + 5] && f[i + 5] in f;
        }
      }
    }
    ContainsIff(s, PreparedDir);
  }

  /** Replacing `.wav` leaves the image directory prefix alone. */
  lemma ImageDirKeepsName(f: string)
    ensures ReplaceAll((PreparedImageDir + "/") + f, ".wav", ImageSuffix) == (PreparedImageDir + "/") + ReplaceAll(f, ".wav", ImageSuffix)
  {
    var a := PreparedImageDir + "/";
    AbsentHead(a, ".wav");
    assert LeftSeamSafe(a, ".wav");
    LeftSeamSafeNoStraddle(a, ".wav");
    ReplaceAllConcat(a, f, ".wav", ImageSuffix);
  }

  // Method titles: `method.replace('_', ' ').title()`, with Supervoice named by hand.

  /** ASCII letters are Python's cased characters here. */
  predicate Cased(c: char) {
    'a' <= c <= 'z' || 'A' <= c <= 'Z'
  }

  function UpperChar(c: char): (d: char)
    ensures Cased(d) <==> Cased(c)
    ensures LowerChar(d) == LowerChar(c)
  {
    if 'a' <= c <= 'z' then (c as int - 'a' as int + 'A' as int) as char else c
  }

  /**
   `str.title` from a given state: a cased character after a cased one is
   lowered, any other cased character is raised, the rest are kept.
   */
  function TitleFrom(s: string, afterCased: bool): (r: string)
    ensures |r| == |s|
    ensures forall i :: 0 <= i < |s| ==> (Cased(r[i]) <==> Cased(s[i])) && LowerChar(r[i]) == LowerChar(s[i])
    ensures forall i :: 0 <= i < |s| && !Cased(s[i]) ==> r[i] == s[i]
  {
    if s == [] then []
    else
      var c := if afterCased then LowerChar(s[0]) else UpperChar(s[0]);
      [c] + TitleFrom(s[1..], Cased(s[0]))
  }

  function Title(s: string): string {
    TitleFrom(s, false)
  }

  /** Title-casing a title changes nothing. */
  lemma {:induction false} TitleFromIdempotent(s: string, afterCased: bool)
    ensures TitleFrom(TitleFrom(s, afterCased), afterCased) == TitleFrom(s, afterCased)
    decreases |s|
  {
    if s != [] {
      var t := TitleFrom(s, afterCased);
      assert t[1..] == TitleFrom(s[1..], Cased(s[0]));
      assert Cased(t[0]) == Cased(s[0]);
      TitleFromIdempotent(s[1..], Cased(s[0]));
    }
  }

  lemma TitleIdempotent(s: string)
    ensures Title(Title(s)) == Title(s)
  {
    TitleFromIdempotent(s, false);
  }

  /** `replace('_', ' ')` on single characters. */
  function Spaced(m: string): (r: string)
    ensures |r| == |m| && '_' !in r
    ensures forall i :: 0 <= i < |m| && m[i] != '_' ==> r[i] == m[i]
  {
    seq(|m|, i requires 0 <= i < |m| => if m[i] == '_' then ' ' else m[i])
  }

  function MethodTitle(m: string): string {
    if m == "supervoice_flow" then "SuperVoice" else Title(Spaced(m))
  }

  /** What a method's title is: `SuperVoice` for `supervoice_flow`, and otherwise its name re-cased, never `SuperVoice`. */
  ghost predicate TitleOf(m: string, t: string) {
    && (t == "SuperVoice" <==> m == "supervoice_flow")
    && (m != "supervoice_flow" ==> |t| == |m| && Lower(t) == Lower(Spaced(m)))
  }

  /** Inside a word, `str.title` lowers: a character after a cased one comes out lower-cased. */
  lemma {:induction false} TitleFromLowersInside(s: string, afterCased: bool, i: int)
    requires 1 <= i < |s| && Cased(s[i - 1])
    ensures TitleFrom(s, afterCased)[i] == LowerChar(s[i])
    decreases i
  {
    assert TitleFrom(s, afterCased)[1..] == TitleFrom(s[1..], Cased(s[0]));
    if i > 1 {
      TitleFromLowersInside(s[1..], Cased(s[0]), i - 1);
    }
  }

  /** No title reads `SuperVoice`: its `V` follows the cased `r`, so `title()` would lower it. */
  lemma TitleNotSuperVoice(s: string)
    ensures Title(s) != "SuperVoice"
  {
    var t := Title(s);
    if |t| == 10 && t[4] == 'r' {
      assert Cased(s[4]);
      TitleFromLowersInside(s, false, 5);
      assert t[5] != 'V';
    }
  }

  /** A method's title is `SuperVoice` for `supervoice_flow` alone, and otherwise its name re-cased. */
  lemma MethodTitleFacts(m: string)
    ensures TitleOf(m, MethodTitle(m))
  {
    if m != "supervoice_flow" {
      MethodTitleWords(m);
      TitleNotSuperVoice(Spaced(m));
    }
  }

  /**
   A title differs from its method name only in case and in spaces for
   underscores: lower-cased, it is the name with `_` read as a space.
   */
  lemma MethodTitleWords(m: string)
    requires m != "supervoice_flow"
    ensures |MethodTitle(m)| == |m|
    ensures '_' !in MethodTitle(m)
    ensures Lower(MethodTitle(m)) == Lower(Spaced(m))
  {
    var t := MethodTitle(m);
    assert Lower(t) == Lower(Spaced(m));
  }
}

=== FILE: supervoice.dfy ===
/**
 The Supervoice Enhance method (methods/supervoice_flow/run.py): which files
 the script enhances, what it names the results, and the shape and rate
 decisions `enhance_audio` takes around the model. Tensors are reduced to
 their shapes; the model and the resampler are parameters.
 */
module Supervoice {
  import opened Common
  import opened Strings
  import opened Paths
  import opened Batch

  const Suffix: string := "_supervoiceenhance.wav"
  const DefaultSteps: nat := 8

  /** `f.lower().endswith(".wav")`. */
  predicate IsWav(name: string) {
    EndsWith(Lower(name), ".wav")
  }

  /** The directory entries the script enhances, in listing order (`os.listdir` hides nothing). */
  function WavFiles(listing: seq<string>): (r: seq<string>)
    ensures forall f :: f in r <==> f in listing && IsWav(f)
    ensures |r| <= |listing|
  {
    if listing == [] then []
    else
      var rest := WavFiles(listing[1..]);
      if IsWav(listing[0]) then [listing[0]] + rest else rest
  }

  /** `f"{os.path.splitext(filename)[0]}_supervoiceenhance.wav"`. */
  function OutputName(filename: string): string {
    SplitExt(filename).0 + Suffix
  }

  /** For a prepared name `x_44k.wav` the output is `x_44k_supervoiceenhance.wav`. */
  lemma OutputNameOfPrepared(x: string)
    requires Sep !in x
    ensures OutputName(x + "_44k.wav") == x + "_44k" + Suffix
  {
    var stem := x + "_44k";
    assert stem[|x|] == '_';
    assert Sep !in stem by {
      assert forall k :: 0 <= k < |stem| ==> stem[k] == (if k < |x| then x[k] else "_44k"[k - |x|]);
    }
    SplitExtWav(stem);
    assert stem + ".wav" == x + "_44k.wav";
  }

  /** The extension is dropped whatever its case: `A.WAV` becomes `A_supervoiceenhance.wav`. */
  lemma UpperCaseExtension()
    ensures IsWav("A.WAV")
    ensures OutputName("A.WAV") == "A" + Suffix
  {
    assert Lower("A.WAV") == "a.wav";
    assert ".WAV"[1..] == "WAV";
    assert "A" + ".WAV" == "A.WAV" && "A"[0] != '.';
    SplitExtOf("A", ".WAV");
  }

  /** What the script is pointed at. */
  datatype Input = Directory(listing: seq<string>) | WavFile | Other

  datatype Outcome = LoadFailed | Invalid | Run(jobs: seq<Job>)

  /**
   The script's main block: load the model (exiting on failure), then every
   `.wav` entry of a directory, or the single `.wav` file, or an error. There
   is no skip-existing rule: outputs are overwritten.
   */
  function Main(modelLoads: bool, inputPath: string, kind: Input, outDir: string): (r: Outcome)
    ensures r.LoadFailed? <==> !modelLoads
    ensures r.Invalid? <==> modelLoads && !kind.Directory? && !(kind.WavFile? && IsWav(inputPath))
    ensures r.Run? && kind.Directory? ==> |r.jobs| == |WavFiles(kind.listing)|
    ensures r.Run? && kind.Directory? ==> forall k :: 0 <= k < |r.jobs| ==>
      var f := WavFiles(kind.listing)[k];
      IsWav(f) && f in kind.listing && r.jobs[k] == Job(Join(inputPath, f), Join(outDir, OutputName(f)))
    ensures r.Run? && !kind.Directory? ==>
      r.jobs == [Job(inputPath, Join(outDir, OutputName(Basename(inputPath))))]
  {
    if !modelLoads then LoadFailed
    else match kind
      case Directory(listing) =>
        var wavs := WavFiles(listing);
        Run(seq(|wavs|, k requires 0 <= k < |wavs| => Job(Join(inputPath, wavs[k]), Join(outDir, OutputName(wavs[k])))))
      case WavFile =>
        if IsWav(inputPath) then Run([Job(inputPath, Join(outDir, OutputName(Basename(inputPath))))])
        else Invalid
      case Other => Invalid
  }

  /**
   What `enhance_audio` hands to the model: whether it resampled, whether it
   averaged channels, the waveform's shape, and its rate.
   */
  datatype ModelInput = ModelInput(resampled: bool, averaged: bool, shape: seq<nat>, rate: int)

  /**
   The preparation in `enhance_audio` for a `[channels, frames]` tensor at
   rate `sr`: resample to the model's rate when the rates differ (the
   resampler turns `frames` into `resampledFrames`), average more than one
   channel into one, and squeeze a single channel away.
   */
  function PrepareInput(modelRate: int, sr: int, channels: nat, frames: nat, resampledFrames: nat): (m: ModelInput)
    ensures m.resampled <==> sr != modelRate
    ensures m.rate == modelRate
    ensures m.averaged <==> channels > 1
    ensures channels >= 1 ==> m.shape == [if sr != modelRate then resampledFrames else frames]
    ensures channels == 0 ==> |m.shape| == 2 && m.shape[0] == 0
  {
    var resample := sr != modelRate;
    var len := if resample then resampledFrames else frames;
    var rate := if resample then modelRate else sr;
    var ch := if channels > 1 then 1 else channels;
    var shape := if ch == 1 then [len] else [ch, len];
    ModelInput(resample, channels > 1, shape, rate)
  }

  /** The shape `soundfile` is given: a 1-D result gets a trailing channel axis. */
  function WrittenShape(enhanced: seq<nat>): (s: seq<nat>)
    ensures |enhanced| == 1 ==> |s| == 2 && s[0] == enhanced[0] && s[1] == 1
    ensures |enhanced| != 1 ==> s == enhanced
  {
    if |enhanced| == 1 then enhanced + [1] else enhanced
  }

  /** A written file: its `[frames, channels]` shape and rate. */
  datatype Saved = Saved(shape: seq<nat>, rate: int)

  /**
   `enhance_audio`: skipped when no model is loaded (`modelRate` is None);
   otherwise the model (a function on shapes) runs on the prepared waveform
   and the result is written at the model's rate.
   */
  function EnhanceAudio(modelRate: Option<int>, enhance: seq<nat> -> seq<nat>,
                        sr: int, channels: nat, frames: nat, resampledFrames: nat): (r: Option<Saved>)
    ensures r.None? <==> modelRate.None?
    ensures r.Some? ==> r.value.rate == modelRate.value
    ensures r.Some? ==> r.value.shape == WrittenShape(enhance(PrepareInput(modelRate.value, sr, channels, frames, resampledFrames).shape))
  {
    match modelRate
    case None => None
    case Some(rate) =>
      var input := PrepareInput(rate, sr, channels, frames, resampledFrames);
      Some(Saved(WrittenShape(enhance(input.shape)), rate))
  }

  /**
   A model that maps a 1-D waveform to a 1-D waveform: any input with at
   least one channel is written as one channel at the model's rate.
   */
  lemma MonoRoundTrip(modelRate: int, enhance: seq<nat> -> seq<nat>, sr: int, channels: nat, frames: nat, resampledFrames: nat)
    requires channels >= 1
    requires forall s :: |s| == 1 ==> |enhance(s)| == 1
    ensures var r := EnhanceAudio(Some(modelRate), enhance, sr, channels, frames, resampledFrames);
      r.Some? && r.value.rate == modelRate && |r.value.shape| == 2 && r.value.shape[1] == 1
  {
    var input := PrepareInput(modelRate, sr, channels, frames, resampledFrames);
    assert |input.shape| == 1;
  }
}

=== FILE: voice_fixer.dfy ===
/**
 The VoiceFixer method (methods/voice_fixer_mode_1/run.py): the `*_44k.wav`
 inputs, the output names with their mode tag, and the skip-existing rule.
 VoiceFixer itself (`restore`) is not modelled; a run is the list of
 restore jobs it would carry out.
 */
module VoiceFixer {
  import opened Strings
  import opened Paths
  import opened Batch

  const SampleRateKey: string := "_44k"
  const InputSuffix: string := "_44k.wav"
  const ExpectedSampleRate: int := 44100
  /** The script fixes the mode and the tag. */
  const DefaultMode: int := 1
  const DefaultSuffixTag: string := "mode1"

  /** `f"_{suffix_tag}" if suffix_tag else ""`. */
  function TagPart(tag: string): (t: string)
    ensures tag == "" <==> t == ""
    ensures tag != "" ==> t[0] == '_' && t[1..] == tag
  {
    if tag != "" then "_" + tag else ""
  }

  /** `_vf{tag_part}_enhanced`: `_vf_mode1_enhanced` for the script's tag, `_vf_enhanced` for none. */
  function EnhancedTag(tag: string): (t: string)
    ensures tag == DefaultSuffixTag ==> t == "_vf_mode1_enhanced"
    ensures tag == "" ==> t == "_vf_enhanced"
  {
    "_vf" + TagPart(tag) + "_enhanced"
  }

  /** Every `_44k` in the input name becomes the tag. */
  function OutputName(name: string, tag: string): string {
    ReplaceAll(name, SampleRateKey, EnhancedTag(tag))
  }

  /**
   A run: no inputs ends it before VoiceFixer is initialised; a failing
   `VoiceFixer()`, which no `try` guards, ends it with an uncaught exception
   before any input; otherwise every input whose output is missing when its
   turn comes is restored with `mode`.
   */
  datatype Outcome = NoInputs | BuildFailed | Ran(mode: int, jobs: seq<Job>)

  /**
   `main`: `builds` says whether constructing VoiceFixer succeeds, and
   `writes(f)` whether restoring `f` wrote its output (a restore error is
   caught and logged, leaving no file).
   */
  function Main(listing: seq<string>, outDir: string, mode: int, tag: string, builds: bool,
                present: string -> bool, writes: string -> bool): (r: Outcome)
    ensures r.NoInputs? <==> NoCandidates(listing, "_44k.wav")
    ensures r.BuildFailed? <==> !NoCandidates(listing, "_44k.wav") && !builds
    ensures r.Ran? ==> r.mode == mode
    ensures r.Ran? ==> forall j :: j in r.jobs ==>
      && j.input in listing && EndsWith(j.input, "_44k.wav") && !Hidden(j.input)
      && j.output == Join(outDir, OutputName(j.input, tag)) && !present(j.output)
    ensures r.Ran? ==> forall f ::
      (f in listing && EndsWith(f, "_44k.wav") && !Hidden(f) && !present(Join(outDir, OutputName(f, tag)))
       && UniqueOutput(Glob(listing, "_44k.wav"), outDir, Renamer(SampleRateKey, EnhancedTag(tag)), f))
      ==> Job(f, Join(outDir, OutputName(f, tag))) in r.jobs
    ensures r.Ran? && (forall f :: f in listing ==> writes(f)) ==>
      forall i, k :: 0 <= i < k < |r.jobs| ==> r.jobs[i].output != r.jobs[k].output
  {
    GlobEmpty(listing, InputSuffix);
    if Glob(listing, InputSuffix) == [] then NoInputs
    else if !builds then BuildFailed
    else Ran(mode, GlobRun(listing, InputSuffix, outDir, Renamer(SampleRateKey, EnhancedTag(tag)), present, writes))
  }

  /** The script's entry point: mode 1 with tag `mode1`. */
  function ScriptMain(listing: seq<string>, outDir: string, builds: bool, present: string -> bool, writes: string -> bool): (r: Outcome)
    ensures r.Ran? ==> r.mode == 1
    ensures r.Ran? ==> forall j :: j in r.jobs ==> j.output == Join(outDir, OutputName(j.input, "mode1"))
  {
    Main(listing, outDir, DefaultMode, DefaultSuffixTag, builds, present, writes)
  }

  /**
   Rerunning once every planned output exists plans nothing: an existing
   output is never reprocessed.
   */
  lemma RerunSkips(listing: seq<string>, outDir: string, mode: int, tag: string, builds: bool,
                   present: string -> bool, writes: string -> bool)
    requires forall f :: f in listing && EndsWith(f, "_44k.wav") && !Hidden(f) ==> present(Join(outDir, OutputName(f, tag)))
    ensures Main(listing, outDir, mode, tag, builds, present, writes).Ran? ==>
      Main(listing, outDir, mode, tag, builds, present, writes).jobs == []
  {
    RunAllPresent(Glob(listing, InputSuffix), outDir, Renamer(SampleRateKey, EnhancedTag(tag)), present, writes, {});
  }

  /**
   On prepared inputs (`<stem>_44k.wav`, the stem holding no `_44k`) listed
   once each and a tag without a path separator, distinct inputs get
   distinct outputs, so the loop runs every input whose output did not
   exist before the run, as a snapshot of the output directory would decide.
   */
  lemma PreparedRunIsPlan(listing: seq<string>, outDir: string, mode: int, tag: string, builds: bool,
                          present: string -> bool, writes: string -> bool)
    requires Sep !in tag
    requires Sorting.Distinct(listing)
    requires forall f :: Candidate(listing, InputSuffix, f) ==>
      Sep !in f && !Contains(f[..|f| - |InputSuffix|], SampleRateKey)
    ensures var r := Main(listing, outDir, mode, tag, builds, present, writes);
      r.Ran? ==> r.jobs == GlobPlan(listing, InputSuffix, outDir, Renamer(SampleRateKey, EnhancedTag(tag)), present)
  {
    RateKeysPlain();
    TagPlain(tag);
    MainRuns(listing, outDir, mode, tag, builds, present, writes);
    RenamedRunIsPlan(listing, InputSuffix, SampleRateKey, EnhancedTag(tag), outDir, present, writes);
  }

  /** A run's jobs are the batch loop's over the glob. */
  lemma MainRuns(listing: seq<string>, outDir: string, mode: int, tag: string, builds: bool,
                 present: string -> bool, writes: string -> bool)
    ensures var r := Main(listing, outDir, mode, tag, builds, present, writes);
      r.Ran? ==> r.jobs == GlobRun(listing, InputSuffix, outDir, Renamer(SampleRateKey, EnhancedTag(tag)), present, writes)
  {
  }

  /** A tag without a path separator gives an output tag without one. */
  lemma TagPlain(tag: string)
    requires Sep !in tag
    ensures Sep !in EnhancedTag(tag)
  {
    assert forall c :: c in EnhancedTag(tag) ==> c in "_vf_enhanced" || c in tag;
  }
}
